=== FILE: README.md ===
# kakumemo2 core in Dafny

kakumemo2 is a browser notebook for fighting-game players. Notes live in a
tree of games, characters and categories. The model covers:

- the data store of the modular build (`Store`, `StoreFacts`, `StoreCascade`);
- the store of the single-file build (`LegacyStore`);
- the Markdown table editor (`Table`, `TableFacts`) and the new-file dialog that feeds it (`TableFiles`);
- the two tab bars (`AppTabs` for the single-file build, `Tabs` for the modular one);
- the extended keyboard of combo-notation buttons (`Keyboard`);
- the explorer side panel (`Explorer`);
- the rich-text editor and its Markdown converters (`Editor`).

Every operation is a pure function from one state to the next. Failures
that the source throws become `Failure` values of a `Result`. Clock
readings and generated ids are parameters (`now`, `id`). So are answers the
page gives, such as whether a DOM element exists or whether the user
confirmed a dialog.

Shared helpers are in `Wrappers` (`Option`, `Result`), `Strings` (trim,
split/join, `includes`, lower case, `replace` with a literal pattern),
`Seqs` (`findIndex`, `splice`, sums, filter-map) and `OrderedMap`. A JS
`Map` or a plain object is an `OMap`: a map plus its key order.

A JavaScript object that several structures share is modelled by value. Where
the sharing matters, as in the single-file store, the model states it as
an invariant (`LegacyStore.Coherent`) and checks the operations against it.

`searchFiles` in `src/core/DataManager.js` has no guard against a blank
query; its caller in `src/KakuMemoApp.js` checks `query.trim()` before it
asks. So `Store.SearchFiles` matches every titled file on the empty query
(`StoreFacts.SearchEmptyQueryHitsAll`).

A quirk that follows from the file-name rule: a note named `x.table`
becomes `x.table.md` and opens in the table editor
(`TableFacts.OpensInTableEditorExactly`).

## Model

| member | source | states |
|---|---|---|
| Store.InitialData | src/core/DataManager.js:2-13 | a new store has no games and no files, and its settings are the dark theme with auto-save every 3000 ms |
| Store.GameIndex | src/core/DataManager.js:123-125 | the index of the first game with the id; none exactly when no game has it |
| Store.GetGame | src/core/DataManager.js:123-125 | `getGame` finds a game exactly when one has the id, and returns the first stored game with that id, as `find` does |
| Store.GetCharacter | src/core/DataManager.js:212-219 | the lookup is scoped to the named game: a missing game gives nothing; in a found game, a character is found exactly when one has the id, and it is the first such character |
| Store.FileIndex | src/core/DataManager.js:317-319 | the index of the first file with the id; none exactly when no file has it |
| Store.GetFile | src/core/DataManager.js:317-319 | `getFile` finds a file exactly when one has the id, and returns the first stored file with that id, as `find` does |
| Store.FindCategory | src/core/DataManager.js:281-302 | the nested loops find the first category in tree order that satisfies the test; none exactly when no category does |
| Store.FindCharacter | src/core/DataManager.js:229-238 | the first character with the id, in game order and then character order; none exactly when no game has it |
| Store.CreateGame | src/core/DataManager.js:104-118 | a new empty game is appended with both stamps set to now; files and settings are unchanged |
| Store.CreateCharacter | src/core/DataManager.js:182-207 | fails with "game not found" exactly when no game has the id; otherwise one character is appended to the first such game, that game is touched and nothing else changes |
| Store.CreateCategory | src/core/DataManager.js:224-264 | fails exactly when no character in any game has the id; otherwise one category is appended to the first such character, which is touched along with its game, and nothing else changes |
| StoreFacts.CreateCategoryShape | src/core/DataManager.js:224-264 | after `createCategory` every old tree position holds the same category, the new category is last under its parent, and no other position is new |
| StoreFacts.CreateCategoryKeepsListed | src/core/DataManager.js:224-264 | `createCategory` keeps every stored file listed by some category |
| StoreFacts.CreateCategoryThenFind | src/core/DataManager.js:224-264 | a category created under an id no category had is the one the tree scan for that id finds |
| Store.WithCategory | src/core/DataManager.js:286-297 | writing back one category changes only that category, and touches its character and game |
| Store.CreateFile | src/core/DataManager.js:269-312 | fails exactly when no category has the id; otherwise the file record is appended to `files`, its id is appended to the first such category, and the settings stay |
| Store.UpdateGame | src/core/DataManager.js:137-149 | fails exactly for an unknown id; otherwise each supplied field replaces the stored one, `lastModified` becomes now and the other games stay |
| Store.UpdateFile | src/core/DataManager.js:324-336 | fails exactly for an unknown id; otherwise only the supplied fields change on the first file with the id, `lastModified` becomes now, and the tree stays |
| Store.UpdateSettings | src/core/DataManager.js:454-457 | each supplied setting replaces the stored one and the rest are kept; games and files are untouched |
| Store.StripCategory | src/core/DataManager.js:354-363 | the category's list loses the first occurrence of the id, and the category is touched only if the id was listed |
| Store.StripCharacter | src/core/DataManager.js:352-365 | every category of the character is stripped, and the character is touched only if one of them listed the id |
| Store.StripGame | src/core/DataManager.js:350-367 | every character of the game is stripped, and the game is touched only if one of its categories listed the id |
| Store.DeleteFile | src/core/DataManager.js:341-372 | fails exactly for an unknown id; otherwise the first file with the id is spliced out, every category drops the id and is touched if it listed it, every character and game is touched exactly when one of its categories listed the id and keeps its other fields, and the tree keeps its shape |
| Store.StripGames | src/core/DataManager.js:349-368 | every category of the tree, and only it, has the deleted id removed (stamped when it was listed); each game is the old one walked by `StripGame`, so it and each of its characters is touched exactly when one of its categories listed the id; the games, characters and categories keep their ids, names and order |
| Store.GetFilePath | src/core/DataManager.js:410-430 | "game > character > category" for the first category in tree order that lists the file; the empty string when the file is missing or listed nowhere |
| Store.HitFor | src/core/DataManager.js:383-401 | a title hit exactly when the title is non-empty and contains the query ignoring case; otherwise a content hit exactly when the content does; each hit carries the file's path |
| Store.SearchFiles | src/core/DataManager.js:377-405 | the search yields no more hits than there are files |
| Store.HitsFor | src/core/DataManager.js:381-402 | the loop body applied to each file is the per-file rule |
| Store.GetStatistics | src/core/DataManager.js:90-99 | the totals count the games and the files, sum the characters over the games and sum the content lengths, in UTF-16 code units as `.length` counts them, over the files |
| Strings.Utf16Length | src/core/DataManager.js:96-97 | `.length` counts UTF-16 code units: at least one and at most two per character, and exactly one per character just when every character lies in the Basic Multilingual Plane |
| Strings.Utf16LengthAppend | src/core/DataManager.js:96-97 | the length of a concatenation is the sum of the lengths |
| Store.ResetData | src/core/DataManager.js:462-473 | resetting leaves no games and no files, and the default settings |
| Store.ExportData | src/core/DataManager.js:478-480 | the export carries the games, the files and the settings |
| Store.ImportData | src/core/DataManager.js:485-501 | unparsable text fails; a payload whose `games` is not an array fails as an invalid format; otherwise the payload's keys replace the stored ones and the absent ones are kept |
| StoreFacts.DeleteFileKeepsOthers | src/core/DataManager.js:341-372 | deleting a file keeps every other file record and every other listing |
| StoreFacts.DeleteFileRemovesId | src/core/DataManager.js:341-372 | with distinct ids, the deleted id can no longer be found |
| StoreFacts.DeleteFileKeepsListing | src/core/DataManager.js:350-368 | a category still lists every other id after a deletion |
| StoreFacts.DeleteFileKeepsListed | src/core/DataManager.js:341-372 | deleting a file preserves the invariant that every stored file is listed by some category |
| StoreFacts.WithCategoryElsewhere | src/core/DataManager.js:286-297 | writing back one category leaves every other category as it was |
| StoreFacts.CreateFileThenGet | src/core/DataManager.js:269-319 | a file created under a fresh id is then found by `getFile` with exactly the given fields, and the ids stay distinct |
| StoreFacts.CreateCharacterThenGet | src/core/DataManager.js:182-219 | a character created in a game that had no character with its id is then found by `getCharacter` with the given fields |
| StoreFacts.UpdateGameThenGet | src/core/DataManager.js:123-149 | after `updateGame` that keeps the id, `getGame` shows each supplied field, the stored value of every other field, and the new stamp |
| StoreFacts.UpdateSettingsLaws | src/core/DataManager.js:454-457 | merging in the stored settings, or nothing, changes nothing, and merging the same update twice equals merging it once |
| StoreFacts.CreateFileKeepsListed | src/core/DataManager.js:269-312 | creating a file preserves the invariant that every stored file is listed |
| StoreFacts.WithCategoryShape | src/core/DataManager.js:286-297 | writing back a category with the same id and name keeps the tree's shape |
| StoreFacts.CreateFileShape | src/core/DataManager.js:269-312 | creating a file adds its id to one category's list and changes no other category |
| StoreFacts.CreateThenDeleteFile | src/core/DataManager.js:341-372 | deleting a freshly created file gives back the same file collection and the same listings |
| StoreFacts.UndoAppendedFile | src/core/DataManager.js:341-372 | removing the first copy of an id that was appended once to the files and to one category's list restores the files and every list exactly |
| StoreFacts.RemoveFirstAppended | src/core/DataManager.js:356-358 | splicing out an id just pushed onto a list that lacked it gives the list back |
| StoreFacts.CreateGameStatistics | src/core/DataManager.js:90-118 | creating a game raises the game total by one and changes no other total |
| StoreFacts.CreateCharacterStatistics | src/core/DataManager.js:182-207 | creating a character raises the character total by one and changes no other total |
| StoreFacts.CreateFileStatistics | src/core/DataManager.js:269-312 | creating a file raises the file total by one and the text total by the content's UTF-16 length |
| StoreFacts.CharacterTotalsKept | src/core/DataManager.js:90-99 | writing back a category leaves the character total unchanged |
| StoreFacts.UpdateFileStatistics | src/core/DataManager.js:324-336 | editing a file changes only the text total, by the difference in UTF-16 content length |
| StoreFacts.DeleteFileStatistics | src/core/DataManager.js:341-372 | deleting a file lowers the file total by one and the text total by its content's UTF-16 length |
| StoreFacts.SumOfSameShape | src/core/DataManager.js:90-99 | two trees of the same shape have the same character total |
| StoreFacts.SearchFilesExact | src/core/DataManager.js:377-405 | the hits come from strictly increasing file positions, exactly the positions of the matching files, so there is one hit per matching file, in `files` order, and hit k is the per-file result of its file |
| Seqs.FilterMapOrigins | src/core/DataManager.js:381-402 | the results of a filter-and-collect loop come from strictly increasing positions, exactly those of the elements that yield one |
| StoreFacts.SearchEmptyQueryHitsAll | src/core/DataManager.js:377-405 | with no blank-query guard, the empty query hits every titled file |
| StoreFacts.ExportImportRoundTrip | src/core/DataManager.js:478-501 | importing an export gives back the exported store, whatever was stored before |
| StoreFacts.ImportGamesOnly | src/core/DataManager.js:485-501 | a payload holding only `games` replaces the games and keeps files and settings |
| StoreFacts.SessionCharacterStep | src/core/DataManager.js:182-207 | a character added to a new game gives the expected tree |
| StoreFacts.SessionCategoryStep | src/core/DataManager.js:224-264 | a category added to that character gives the expected tree |
| StoreFacts.SessionFileStep | src/core/DataManager.js:269-312 | a note added to that category gives the expected store |
| StoreFacts.SessionEndPath | src/core/DataManager.js:410-430 | that note's path reads "SF6 > Ryu > Combos" |
| StoreFacts.SessionEndSearch | src/core/DataManager.js:377-405 | a lower-case query finds that note by its title, with its path |
| StoreFacts.ComboSessionFacts | src/core/DataManager.js:90-99 | the whole session yields that store, with one game, one character, one file and six characters of text |
| StoreCascade.CategoryFileIdsCover | src/core/DataManager.js:165-170 | every id a category lists is among the ids the cascade collects |
| StoreCascade.CharacterFileIdsCover | src/core/DataManager.js:163-171 | every id listed under a character is collected |
| StoreCascade.GameFileIdsCover | src/core/DataManager.js:160-173 | every id listed anywhere under a game is collected |
| StoreCascade.LocsFrom | src/core/DataManager.js:162-173 | the cascade visits only categories of the game being deleted |
| StoreCascade.CascadeFrom | src/core/DataManager.js:166-169 | the live-splice loop over one category keeps the tree's shape and never adds files |
| StoreCascade.CascadeLocs | src/core/DataManager.js:160-173 | the cascade over all of a game's categories keeps the tree's shape and the settings |
| StoreCascade.DeleteGameAsWritten | src/core/DataManager.js:154-177 | as written: an unknown game fails; on success the game existed, the games before it keep their place, the ones after it move up by one, and the settings stay |
| StoreCascade.DeleteFiles | src/core/DataManager.js:341-372 | deleting a list of ids one by one removes one record per id and keeps the tree's shape |
| StoreCascade.DeleteFilesKeeps | src/core/DataManager.js:341-372 | deleting a list of ids keeps every file and listing not named in it |
| StoreCascade.DeleteFilesRemoves | src/core/DataManager.js:341-372 | with distinct ids, no remaining file has an id from the list |
| StoreCascade.DeleteFilesSucceeds | src/core/DataManager.js:341-372 | deleting distinct ids that all exist never fails |
| StoreCascade.DeleteGame | src/core/DataManager.js:154-177 | as intended: fails for an unknown game, and otherwise only when one of the game's listed ids names no stored file or is listed twice (the inner `deleteFile` then throws); it succeeds whenever the game exists, its ids are distinct and each names a file; on success that game is removed, the others keep their order, every file outside it is kept and none of its files remains |
| StoreCascade.TwoFileStore | src/core/DataManager.js:154-177 | a store whose one game lists two distinct files |
| StoreCascade.AsWrittenLeavesOrphan | src/core/DataManager.js:164-170 | as written, deleting the game of that store leaves the second file behind |
| StoreCascade.CorrectedLeavesNone | src/core/DataManager.js:154-177 | as intended, deleting the game of that store leaves no file |
| StoreCascade.AsWrittenBreaksListing | src/core/DataManager.js:164-170 | as written, the invariant that every file is listed holds before and fails after |
| StoreCascade.ListingSurvivesSplice | src/core/DataManager.js:175 | splicing out one game keeps every listing of the other games |
| StoreCascade.DeleteGameKeepsListed | src/core/DataManager.js:154-177 | the corrected deletion preserves the invariant that every file is listed |
| LegacyStore.InitialData | app.js:8-19 | a new store has no games and no files, and the default settings |
| LegacyStore.GameIndex | app.js:63 | the index of the first game with the id; none exactly when no game has it |
| LegacyStore.Locate | app.js:108-115 | each id is looked up inside the one before, taking the first match as `find` does: fails with "game not found" exactly when no game has the id, with "character not found" exactly when that game has no such character, with "category not found" exactly when that character has no such category, and otherwise succeeds at the three first-match positions |
| LegacyStore.CreateGame | app.js:47-59 | a new empty game is appended; files and settings stay |
| LegacyStore.CreateCharacter | app.js:62-79 | fails exactly when no game has the id; otherwise one character is appended to that game and the game is touched |
| LegacyStore.CreateCategory | app.js:82-104 | fails with "game not found" exactly when no game has the id; for a found game, fails with "character not found" exactly when it has no such character and succeeds exactly when it has one; on success one category is appended to the first such character, and the character and its game are touched |
| LegacyStore.CharacterIndex | app.js:86 | the position of the first character of the game with the id, and none exactly when the game has no such character |
| LegacyStore.CategoryIndex | app.js:114 | the position of the first category of the character with the id, and none exactly when the character has no such category |
| LegacyStore.CreateCharacterCoherent | app.js:62-79 | creating a character keeps the store coherent: every file record a category holds is still a record of the flat collection |
| LegacyStore.CreateCategoryCoherent | app.js:82-104 | creating a category keeps the store coherent, the new, empty category included |
| LegacyStore.WithCategory | app.js:128-133 | writing back one category changes only that category |
| LegacyStore.CreateFile | app.js:107-137 | fails exactly when the lookup fails, with the same error; otherwise the one record goes into the category's list and into the flat collection |
| LegacyStore.Edited | app.js:140-148 | an edited record has the new content and stamp, and no other field changes |
| LegacyStore.UpdateFileAsWritten | app.js:140-148 | as written: an unknown id fails; otherwise only the flat collection's record changes and the tree keeps its old copy |
| LegacyStore.EditedIn | app.js:140-148 | in a list of records, every copy with the id is edited and the rest are kept |
| LegacyStore.EditedTree | app.js:140-148 | every category's list has its copies of the record edited, and the tree keeps its shape |
| LegacyStore.UpdateFile | app.js:140-148 | as intended: an unknown id fails; otherwise the flat record and every embedded copy change together |
| LegacyStore.CreateFileCoherent | app.js:107-137 | creating a file keeps the tree and the collection in agreement |
| LegacyStore.UpdateFileCoherent | app.js:140-148 | the corrected edit keeps the tree and the collection in agreement |
| LegacyStore.AsWrittenLeavesStaleCopy | app.js:140-148 | as written, after an edit the collection has the new text, the tree still shows the old one, and the two disagree |
| LegacyStore.Resolve | app.js:163-165 | each hit carries the file; its game is present exactly when some game has the file's game id and is then the first such game; its character is present exactly when that game has a character with the file's character id and is then the first one; the same holds for its category within that character |
| LegacyStore.HitFor | app.js:158-159 | a file answers exactly when its name or its content contains the query, ignoring case |
| LegacyStore.HitsFor | app.js:157-168 | the loop body applied to each file is the per-file rule |
| LegacyStore.Search | app.js:151-171 | a blank query yields nothing, and there are no more hits than files |
| LegacyStore.SearchExact | app.js:151-171 | the rows come from strictly increasing file positions, in `files` order, each row the per-file result of its file; for a query that is not blank these positions are exactly the matching files |
| Table.DefaultTable | app.js:516-522 | the default grid has three rows of three cells |
| Table.GetContent | app.js:631-647 | an empty grid gives the empty string, and a non-empty grid never does |
| Table.CellsOf | app.js:511 | a row's cells are the trimmed pieces between its first and last bar |
| Table.RowOf | app.js:504-511 | a line gives a row exactly when, trimmed, it starts with a bar and has no `---` |
| Table.ParseTableContent | app.js:502-523 | parsing always yields at least one row, and the default grid when no line is a table row |
| Table.UpdateCell | app.js:594-599 | only an existing row with a column of zero or more changes; a column past the end is preceded by empty cells where the source leaves holes; the other cells and rows stay |
| Table.AddRow | app.js:601-607 | one row of empty cells is appended, as wide as the first row, or three wide on an empty grid |
| Table.AddColumn | app.js:609-613 | every row gets one empty cell at its end |
| Table.RemoveRow | app.js:615-621 | the last row goes, unless it is the only one |
| Table.RemoveColumn | app.js:623-629 | every row loses its last cell when the first row has more than one; otherwise nothing changes |
| Table.HeaderCells | app.js:1464 | the header cells are `列1` to `列n` |
| Table.InitialTable | app.js:1459-1473 | the grid written for a new table: the numbered header and `rows - 1` empty rows |
| Table.BlankLines | app.js:1468-1470 | no blank line is written exactly when none is asked for |
| Table.CreateInitialTableContent | app.js:1459-1473 | the content fails with a range error exactly when the column count is negative or too large for an array |
| Table.DialogSize | app.js:1446-1447 | a size that does not parse, or parses to zero, becomes 3 |
| Table.TableContentFromTemplate | app.js:1431-1457 | a predefined template with content gives that content |
| Table.FinalFileName | app.js:1403-1416 | a table name ends in `.table.md` and every name ends in `.md`; the suffix is added only when it is missing |
| Table.TableSuffixIsNote | app.js:1405-1414 | a `.table.md` name is also a `.md` name |
| TableFacts.ParseGetContent | app.js:502-647 | parsing the Markdown a well-formed grid writes gives the grid back |
| TableFacts.ParseEmpty | app.js:502-523 | empty content opens as the default grid |
| TableFacts.RowLineRead | app.js:504-511 | a written row line reads back as the same row |
| TableFacts.SeparatorSkipped | app.js:509 | the separator line the writer emits is not read as a row |
| TableFacts.RemoveRowUndoesAddRow | app.js:601-621 | removing a row undoes adding one on a non-empty grid |
| TableFacts.RemoveColumnUndoesAddColumn | app.js:609-629 | removing a column undoes adding one when the first row has a cell |
| TableFacts.AddRowKeepsWellFormed | app.js:601-607 | adding a row keeps the grid writable and readable |
| TableFacts.AddColumnKeepsWellFormed | app.js:609-613 | adding a column keeps the grid writable and readable |
| TableFacts.RemoveRowKeepsWellFormed | app.js:615-621 | removing a row keeps the grid writable and readable |
| TableFacts.RemoveColumnKeepsWellFormed | app.js:623-629 | removing a column from rows of two or more cells keeps the grid writable and readable |
| TableFacts.RemovalsKeepMinimum | app.js:615-629 | a grid never loses its last row, and never loses its last column |
| TableFacts.UpdateCellKeepsWellFormed | app.js:594-599 | setting a cell to text without bars, dashes or newlines keeps the grid writable and readable |
| TableFacts.UpdateCellReadsBack | app.js:594-647 | after an edit, saving and reopening gives the edited grid, and the cell holds the new value |
| TableFacts.InitialTableWellFormed | app.js:1459-1473 | a new table with at least one column is writable and readable |
| TableFacts.BlankRowsWritten | app.js:1468-1470 | the loop writes the same lines as the grid's empty rows |
| TableFacts.InitialContentIsWritten | app.js:1459-1473 | the content of a new table is the Markdown of its grid |
| TableFacts.InitialContentReadsBack | app.js:1459-1473 | a new table with one or more columns opens as the grid it was made from |
| TableFacts.TemplateContentReadsBack | app.js:1431-1457 | a new table opens as the grid asked for, or as the 3 by 3 default when the size cannot be built |
| TableFacts.FinalFileNameIdempotent | app.js:1403-1416 | completing a completed name changes nothing |
| TableFacts.OpensInTableEditorExactly | app.js:1074-1088 | a table file always opens in the table editor; a note does exactly when its name already ends in `.table.md` or ends in `.table` |
| TableFiles.CreateFileFromDialog | app.js:1390-1429 | a blank name, a missing selection and a failed lookup each stop the dialog; otherwise the record gets the completed name, empty content for a note or the template's content for a table |
| TableFiles.CreateAndOpen | app.js:1418-1420 | the file opened after creation is exactly the record the store appended, with the dialog's place, name and content and both stamps equal; it fails exactly when the place is not in the tree |
| TableFiles.DialogTableOpensAsAsked | app.js:1390-1457 | a table made in the dialog opens in the table editor as the grid it asked for |
| TableFiles.SaveAsWritten | app.js:649-662 | as written: with no open file, or an unknown id, nothing changes |
| TableFiles.Save | app.js:649-662 | as intended: with no open file, or an unknown id, nothing changes |
| TableFiles.NameReadsAsDefault | app.js:502-523 | text without bars or newlines opens as the default grid |
| TableFiles.AsWrittenSaveLosesTable | app.js:656 | as written, saving stores the file's name as its content, which reopens as the default grid |
| TableFiles.AsWrittenSaveExample | app.js:656 | as written, saving a one-cell grid reopens as something else |
| TableFiles.SaveReadsBack | app.js:649-662 | as intended, saving stores the grid's Markdown in the record and every copy, and reopening gives the grid back |
| AppTabs.Initial | app.js:207-211 | the bar starts with no tabs and none active |
| AppTabs.TabId | app.js:223 | tab ids have the form `tab_<n>` |
| AppTabs.TabIdInjective | app.js:223 | different counter values give different tab ids |
| AppTabs.FindByFileId | app.js:237-244 | finds a tab showing the file, the first in the tab map's insertion order; none exactly when no tab shows it |
| AppTabs.Deactivated | app.js:248-250 | every tab's active flag is cleared and nothing else changes |
| AppTabs.ActivateTab | app.js:246-267 | exactly the named tab is flagged active and becomes the active id; a missing id clears every flag and keeps the active id |
| AppTabs.CreateTab | app.js:213-235 | a file with a tab only activates it; otherwise `tab_<counter>` is appended, the counter grows and the new tab is the only active one |
| AppTabs.CloseTab | app.js:269-286 | an unknown id changes nothing; closing another tab drops only it; closing the active tab activates the first remaining tab in insertion order, which is then the only tab flagged active while every tab keeps its file and dirty flag, or leaves no tab active when none remains |
| AppTabs.CreateThenCloseTab | app.js:213-286 | opening a new file and closing its tab restores the tabs, and reopening the file gets a new id |
| AppTabs.CreateTabTwice | app.js:213-235 | opening the same file twice gives one tab |
| Tabs.Initial | src/core/TabManager.js:7-12 | the registry starts empty with no active tab |
| Tabs.SwitchTab | src/core/TabManager.js:126-151 | switching to a registered tab or the dashboard makes it active; any other id changes nothing |
| Tabs.CreateTab | src/core/TabManager.js:52-77 | an id already registered is only switched to; a new one is appended with its fields and switched to |
| Tabs.CloseTab | src/core/TabManager.js:156-184 | an unknown or unclosable tab is refused; closing the active tab activates the last remaining tab, or the dashboard |
| Tabs.Keep | src/core/TabManager.js:189-197 | the key order with the closed keys dropped |
| Tabs.ClosableIds | src/core/TabManager.js:190-194 | the ids the loop closes are exactly the closable tabs |
| Tabs.CloseEach | src/core/TabManager.js:190-196 | closing a list of tabs one after another keeps the registry's invariant |
| Tabs.CloseAllTabs | src/core/TabManager.js:189-197 | closing all tabs keeps the registry's invariant |
| Tabs.CloseOne | src/core/TabManager.js:156-184 | closing one closable tab drops it from the values and from the key order |
| Tabs.CloseEachRemoves | src/core/TabManager.js:189-197 | closing distinct closable tabs removes exactly those |
| Tabs.CloseEachOrder | src/core/TabManager.js:189-197 | closing distinct closable tabs keeps the order of the rest |
| Tabs.ClosableIdsFit | src/core/TabManager.js:190-194 | the ids the loop closes are distinct, registered and closable |
| Tabs.CloseAllKeepsUnclosable | src/core/TabManager.js:189-197 | after closing all, a tab remains exactly when it was unclosable, and it is unchanged |
| Tabs.CloseAllKeepsOrder | src/core/TabManager.js:189-197 | after closing all, the unclosable tabs keep their order |
| Tabs.Merge | src/core/TabManager.js:202-241 | the record absorbs each supplied field and keeps its id and creation time |
| Tabs.UpdateTab | src/core/TabManager.js:202-241 | an unknown id is refused; otherwise only that record changes, and the order and the active tab stay |
| Tabs.UpdateTabIdempotent | src/core/TabManager.js:202-241 | an empty update changes nothing, and applying the same update twice is applying it once |
| Tabs.DirtyTitle | src/core/TabManager.js:291-305 | marking adds the `● ` marker unless present; clearing removes one leading marker |
| Tabs.DirtyTitleLaws | src/core/TabManager.js:291-305 | marking twice is marking once; clearing a freshly marked title gives it back exactly when it was unmarked |
| Tabs.NextTab | src/core/TabManager.js:310-319 | the registry is unchanged apart from the active tab, and an empty registry changes nothing |
| Tabs.PreviousTab | src/core/TabManager.js:324-333 | the registry is unchanged apart from the active tab, and an empty registry changes nothing |
| Tabs.NextTabTarget | src/core/TabManager.js:310-319 | the next tab is registered; it wraps from the last tab to the first, and an unregistered active id goes to the first |
| Tabs.PreviousTabTarget | src/core/TabManager.js:324-333 | the previous tab is registered; it wraps from the first tab to the last, and an unregistered active id goes to the last |
| Tabs.NextActive | src/core/TabManager.js:310-319 | from a registered tab at position i, next activates the tab at i+1, or the first tab from the last |
| Tabs.PreviousActive | src/core/TabManager.js:324-333 | from a registered tab at position i, previous activates the tab at i-1, or the last tab from the first |
| Tabs.NextThenPrevious | src/core/TabManager.js:310-333 | next followed by previous gives back the active tab |
| Tabs.PreviousThenNext | src/core/TabManager.js:310-333 | previous followed by next gives back the active tab |
| Tabs.NextPreviousInverse | src/core/TabManager.js:310-333 | next then previous, or previous then next, returns to the same registered tab |
| Keyboard.New | src/components/extended-keyboard/ExtendedKeyboard.js:7-18 | a new keyboard holds only the built-in definitions under `default`, is hidden, shows all categories and has no character |
| Keyboard.Mount | src/components/extended-keyboard/ExtendedKeyboard.js:23-37 | the `mounted` flag records whether the `extended-keyboard` container was found, the one `show` and `hide` test, and nothing else changes |
| Keyboard.Show | src/components/extended-keyboard/ExtendedKeyboard.js:213-224 | a mounted keyboard becomes visible; an unmounted one is unchanged |
| Keyboard.Hide | src/components/extended-keyboard/ExtendedKeyboard.js:229-235 | a mounted keyboard becomes hidden; an unmounted one is unchanged |
| Keyboard.Toggle | src/components/extended-keyboard/ExtendedKeyboard.js:202-208 | toggling hides a visible keyboard and shows a hidden one |
| Keyboard.ToggleTwice | src/components/extended-keyboard/ExtendedKeyboard.js:202-235 | on a mounted keyboard, toggling flips visibility and toggling twice restores it |
| Keyboard.Target | src/components/extended-keyboard/ExtendedKeyboard.js:416-417 | the definitions used are the game's own when present, otherwise the defaults |
| Keyboard.ButtonsIn | src/components/extended-keyboard/ExtendedKeyboard.js:419-421 | a missing category reads as no buttons |
| Keyboard.WithGame | src/components/extended-keyboard/ExtendedKeyboard.js:415-441 | writing back one game's definitions changes only those |
| Keyboard.AddCustomDefinition | src/components/extended-keyboard/ExtendedKeyboard.js:415-425 | the button is appended to the category of the current game, or of the defaults; a missing category is created at the end; nothing else changes |
| Keyboard.RemoveDefinition | src/components/extended-keyboard/ExtendedKeyboard.js:430-441 | with no button of that text nothing changes; otherwise the first such button is spliced out and nothing else changes |
| Keyboard.CreateGameDefinition | src/components/extended-keyboard/ExtendedKeyboard.js:477-483 | the game gets a copy of the defaults, at the end of the order if it is new, and the copy is returned |
| Keyboard.CharacterCategory | src/components/extended-keyboard/ExtendedKeyboard.js:493 | the category name is the character's name followed by `専用` |
| Keyboard.CreateCharacterDefinition | src/components/extended-keyboard/ExtendedKeyboard.js:488-499 | an existing character category is returned unchanged; otherwise an empty one is added to the game's definitions, or to the defaults |
| Keyboard.SearchList | src/components/extended-keyboard/ExtendedKeyboard.js:510-518 | the hits of one category are its buttons whose text contains the query, ignoring case, each button reported as many times as it occurs in the list |
| Keyboard.SearchListIsFilterMap | src/components/extended-keyboard/ExtendedKeyboard.js:510-518 | the hits of one category are its button list filtered in order by the generic filter-and-collect loop |
| Keyboard.SearchListExact | src/components/extended-keyboard/ExtendedKeyboard.js:510-518 | the hits come from strictly increasing button positions, exactly the positions of the matching buttons |
| Keyboard.SearchCategories | src/components/extended-keyboard/ExtendedKeyboard.js:509-519 | the hits of one game are the matching buttons of its categories, and only those |
| Keyboard.SearchCategoriesAppend | src/components/extended-keyboard/ExtendedKeyboard.js:509-519 | the category loop concatenates in order: the hits of `a + b` are those of `a` followed by those of `b` |
| Keyboard.SearchCategoriesOne | src/components/extended-keyboard/ExtendedKeyboard.js:509-519 | one category gives exactly its own list's hits |
| Keyboard.SearchCategoriesCount | src/components/extended-keyboard/ExtendedKeyboard.js:509-519 | over distinct category names, each hit occurs once per occurrence of its button in its category |
| Keyboard.SearchGames | src/components/extended-keyboard/ExtendedKeyboard.js:508-520 | the hits of a list of games are the matching buttons of their categories, and only those |
| Keyboard.SearchGamesAppend | src/components/extended-keyboard/ExtendedKeyboard.js:508-520 | the game loop concatenates in order: the hits of `a + b` are those of `a` followed by those of `b` |
| Keyboard.SearchGamesOne | src/components/extended-keyboard/ExtendedKeyboard.js:508-520 | one game gives exactly its categories' hits, in `Object.entries` order |
| Keyboard.SearchGamesCount | src/components/extended-keyboard/ExtendedKeyboard.js:508-520 | over distinct game ids, each hit occurs once per occurrence of its button in its game's category |
| Keyboard.SearchButtons | src/components/extended-keyboard/ExtendedKeyboard.js:504-523 | a hit is returned exactly when the game, the category and the button exist and the text contains the query, ignoring case, and it is returned once per occurrence of the button in that category; the order is game by game and category by category (`SearchGamesAppend`, `SearchCategoriesAppend`), and list order within a category (`SearchListIsFilterMap`, `SearchListExact`) |
| Keyboard.ExportDefinitions | src/components/extended-keyboard/ExtendedKeyboard.js:454-457 | the export lists every game in the keyboard's order |
| Keyboard.ImportEach | src/components/extended-keyboard/ExtendedKeyboard.js:465-467 | each imported game replaces or adds its definitions; the other games and the existing order are kept |
| Keyboard.ImportDefinitions | src/components/extended-keyboard/ExtendedKeyboard.js:462-472 | unparsable text changes nothing; otherwise every game in the payload is set to its definitions and the other games stay |
| Keyboard.SwitchGame | src/components/extended-keyboard/ExtendedKeyboard.js:398-402 | the game changes and the character is forgotten |
| Keyboard.SwitchCharacter | src/components/extended-keyboard/ExtendedKeyboard.js:407-410 | the character changes and nothing else does |
| Keyboard.SwitchGameForgetsCharacter | src/components/extended-keyboard/ExtendedKeyboard.js:398-410 | choosing a character and then a game is the same as choosing the game |
| Keyboard.AddThenRemove | src/components/extended-keyboard/ExtendedKeyboard.js:415-441 | removing a button just added under a new text restores the keyboard, apart from a category the add created, which stays empty |
| Keyboard.RemoveShape | src/components/extended-keyboard/ExtendedKeyboard.js:430-441 | removal splices out the index `findIndex` finds |
| Keyboard.RemoveAppended | src/components/extended-keyboard/ExtendedKeyboard.js:435-437 | `findIndex` finds a button just pushed under a new text at the end, and splicing it restores the list |
| Keyboard.CreateCharacterDefinitionIdempotent | src/components/extended-keyboard/ExtendedKeyboard.js:488-499 | asking twice for a character category is asking once |
| Keyboard.GameCopyIsIndependent | src/components/extended-keyboard/ExtendedKeyboard.js:477-483 | after copying the defaults to a game and switching to it, adding or removing buttons leaves the defaults alone |
| Keyboard.AddedButtonIsFound | src/components/extended-keyboard/ExtendedKeyboard.js:504-523 | a button just added is found by searching for its text |
| Keyboard.ImportOwnExport | src/components/extended-keyboard/ExtendedKeyboard.js:454-472 | importing the keyboard's own export changes nothing |
| Keyboard.ImportTwice | src/components/extended-keyboard/ExtendedKeyboard.js:462-472 | importing the same payload twice is importing it once |
| Keyboard.ImportSame | src/components/extended-keyboard/ExtendedKeyboard.js:465-467 | setting games to the definitions they already hold changes nothing |
| Explorer.New | src/components/explorer/Explorer.js:7-13 | a new panel is visible, with no expanded node and no selection |
| Explorer.Show | src/components/explorer/Explorer.js:48-54 | with a sidebar the panel becomes visible; without one nothing changes |
| Explorer.Hide | src/components/explorer/Explorer.js:59-65 | with a sidebar the panel becomes hidden; without one nothing changes |
| Explorer.Toggle | src/components/explorer/Explorer.js:34-43 | without a sidebar nothing changes; otherwise a visible panel hides and a hidden one shows |
| Explorer.ToggleTwice | src/components/explorer/Explorer.js:34-65 | with a sidebar, toggling flips visibility and toggling twice restores the panel |
| Explorer.ToggleNode | src/components/explorer/Explorer.js:236-244 | an expanded node collapses and a collapsed one expands at the end; no other node changes |
| Explorer.ToggleNodeTwice | src/components/explorer/Explorer.js:236-244 | toggling a node twice restores the expanded set; a collapsed node leaves the panel exactly as it was |
| Explorer.RemoveLast | src/components/explorer/Explorer.js:236-244 | deleting a value just added to a set that lacked it gives the set back in the same order |
| Explorer.SelectNode | src/components/explorer/Explorer.js:249-262 | a node shown on the page becomes the selection; otherwise nothing changes |
| Explorer.GetSettings | src/components/explorer/Explorer.js:384-390 | the settings carry the visibility, the expanded nodes and the selection |
| Explorer.Dedup | src/components/explorer/Explorer.js:401 | building a set from a list keeps each value once, and keeps a list without repeats as it is |
| Explorer.RestoreSettings | src/components/explorer/Explorer.js:395-407 | each setting that is present replaces the panel's own; the others are kept |
| Explorer.RestoreGetSettings | src/components/explorer/Explorer.js:384-407 | restoring saved settings reproduces the saved panel, except that a missing selection keeps the current one |
| Explorer.RestoreOwnSettings | src/components/explorer/Explorer.js:384-407 | restoring a panel's own settings changes nothing |
| Explorer.KindOf | src/components/explorer/Explorer.js:160-168 | the four node types are `game`, `character`, `category` and `file` |
| Explorer.IconIdentifiesKind | src/components/explorer/Explorer.js:160-168 | the four types have four different icons, and an unknown type gets the file icon |
| Explorer.ActionsFollowTree | src/components/explorer/Explorer.js:173-192 | every known node offers delete last, preceded by adding the child kind when it has one; an unknown type offers nothing |
| Explorer.DeleteNode | src/components/explorer/Explorer.js:322-355 | declining deletes nothing; a game goes through the store's `deleteGame` as written and a file through `deleteFile`, and a failure is reported; character and category deletion is only planned; an unknown type is refused |
| Explorer.Dispatch | src/components/explorer/Explorer.js:326-346 | the node type read from the tree picks the game or the file deletion; character and category are only planned, anything else is refused |
| Explorer.StoreAfter | src/components/explorer/Explorer.js:322-355 | only a successful deletion changes the store |
| Explorer.DeleteNodeKeepsListed | src/components/explorer/Explorer.js:322-355 | deleting any node but a game keeps every stored file listed |
| Explorer.DeleteGameNodeOrphans | src/components/explorer/Explorer.js:329-332 | deleting a game node as the program does leaves a file no category lists, on a store where every file was listed |
| Explorer.DeleteNodeCorrected | src/components/explorer/Explorer.js:322-355 | the same click with the corrected game cascade; every other node type behaves as in `Explorer.DeleteNode` |
| Explorer.DeleteNodeCorrectedKeepsListed | src/components/explorer/Explorer.js:322-355 | with the corrected cascade, deleting any node keeps every stored file listed |
| Explorer.DeleteFileNodeRemovesIt | src/components/explorer/Explorer.js:341-343 | a deleted file node can no longer be found |
| Explorer.OfferedDeleteIsPlanned | src/components/explorer/Explorer.js:333-340 | characters and categories offer delete, but deleting them leaves the store as it was |
| Editor.New | src/components/editor/Editor.js:7-14 | a new editor is unmounted, clean and has never saved |
| Editor.Shortcut | src/components/editor/Editor.js:131-177 | Tab indents and Shift+Tab outdents; other keys need Ctrl; a heading shortcut has a level from 1 to 6 |
| Editor.Apply | src/components/editor/Editor.js:236-356 | a command that changes the text marks the editor dirty; a link without a URL or an empty paste changes nothing |
| Editor.SetContent | src/components/editor/Editor.js:200-213 | an unmounted editor is unchanged; otherwise text is converted from Markdown, markup is used as it is, and the editor is clean |
| Editor.Clear | src/components/editor/Editor.js:510-517 | an unmounted editor is unchanged; otherwise it shows the placeholder and is clean |
| Editor.GetContent | src/components/editor/Editor.js:218-223 | an unmounted editor reads as the empty string, and the Markdown never holds a tag |
| Editor.AutoSave | src/components/editor/Editor.js:392-403 | nothing happens when clean or without the app, or when the save fails; a successful save clears the flag and records the time |
| Editor.Tick | src/components/editor/Editor.js:85-97 | a clean editor is left alone by the timer |
| Editor.TickIsAutoSave | src/components/editor/Editor.js:85-97 | the timer's tick is the same as calling auto-save |
| Editor.Step | src/components/editor/Editor.js:102-106 | no event mounts or unmounts the editor |
| Editor.Run | src/components/editor/Editor.js:102-106 | no sequence of events mounts or unmounts the editor; the dirty flag after a run is stated by `Editor.DirtyExactly` |
| Editor.RunSnoc | src/components/editor/Editor.js:102-106 | a run followed by one more event is that event applied to the run's end state |
| Editor.DirtyExactly | src/components/editor/Editor.js:102-106 | after any sequence of events, the editor is dirty exactly when the last flag-changing event raised the flag, and it is still as mounted as it was |
| Editor.StripTags | src/components/editor/Editor.js:462 | removing tags leaves no tag, adds no character, and leaves text without `<` alone |
| Editor.StripTagsKeepsClean | src/components/editor/Editor.js:462 | text without tags is left alone |
| Editor.StripTagsIdempotent | src/components/editor/Editor.js:462 | removing tags twice is removing them once |
| Editor.MarkdownToHtml | src/components/editor/Editor.js:408-431 | empty Markdown gives empty markup, and the markup holds no newline |
| Editor.HtmlToMarkdown | src/components/editor/Editor.js:436-465 | empty markup gives empty Markdown, and the Markdown holds no tag |
| Editor.NewlineUnfold | src/components/editor/Editor.js:428 | the newline pass turns a leading newline into `<br>` and copies any other character |
| Editor.NewlineFront | src/components/editor/Editor.js:428 | a first output character that is not `<` was copied from the input |
| Editor.BreakPassUndoesNewlinePass | src/components/editor/Editor.js:458 | on text without `<br>`, the break pass undoes the newline pass |

## Left out

- Rendering, DOM events, drag and drop and context menus are left out. DOM lookups that decide an outcome are boolean parameters (`sidebar`, `shown`, `containerFound`, `mounted`).
- `localStorage`, file-system reads and JSON text are left out. Loads and saves are not modelled. Parsed payloads are records; `None` stands for text that `JSON.parse` rejects.
- Clocks, `generateId`, timers and `setInterval` are parameters: `now`, `id`, and `Editor.Tick` for one timer tick.
- `src/KakuMemoApp.js` and the rest of the single-file app's UI glue are left out, except where `openFile` routes by file name. So are the Google sign-in code, `createSampleData`, `getFolderHierarchy`, `getHierarchy`, `getGames`, `getAllData`, `getSettings` and `init`/`loadData`. They are UI, I/O, or plain readers of the state.
- The explorer's `addCharacter`, `addCategory` and `addFile` prompts are left out. Each calls the matching store operation, which is modelled.
- `duplicateTab`, `reorderTab` and the tab bars' click handlers are left out; they are DOM wiring.
- The editor's in-memory `currentFile.content` is left out.
- The editor's `execCommand` effects are the `after` parameter of `Editor.Apply`. The browser computes them.
- `sanitizeHTML` is left out. The text the browser produces after a sanitized paste is again `after`.
- `setupEditor`, `onFocus` and `onBlur`, which show and hide the placeholder as DOM text, are left out.
- `Editor.MarkdownToHtml` and `Editor.HtmlToMarkdown` model the heading, bold, italic and link regular expressions as one `passes` parameter. The newline pass, the paragraph pass and the tag-stripping pass are modelled exactly.
- `Strings.Lower` folds only ASCII `A`-`Z`. JavaScript's `toLowerCase` follows Unicode case mapping, which is out of scope.
- `Store.DeleteFile` and the cascades: when a throw comes in the middle of a cascade, the source leaves partly deleted state in memory. The model returns only the `Failure`.
- Store.SearchFiles: its own contract states only the bound. One hit per matching file, in `files` order, is stated by `StoreFacts.SearchFilesExact`.
- LegacyStore.Search: its own contract states the blank-query case and the bound. One row per matching file, in `files` order, is stated by `LegacyStore.SearchExact`.
- Table.UpdateCell: a column past the end leaves JavaScript holes, modelled as `""`. `getContent` writes the header with `join`, which prints a hole as empty, but the separator with `map`, which skips holes, so the source writes fewer `---` cells than the model. The editor's own cells never write past the end.
- Tabs.Merge: `Object.assign` also copies keys whose value is `undefined`, and keys the record does not model. The model's `None` means a key that is absent, and only the modelled fields are merged.
- Store.UpdateGame: the same holds for `Object.assign(game, updates, {lastModified})`. A key passed as `undefined` overwrites the stored field in the source and is treated as absent in the model, and extra keys are not copied onto the record. The only caller, in `src/KakuMemoApp.js`, passes defined values.
- Store.UpdateFile: the same holds for `Object.assign(file, updates, {lastModified})`: an `undefined` value is treated as absent and extra keys are dropped.
- Store.UpdateSettings: the same holds for the settings merge. A key passed as `undefined` overwrites the stored setting in the source and is treated as absent in the model, and extra keys are dropped.
- Explorer.DeleteNodeKeepsListed: states the listing invariant for every node but a game, because the program's game deletion breaks it (see Findings). `Explorer.DeleteNodeCorrectedKeepsListed` states it for every node with the corrected cascade.
- `Explorer.NodeIcon` has no contract of its own. Its properties are stated by `Explorer.IconIdentifiesKind`.
- `Explorer.NodeActions` returns `Action` values, not the button markup the source builds.
- `Keyboard.New` takes the built-in button catalogue as a parameter. The roughly hundred literal buttons are data, not logic.
- `Keyboard.ImportDefinitions`: an imported value that is not an object of button arrays is outside the model (`WellFormedPayload`).
- `Tabs.CloseTab` and `Tabs.SwitchTab` assume that a tab's DOM element exists exactly when the tab is registered, plus the dashboard.
- Ordering quirks of `Object.keys` are left out. Integer-like keys come first in JavaScript, and the model keeps insertion order throughout.
- Inherited `Object.prototype` names used as categories or node types (`toString`, `constructor`) are left out.
- Objects shared by reference between structures are copied by value. The single-file store's sharing is stated as `LegacyStore.Coherent` instead.
- Integers are unbounded. The only width that matters is the array-length limit in `Table.CreateInitialTableContent`, which is modelled.

## Findings

| source | as written | input that shows it | evidently intended | confidence | as-written member | corrected member |
|---|---|---|---|---|---|---|
| src/core/DataManager.js:164-170 | `deleteGame` walks each category's id list with `for (const fileId of fileIds)`, where `fileIds` is the category's own `files` array, not a copy. Each `deleteFile` call removes the current id from that same array (lines 356-358), so the loop skips the id that moved into its place. Every second id is skipped. The explorer's game delete button reaches this code (`src/components/explorer/Explorer.js:331`; `Explorer.DeleteGameNodeOrphans`). | one game whose one category lists two files: the second file stays in `files`, listed by no category | every file of the game is deleted | high (not executed) | StoreCascade.DeleteGameAsWritten | StoreCascade.DeleteGame |
| app.js:140-148 | `updateFile` writes the new content into the record it finds in `data.files`. After a reload, the category's embedded copy is a separate object and keeps the old text. | one note in one category, edited from "old" to "new": the collection says "new" and the tree says "old" | the edit reaches every copy of the record | medium (not executed) | LegacyStore.UpdateFileAsWritten | LegacyStore.UpdateFile |
| app.js:656 | `TableEditor.save` calls `updateFile(id, name, content)`, but `updateFile` takes `(fileId, content)`. The name is stored as the content. | saving the grid `[["x"]]` in a file named "BnB": the stored content is "BnB", which reopens as the default 3 by 3 grid | the grid's Markdown is stored | high (not executed) | TableFiles.SaveAsWritten | TableFiles.Save |

=== FILE: app_tabs.dfy ===
/** The tab bar of the single-file build: open files in a `Map` keyed by tab
    id (`tab_0`, `tab_1`, …, from a counter that only grows), each tab
    carrying an `isActive` flag, plus the id of the active tab. */
module AppTabs {
  import opened Wrappers
  import opened Strings
  import opened Seqs
  import opened OrderedMap

  /** The `{id, name, content}` object a tab holds. */
  datatype TabFile = TabFile(id: string, name: string, content: string)

  datatype Tab = Tab(id: string, file: TabFile, isDirty: bool, isActive: bool)

  datatype Tabs = Tabs(tabs: OMap<Tab>, activeTabId: Option<string>, counter: nat)

  function Initial(): (s: Tabs)
    ensures Inv(s) && |s.tabs.keys| == 0 && s.activeTabId.None?
  {
    Tabs(Empty(), None, 0)
  }

  /** `` `tab_${n}` ``. */
  function TabId(n: nat): (k: string)
    ensures |k| >= 5 && k[..4] == "tab_"
  {
    "tab_" + NatToString(n)
  }

  lemma TabIdInjective(a: nat, b: nat)
    requires TabId(a) == TabId(b)
    ensures a == b
  {
    assert NatToString(a) == TabId(a)[4..];
    NatToStringInjective(a, b);
  }

  /** What the tab bar keeps true: each key is the id of its own tab and was
      issued by the counter, and only the tab named by `activeTabId` can be
      flagged active (after activating a missing id, none is). */
  predicate Inv(s: Tabs) {
    && Valid(s.tabs)
    && (forall k :: k in s.tabs.vals ==> s.tabs.vals[k].id == k)
    && (forall k :: k in s.tabs.vals ==> exists n :: 0 <= n < s.counter && k == TabId(n))
    && (s.activeTabId.Some? ==> s.activeTabId.value in s.tabs.vals)
    && (forall k :: k in s.tabs.vals && s.tabs.vals[k].isActive ==> s.activeTabId == Some(k))
  }

  // ---------------------------------------------------------------- lookup

  /** `findTabByFileId(fileId)`: the first tab, in insertion order, showing that file. */
  function FindByFileId(m: OMap<Tab>, fileId: string): (r: Option<string>)
    requires Valid(m)
    ensures r.Some? ==> r.value in m.vals && m.vals[r.value].file.id == fileId
    ensures r.None? <==> forall k :: k in m.vals ==> m.vals[k].file.id != fileId
    ensures r.Some? ==> exists i :: 0 <= i < |m.keys| && m.keys[i] == r.value &&
                          forall j :: 0 <= j < i ==> m.vals[m.keys[j]].file.id != fileId
  {
    match FindFirst(m.keys, (k: string) => k in m.vals && m.vals[k].file.id == fileId)
    case None => None
    case Some(i) => Some(m.keys[i])
  }

  // ---------------------------------------------------------------- activation

  /** Every tab with its `isActive` flag cleared. */
  function Deactivated(m: OMap<Tab>): (r: OMap<Tab>)
    ensures r.keys == m.keys && r.vals.Keys == m.vals.Keys
    ensures forall k :: k in m.vals ==> r.vals[k] == m.vals[k].(isActive := false)
  {
    OMap(m.keys, map k | k in m.vals :: m.vals[k].(isActive := false))
  }

  /** `activateTab(tabId)`: every flag is cleared, then the named tab, if it
      exists, is flagged and becomes `activeTabId`; a missing id leaves
      `activeTabId` as it was. */
  function ActivateTab(s: Tabs, tabId: string): (r: Tabs)
    requires Inv(s)
    ensures Inv(r)
    ensures r.tabs.keys == s.tabs.keys && r.tabs.vals.Keys == s.tabs.vals.Keys && r.counter == s.counter
    ensures forall k :: k in s.tabs.vals ==> r.tabs.vals[k] == s.tabs.vals[k].(isActive := r.tabs.vals[k].isActive)
    ensures tabId in s.tabs.vals ==> r.activeTabId == Some(tabId)
    ensures tabId !in s.tabs.vals ==> r.activeTabId == s.activeTabId
    ensures forall k :: k in r.tabs.vals ==> (r.tabs.vals[k].isActive <==> k == tabId)
  {
    var m := Deactivated(s.tabs);
    var r := if tabId in m.vals
      then Tabs(OMap(m.keys, m.vals[tabId := m.vals[tabId].(isActive := true)]), Some(tabId), s.counter)
      else Tabs(m, s.activeTabId, s.counter);
    SameTabsKeepInv(s, r);
    r
  }

  /** A state with the same tabs and counter keeps the invariant when only
      the tab it names active is flagged. */
  lemma SameTabsKeepInv(s: Tabs, r: Tabs)
    requires Inv(s)
    requires r.tabs.keys == s.tabs.keys && r.tabs.vals.Keys == s.tabs.vals.Keys && r.counter == s.counter
    requires forall k :: k in s.tabs.vals ==> r.tabs.vals[k].id == s.tabs.vals[k].id
    requires r.activeTabId.Some? ==> r.activeTabId.value in r.tabs.vals
    requires forall k :: k in r.tabs.vals && r.tabs.vals[k].isActive ==> r.activeTabId == Some(k)
    ensures Inv(r)
  {
    forall k | k in r.tabs.vals ensures exists n :: 0 <= n < r.counter && k == TabId(n) {
      assert k in s.tabs.vals;
    }
  }

  // ---------------------------------------------------------------- create and close

  /** `createTab(file)`: a file that already has a tab only activates it;
      otherwise a new tab `tab_<counter>` is added at the end and activated.
      The result's second part is the id of the tab returned. */
  function CreateTab(s: Tabs, file: TabFile): (r: (Tabs, string))
    requires Inv(s)
    ensures Inv(r.0)
    ensures r.1 in r.0.tabs.vals && r.0.tabs.vals[r.1].file.id == file.id && r.0.activeTabId == Some(r.1)
    ensures FindByFileId(s.tabs, file.id).Some? ==>
      && r.1 == FindByFileId(s.tabs, file.id).value
      && r.0.tabs.keys == s.tabs.keys && r.0.counter == s.counter
    ensures FindByFileId(s.tabs, file.id).None? ==>
      && r.1 == TabId(s.counter) && r.1 !in s.tabs.vals
      && r.0.tabs.keys == s.tabs.keys + [r.1]
      && r.0.tabs.vals[r.1] == Tab(r.1, file, false, true)
      && r.0.counter == s.counter + 1
      && (forall k :: k in s.tabs.vals ==> r.0.tabs.vals[k] == s.tabs.vals[k].(isActive := false))
  {
    match FindByFileId(s.tabs, file.id)
    case Some(k) => (ActivateTab(s, k), k)
    case None =>
      var id := TabId(s.counter);
      FreshTabId(s);
      var s1 := Tabs(Put(s.tabs, id, Tab(id, file, false, false)), s.activeTabId, s.counter + 1);
      assert Inv(s1) by {
        forall k | k in s1.tabs.vals ensures exists n :: 0 <= n < s1.counter && k == TabId(n) {
          if k == id {
            assert k == TabId(s.counter);
          }
        }
      }
      (ActivateTab(s1, id), id)
  }

  /** The counter's next id is not in use. */
  lemma FreshTabId(s: Tabs)
    requires Inv(s)
    ensures TabId(s.counter) !in s.tabs.vals
  {
    if TabId(s.counter) in s.tabs.vals {
      var n :| 0 <= n < s.counter && TabId(s.counter) == TabId(n);
      TabIdInjective(n, s.counter);
    }
  }

  /** `closeTab(tabId)`: an unknown id changes nothing; closing the active tab
      activates the first remaining tab in insertion order, or leaves none active. */
  function CloseTab(s: Tabs, tabId: string): (r: Tabs)
    requires Inv(s)
    ensures Inv(r)
    ensures tabId !in s.tabs.vals ==> r == s
    ensures tabId in s.tabs.vals ==>
      && r.tabs.keys == Without(s.tabs.keys, tabId)
      && r.tabs.vals.Keys == s.tabs.vals.Keys - {tabId}
      && r.counter == s.counter
    ensures tabId in s.tabs.vals && s.activeTabId != Some(tabId) ==>
      r.activeTabId == s.activeTabId && r.tabs.vals == s.tabs.vals - {tabId}
    ensures tabId in s.tabs.vals && s.activeTabId == Some(tabId) ==>
      && (|r.tabs.keys| == 0 ==> r.activeTabId.None? && r.tabs.vals == s.tabs.vals - {tabId})
      && (|r.tabs.keys| > 0 ==> r.activeTabId == Some(r.tabs.keys[0]))
      && (|r.tabs.keys| > 0 ==>
            forall k :: k in r.tabs.vals ==> r.tabs.vals[k] == s.tabs.vals[k].(isActive := k == r.tabs.keys[0]))
  {
    if tabId !in s.tabs.vals then s
    else
      var s1 := s.(tabs := Remove(s.tabs, tabId));
      if s.activeTabId == Some(tabId) then
        var rest := s1.tabs.keys;
        if |rest| > 0 then
          assert rest[0] in s1.tabs.vals;
          ActivateTab(s1.(activeTabId := None), rest[0])
        else
          s1.(activeTabId := None)
      else
        s1
  }

  // ---------------------------------------------------------------- partners

  /** Opening a new file and closing its tab leaves the same tabs in the same
      order; only the counter has moved on, so reopening the file gets a new id. */
  lemma CreateThenCloseTab(s: Tabs, file: TabFile)
    requires Inv(s) && FindByFileId(s.tabs, file.id).None?
    ensures var (s1, id) := CreateTab(s, file);
      && CloseTab(s1, id).tabs.keys == s.tabs.keys
      && CloseTab(s1, id).tabs.vals.Keys == s.tabs.vals.Keys
      && CloseTab(s1, id).counter == s.counter + 1
      && CreateTab(CloseTab(s1, id), file).1 == TabId(s.counter + 1) != id
  {
    var (s1, id) := CreateTab(s, file);
    assert s1.tabs.keys == s.tabs.keys + [id];
    WithoutAt(s1.tabs.keys, |s.tabs.keys|);
    assert s1.tabs.keys[..|s.tabs.keys|] == s.tabs.keys;
    var s2 := CloseTab(s1, id);
    assert FindByFileId(s2.tabs, file.id).None? by {
      forall k | k in s2.tabs.vals ensures s2.tabs.vals[k].file.id != file.id {
        assert k in s.tabs.vals;
      }
    }
    if TabId(s.counter + 1) == id {
      TabIdInjective(s.counter + 1, s.counter);
    }
  }

  /** Creating a tab for a file twice gives one tab: the second call finds the first. */
  lemma CreateTabTwice(s: Tabs, file: TabFile)
    requires Inv(s)
    ensures var (s1, id) := CreateTab(s, file);
      && CreateTab(s1, file).0.tabs.keys == s1.tabs.keys
      && FindByFileId(s1.tabs, file.id).Some?
  {
  }
}

=== FILE: editor.dfy ===
/** The rich-text note editor: the `isDirty` flag that every edit raises and
    every load, clear and successful auto-save lowers, and the last passes of
    the Markdown-to-HTML and HTML-to-Markdown converters. What the browser's
    editing commands do to the document, and the converters' earlier regular
    expression passes, are parameters. */
module Editor {
  import opened Wrappers
  import opened Strings
  import opened Seqs

  type Stamp = string

  /** What the editor shows when it has nothing: set by `clear()`. */
  const Placeholder := "<p>ここに文章を入力してください...</p>"

  datatype Editor = Editor(
    mounted: bool,            // `init` found the editor's container
    html: string,             // the container's `innerHTML`
    isDirty: bool,
    lastSave: Option<Stamp>)

  /** The constructor: not yet mounted, clean, never saved. */
  function New(): (e: Editor)
    ensures !e.mounted && !e.isDirty && e.lastSave.None?
  {
    Editor(false, "", false, None)
  }

  // ---------------------------------------------------------------- editing

  /** The editing commands; each ends in `onContentChange()`, unless it does nothing. */
  datatype Command =
    | Typed                                    // an `input` event
    | Bold | Italic | Underline
    | Heading(level: int)
    | Link(url: string)                        // the prompt's answer; "" when cancelled or empty
    | InsertTable(rows: Option<int>, cols: Option<int>)
    | InsertText(text: string)
    | InsertHtml(markup: string)
    | Indent | Outdent | LineBreak
    | Paste(text: string, markup: string)      // the clipboard's plain-text and HTML parts

  /** Whether a command reaches `onContentChange()`: a link needs a URL, and a
      paste needs something on the clipboard. */
  predicate Changes(c: Command) {
    match c
    case Link(url) => url != ""
    case Paste(text, markup) => markup != "" || text != ""
    case _ => true
  }

  /** `handleKeyDown(e)`: the shortcut a key press runs, if any. A key with
      Ctrl held runs at most one of the Ctrl shortcuts; Tab indents, or
      outdents with Shift, whatever else is held. */
  function Shortcut(key: string, ctrl: bool, shift: bool, url: string): (c: Option<Command>)
    ensures key == "Tab" ==> c == Some(if shift then Outdent else Indent)
    ensures !ctrl && key != "Tab" ==> c.None?
    ensures c.Some? && c.value.Heading? ==> 1 <= c.value.level <= 6
  {
    if key == "Tab" then Some(if shift then Outdent else Indent)
    else if !ctrl then None
    else if key == "b" then Some(Bold)
    else if key == "i" then Some(Italic)
    else if key == "u" then Some(Underline)
    else if |key| == 1 && '1' <= key[0] <= '6' then Some(Heading(key[0] as int - '0' as int))
    else if key == "k" then Some(Link(url))
    else if key == "Enter" then Some(LineBreak)
    else None
  }

  /** One editing command; `after` is the document the browser leaves. The
      flag is raised whether or not a container exists. */
  function Apply(e: Editor, c: Command, after: string): (r: Editor)
    ensures Changes(c) ==> r.isDirty && r.html == after
    ensures !Changes(c) ==> r == e
    ensures r.mounted == e.mounted && r.lastSave == e.lastSave
  {
    if Changes(c) then e.(html := after, isDirty := true) else e
  }

  // ---------------------------------------------------------------- loading

  /** What `setContent` is given: a Markdown string, or anything else, which
      is put into the document as it is. */
  datatype Content = Markdown(text: string) | Markup(raw: string)

  /** `setContent(content)`: without a container nothing happens; otherwise
      the document is replaced and the flag lowered. */
  function SetContent(e: Editor, content: Content, passes: string -> string): (r: Editor)
    ensures !e.mounted ==> r == e
    ensures e.mounted ==> !r.isDirty
    ensures e.mounted && content.Markdown? ==> r.html == MarkdownToHtml(content.text, passes)
    ensures e.mounted && content.Markup? ==> r.html == content.raw
    ensures r.mounted == e.mounted && r.lastSave == e.lastSave
  {
    if !e.mounted then e
    else
      var html := match content
        case Markdown(text) => MarkdownToHtml(text, passes)
        case Markup(raw) => raw;
      e.(html := html, isDirty := false)
  }

  /** `clear()`: the placeholder, and a clean flag, when there is a container. */
  function Clear(e: Editor): (r: Editor)
    ensures !e.mounted ==> r == e
    ensures e.mounted ==> !r.isDirty && r.html == Placeholder
    ensures r.mounted == e.mounted && r.lastSave == e.lastSave
  {
    if e.mounted then e.(html := Placeholder, isDirty := false) else e
  }

  /** `getContent()`: the document as Markdown, or nothing without a container. */
  function GetContent(e: Editor, passes: string -> string): (md: string)
    ensures !e.mounted ==> md == ""
    ensures NoTagLeft(md)
  {
    if e.mounted then HtmlToMarkdown(e.html, passes) else ""
  }

  // ---------------------------------------------------------------- saving

  /** `autoSave()`: a clean editor, or one with no application to save
      through, does nothing. Otherwise the flag is lowered, and the time
      recorded, only once the save has returned; a save that throws is
      logged and leaves the editor dirty. */
  function AutoSave(e: Editor, appPresent: bool, saved: bool, now: Stamp): (r: Editor)
    ensures !e.isDirty || !appPresent ==> r == e
    ensures e.isDirty && appPresent && !saved ==> r == e
    ensures e.isDirty && appPresent && saved ==> !r.isDirty && r.lastSave == Some(now)
    ensures r.mounted == e.mounted && r.html == e.html
  {
    if !e.isDirty || !appPresent then e
    else if saved then e.(isDirty := false, lastSave := Some(now))
    else e
  }

  /** One tick of the `setInterval` timer: auto-save only when dirty. */
  function Tick(e: Editor, appPresent: bool, saved: bool, now: Stamp): (r: Editor)
    ensures !e.isDirty ==> r == e
  {
    if e.isDirty then AutoSave(e, appPresent, saved, now) else e
  }

  /** The timer's guard repeats the one inside `autoSave`: a tick is an auto-save. */
  lemma TickIsAutoSave(e: Editor, appPresent: bool, saved: bool, now: Stamp)
    ensures Tick(e, appPresent, saved, now) == AutoSave(e, appPresent, saved, now)
  {
  }

  // ---------------------------------------------------------------- a session

  /** What can happen to the editor, in the order it happens. */
  datatype Event =
    | Edited(command: Command, after: string)
    | ContentSet(content: Content)
    | Cleared
    | Ticked(appPresent: bool, saved: bool, now: Stamp)

  function Step(e: Editor, ev: Event, passes: string -> string): (r: Editor)
    ensures r.mounted == e.mounted
  {
    match ev
    case Edited(c, after) => Apply(e, c, after)
    case ContentSet(content) => SetContent(e, content, passes)
    case Cleared => Clear(e)
    case Ticked(app, saved, now) => Tick(e, app, saved, now)
  }

  /** The events applied one after another. */
  function Run(e: Editor, evs: seq<Event>, passes: string -> string): (r: Editor)
    ensures r.mounted == e.mounted
    decreases |evs|
  {
    if |evs| == 0 then e else Run(Step(e, evs[0], passes), evs[1..], passes)
  }

  /** An event that raises the flag. */
  predicate Raises(ev: Event) {
    ev.Edited? && Changes(ev.command)
  }

  /** An event that leaves the flag lowered, whatever it was: a load or a clear
      with a container, or a tick whose save went through. */
  predicate Lowers(ev: Event, mounted: bool) {
    || (ev.ContentSet? && mounted)
    || (ev.Cleared? && mounted)
    || (ev.Ticked? && ev.appPresent && ev.saved)
  }

  /** The flag as the last event that raises or lowers it leaves it, read
      from the end of the session; `start` if there is none. */
  function DirtyAfter(start: bool, evs: seq<Event>, mounted: bool): bool
    decreases |evs|
  {
    if |evs| == 0 then start
    else
      var last := evs[|evs| - 1];
      if Raises(last) then true
      else if Lowers(last, mounted) then false
      else DirtyAfter(start, evs[..|evs| - 1], mounted)
  }

  /** A session that ends with one more event. */
  lemma {:induction false} RunSnoc(e: Editor, evs: seq<Event>, ev: Event, passes: string -> string)
    ensures Run(e, evs + [ev], passes) == Step(Run(e, evs, passes), ev, passes)
    decreases |evs|
  {
    if |evs| > 0 {
      assert (evs + [ev])[1..] == evs[1..] + [ev];
      RunSnoc(Step(e, evs[0], passes), evs[1..], ev, passes);
    }
  }

  /** After any session the editor is dirty exactly when the last event that
      raises or lowers the flag raised it (or, with no such event, when it
      was dirty to begin with): every change not followed by a load, a clear
      or a completed save is still waiting to be saved. */
  lemma {:induction false} DirtyExactly(e: Editor, evs: seq<Event>, passes: string -> string)
    ensures Run(e, evs, passes).isDirty == DirtyAfter(e.isDirty, evs, e.mounted)
    ensures Run(e, evs, passes).mounted == e.mounted
    decreases |evs|
  {
    if |evs| > 0 {
      var init, last := evs[..|evs| - 1], evs[|evs| - 1];
      assert evs == init + [last];
      RunSnoc(e, init, last, passes);
      DirtyExactly(e, init, passes);
    }
  }

  // ---------------------------------------------------------------- converters

  /** No `<` is followed, anywhere later, by a `>`. */
  predicate NoTagLeft(s: string) {
    forall i, j :: 0 <= i < j < |s| && s[i] == '<' ==> s[j] != '>'
  }

  /** `s.replace(/<[^>]*>/g, '')`: from each `<` that has a `>` after it, up to
      the first such `>`, is dropped; a `<` with none after it stays. */
  function StripTags(s: string): (r: string)
    ensures NoTagLeft(r)
    ensures forall i :: 0 <= i < |r| ==> r[i] in s
    ensures '<' !in s ==> r == s
    decreases |s|
  {
    if |s| == 0 then ""
    else
      var close := FindFirst(s[1..], (c: char) => c == '>');
      if s[0] == '<' && close.Some? then
        var j := close.value;
        var r := StripTags(s[j + 2..]);
        SuffixChars(s, j + 2, r);
        r
      else
        var rest := StripTags(s[1..]);
        assert s[0] == '<' ==> '>' !in s[1..];
        SuffixChars(s, 1, rest);
        ConsNoTag(s[0], s[1..], rest);
        assert [s[0]] + s[1..] == s;
        [s[0]] + rest
  }

  /** Characters drawn from a suffix of `s` are characters of `s`. */
  lemma SuffixChars(s: string, j: nat, r: string)
    requires j <= |s| && forall i :: 0 <= i < |r| ==> r[i] in s[j..]
    ensures forall i :: 0 <= i < |r| ==> r[i] in s
  {
    forall i | 0 <= i < |r| ensures r[i] in s {
      var k :| 0 <= k < |s[j..]| && s[j..][k] == r[i];
      assert s[j + k] == r[i];
    }
  }

  /** A character in front of clean text keeps it clean unless it opens a tag
      that some later `>` would close. */
  lemma ConsNoTag(c: char, t: string, rest: string)
    requires NoTagLeft(rest) && (forall i :: 0 <= i < |rest| ==> rest[i] in t)
    requires c == '<' ==> '>' !in t
    ensures NoTagLeft([c] + rest)
  {
    var r := [c] + rest;
    forall i, j | 0 <= i < j < |r| && r[i] == '<' ensures r[j] != '>' {
      assert r[j] == rest[j - 1];
      if i > 0 {
        assert r[i] == rest[i - 1];
      }
    }
  }

  /** Text with no tag left passes through the tag strip unchanged, so the
      strip is idempotent. */
  lemma {:induction false} StripTagsKeepsClean(s: string)
    requires NoTagLeft(s)
    ensures StripTags(s) == s
    decreases |s|
  {
    if |s| > 0 {
      assert NoTagLeft(s[1..]);
      StripTagsKeepsClean(s[1..]);
      if s[0] == '<' {
        assert FindFirst(s[1..], (c: char) => c == '>').None? by {
          forall k | 0 <= k < |s[1..]| ensures s[1..][k] != '>' {
            assert s[k + 1] != '>';
          }
        }
      }
      assert [s[0]] + s[1..] == s;
    }
  }

  lemma StripTagsIdempotent(s: string)
    ensures StripTags(StripTags(s)) == StripTags(s)
  {
    StripTagsKeepsClean(StripTags(s));
  }

  /** `markdownToHTML(markdown)`: empty for empty input; otherwise the
      heading, emphasis and link passes (`passes`) and then every line break
      becomes `<br>`. */
  function MarkdownToHtml(markdown: string, passes: string -> string): (html: string)
    ensures markdown == "" ==> html == ""
    ensures '\n' !in html
  {
    if markdown == "" then ""
    else
      ReplaceCharRemovesIt(passes(markdown), '\n', "<br>");
      NewlinePass(passes(markdown))
  }

  /** The final pass of `markdownToHTML`. */
  function NewlinePass(s: string): (r: string)
  {
    ReplaceAll(s, "\n", "<br>")
  }

  /** `htmlToMarkdown(html)`: empty for empty input; otherwise the heading,
      emphasis and link passes (`passes`), then `<br>` becomes a line break,
      `</p><p>` a blank line, and every remaining tag is stripped. */
  function HtmlToMarkdown(html: string, passes: string -> string): (markdown: string)
    ensures html == "" ==> markdown == ""
    ensures NoTagLeft(markdown)
  {
    if html == "" then ""
    else StripTags(ReplaceAll(BreakPass(passes(html)), "</p><p>", "\n\n"))
  }

  /** The `<br>` pass of `htmlToMarkdown`. */
  function BreakPass(s: string): (r: string)
  {
    ReplaceAll(s, "<br>", "\n")
  }

  /** One step of the newline pass on a non-empty text. */
  lemma NewlineUnfold(t: string)
    requires |t| > 0
    ensures NewlinePass(t) == (if t[0] == '\n' then "<br>" else [t[0]]) + NewlinePass(t[1..])
  {
    assert t[..1] == [t[0]];
  }

  /** A character other than `<` at the front of the newline pass's output
      was at the front of its input. */
  lemma NewlineFront(t: string, c: char)
    requires c != '<' && |NewlinePass(t)| > 0 && NewlinePass(t)[0] == c
    ensures |t| > 0 && t[0] == c && NewlinePass(t)[1..] == NewlinePass(t[1..])
  {
    if |t| > 0 {
      NewlineUnfold(t);
    }
  }

  /** The `<br>` pass of `htmlToMarkdown` undoes the newline pass of
      `markdownToHTML` on text that does not itself contain `<br>`. */
  lemma {:induction false} BreakPassUndoesNewlinePass(s: string)
    requires !Contains(s, "<br>")
    ensures BreakPass(NewlinePass(s)) == s
    decreases |s|
  {
    if |s| > 0 {
      NewlineUnfold(s);
      var t := s[1..];
      assert !Contains(t, "<br>") by {
        if Contains(t, "<br>") {
          var i :| 0 <= i <= |t| - 4 && OccursAt(t, "<br>", i);
          assert s[i + 1..i + 5] == t[i..i + 4];
          assert OccursAt(s, "<br>", i + 1);
          assert false;
        }
      }
      BreakPassUndoesNewlinePass(t);
      var x := NewlinePass(s);
      if s[0] == '\n' {
        assert x == "<br>" + NewlinePass(t);
        assert x[..4] == "<br>" && x[4..] == NewlinePass(t);
        assert BreakPass(x) == "\n" + BreakPass(NewlinePass(t));
      } else {
        assert x == [s[0]] + NewlinePass(t);
        if |x| >= 4 && x[..4] == "<br>" {
          assert x[1] == 'b' && x[2] == 'r' && x[3] == '>';
          assert NewlinePass(t)[0] == x[1];
          NewlineFront(t, 'b');
          assert NewlinePass(t[1..])[0] == x[2];
          NewlineFront(t[1..], 'r');
          assert t[1..][1..] == t[2..];
          assert NewlinePass(t[2..])[0] == x[3];
          NewlineFront(t[2..], '>');
          assert s[..4] == "<br>";
          assert OccursAt(s, "<br>", 0);
          assert false;
        }
        assert x[1..] == NewlinePass(t);
        assert BreakPass(x) == [s[0]] + BreakPass(NewlinePass(t));
      }
      assert s == [s[0]] + t;
    }
  }
}

=== FILE: explorer.dfy ===
/** The explorer sidebar: whether it is shown, which tree nodes are expanded
    (a JavaScript `Set`, so kept in insertion order), which node is selected,
    the settings object that saves and restores these three, the icon and
    buttons each node type gets, and the delete button's dispatch to the
    store. */
module Explorer {
  import opened Wrappers
  import opened Seqs
  import opened Store
  import opened StoreFacts
  import opened StoreCascade

  datatype Selection = Selection(id: Id, nodeType: string)

  datatype Explorer = Explorer(isVisible: bool, expanded: seq<Id>, selected: Option<Selection>)

  /** A `Set` holds each id once. */
  predicate Inv(e: Explorer) {
    NoDuplicates(e.expanded)
  }

  /** The constructor: shown, nothing expanded, nothing selected. */
  function New(): (e: Explorer)
    ensures Inv(e) && e.isVisible && |e.expanded| == 0 && e.selected.None?
  {
    Explorer(true, [], None)
  }

  // ---------------------------------------------------------------- visibility

  /** `show()`: only when the page has a sidebar element. */
  function Show(e: Explorer, sidebar: bool): (r: Explorer)
    ensures sidebar ==> r.isVisible
    ensures !sidebar ==> r == e
    ensures r.(isVisible := e.isVisible) == e
  {
    if sidebar then e.(isVisible := true) else e
  }

  /** `hide()`. */
  function Hide(e: Explorer, sidebar: bool): (r: Explorer)
    ensures sidebar ==> !r.isVisible
    ensures !sidebar ==> r == e
    ensures r.(isVisible := e.isVisible) == e
  {
    if sidebar then e.(isVisible := false) else e
  }

  /** `toggle()`: returns early without a sidebar, else hides or shows. */
  function Toggle(e: Explorer, sidebar: bool): (r: Explorer)
    ensures !sidebar ==> r == e
    ensures sidebar ==> r == if e.isVisible then Hide(e, sidebar) else Show(e, sidebar)
  {
    if !sidebar then e
    else if e.isVisible then Hide(e, sidebar) else Show(e, sidebar)
  }

  /** With a sidebar, toggling flips visibility and toggling twice changes nothing. */
  lemma ToggleTwice(e: Explorer)
    ensures Toggle(e, true).isVisible == !e.isVisible
    ensures Toggle(Toggle(e, true), true) == e
  {
  }

  // ---------------------------------------------------------------- expanded nodes

  /** `toggleNode(nodeId)`: an expanded node is collapsed (leaves the set), any
      other is expanded (joins the set at the end). */
  function ToggleNode(e: Explorer, nodeId: Id): (r: Explorer)
    requires Inv(e)
    ensures Inv(r)
    ensures r.isVisible == e.isVisible && r.selected == e.selected
    ensures nodeId in r.expanded <==> nodeId !in e.expanded
    ensures forall x :: x != nodeId ==> (x in r.expanded <==> x in e.expanded)
    ensures nodeId !in e.expanded ==> r.expanded == e.expanded + [nodeId]
    ensures nodeId in e.expanded ==> r.expanded == RemoveFirst(e.expanded, nodeId)
  {
    if nodeId in e.expanded then
      RemoveFirstGone(e.expanded, nodeId);
      RemoveFirstNoDuplicates(e.expanded, nodeId);
      e.(expanded := RemoveFirst(e.expanded, nodeId))
    else
      e.(expanded := e.expanded + [nodeId])
  }

  /** Toggling a node twice restores the expanded set. A node that was
      collapsed comes back exactly; one that was expanded comes back at the
      end of the insertion order. */
  lemma ToggleNodeTwice(e: Explorer, nodeId: Id)
    requires Inv(e)
    ensures forall x :: x in ToggleNode(ToggleNode(e, nodeId), nodeId).expanded <==> x in e.expanded
    ensures nodeId !in e.expanded ==> ToggleNode(ToggleNode(e, nodeId), nodeId) == e
    ensures nodeId in e.expanded ==>
      ToggleNode(ToggleNode(e, nodeId), nodeId).expanded == RemoveFirst(e.expanded, nodeId) + [nodeId]
  {
    if nodeId !in e.expanded {
      var s := e.expanded + [nodeId];
      assert s[..|e.expanded|] == e.expanded;
      RemoveLast(e.expanded, nodeId);
    }
  }

  /** Removing an appended element that was not there before gives back the list. */
  lemma {:induction false} RemoveLast(s: seq<Id>, x: Id)
    requires x !in s
    ensures RemoveFirst(s + [x], x) == s
    decreases |s|
  {
    if |s| > 0 {
      assert (s + [x])[1..] == s[1..] + [x];
      RemoveLast(s[1..], x);
      assert [s[0]] + s[1..] == s;
    }
  }

  // ---------------------------------------------------------------- selection

  /** `selectNode(nodeId, nodeType)`: the selection moves only when the tree
      shows an element for that id. */
  function SelectNode(e: Explorer, nodeId: Id, nodeType: string, shown: bool): (r: Explorer)
    ensures shown ==> r.selected == Some(Selection(nodeId, nodeType))
    ensures !shown ==> r == e
    ensures r.(selected := e.selected) == e
  {
    if shown then e.(selected := Some(Selection(nodeId, nodeType))) else e
  }

  // ---------------------------------------------------------------- settings

  /** The settings object. `None` stands for a field that is `undefined`
      (`isVisible`, `expandedNodes`) or falsy (`selectedNode`). */
  datatype ViewSettings = ViewSettings(isVisible: Option<bool>, expandedNodes: Option<seq<Id>>, selectedNode: Option<Selection>)

  /** `getSettings()`: the expanded set as an array in insertion order. */
  function GetSettings(e: Explorer): (st: ViewSettings)
    ensures st.isVisible == Some(e.isVisible)
    ensures st.expandedNodes == Some(e.expanded)
    ensures st.selectedNode == e.selected
  {
    ViewSettings(Some(e.isVisible), Some(e.expanded), e.selected)
  }

  /** `new Set(array)`: each element once, at its first occurrence. */
  function Dedup(s: seq<Id>): (r: seq<Id>)
    ensures NoDuplicates(r)
    ensures forall x :: x in r <==> x in s
    ensures NoDuplicates(s) ==> r == s
    decreases |s|
  {
    if |s| == 0 then []
    else
      var init, last := s[..|s| - 1], s[|s| - 1];
      assert s == init + [last];
      var r := Dedup(init);
      assert NoDuplicates(s) ==> NoDuplicates(init) && last !in init;
      if last in r then r else r + [last]
  }

  /** `restoreSettings(settings)`: each field present replaces the current
      one, and each field absent leaves it as it is. */
  function RestoreSettings(e: Explorer, st: ViewSettings): (r: Explorer)
    requires Inv(e)
    ensures Inv(r)
    ensures r.isVisible == if st.isVisible.Some? then st.isVisible.value else e.isVisible
    ensures st.expandedNodes.None? ==> r.expanded == e.expanded
    ensures st.expandedNodes.Some? ==> forall x :: x in r.expanded <==> x in st.expandedNodes.value
    ensures r.selected == if st.selectedNode.Some? then st.selectedNode else e.selected
  {
    Explorer(
      if st.isVisible.Some? then st.isVisible.value else e.isVisible,
      if st.expandedNodes.Some? then Dedup(st.expandedNodes.value) else e.expanded,
      if st.selectedNode.Some? then st.selectedNode else e.selected)
  }

  /** Restoring saved settings reproduces visibility and the expanded set in
      its order, and the selection unless there was none; then the current
      selection stays. */
  lemma RestoreGetSettings(e: Explorer, current: Explorer)
    requires Inv(e) && Inv(current)
    ensures RestoreSettings(current, GetSettings(e))
      == e.(selected := if e.selected.Some? then e.selected else current.selected)
  {
  }

  /** Restoring what was just saved changes nothing. */
  lemma RestoreOwnSettings(e: Explorer)
    requires Inv(e)
    ensures RestoreSettings(e, GetSettings(e)) == e
  {
    RestoreGetSettings(e, e);
  }

  // ---------------------------------------------------------------- node tables

  datatype NodeKind = GameNode | CharacterNode | CategoryNode | FileNode

  /** The `type` strings the tree writes on its nodes. */
  function KindOf(nodeType: string): (k: Option<NodeKind>)
    ensures k == Some(GameNode) <==> nodeType == "game"
    ensures k == Some(CharacterNode) <==> nodeType == "character"
    ensures k == Some(CategoryNode) <==> nodeType == "category"
    ensures k == Some(FileNode) <==> nodeType == "file"
  {
    if nodeType == "game" then Some(GameNode)
    else if nodeType == "character" then Some(CharacterNode)
    else if nodeType == "category" then Some(CategoryNode)
    else if nodeType == "file" then Some(FileNode)
    else None
  }

  /** `getNodeIcon(type)`: the icon table, with the file icon for any other type. */
  function NodeIcon(nodeType: string): (icon: string)
  {
    match KindOf(nodeType)
    case Some(GameNode) => "🎮"
    case Some(CharacterNode) => "👤"
    case Some(CategoryNode) => "📁"
    case Some(FileNode) => "📄"
    case None => "📄"
  }

  /** The icon tells the four node types apart, and any other type looks like a file. */
  lemma IconIdentifiesKind(a: string, b: string)
    ensures KindOf(a).Some? && KindOf(b).Some? ==> (NodeIcon(a) == NodeIcon(b) <==> KindOf(a) == KindOf(b))
    ensures KindOf(a).None? ==> NodeIcon(a) == NodeIcon("file")
  {
  }

  /** What a node's buttons do: add a child of the next level under the
      node, or delete the node. */
  datatype Action = AddChild(parent: Id, child: NodeKind) | Delete(id: Id)

  /** The level below each kind; files have none. */
  function ChildKind(k: NodeKind): (c: Option<NodeKind>)
  {
    match k
    case GameNode => Some(CharacterNode)
    case CharacterNode => Some(CategoryNode)
    case CategoryNode => Some(FileNode)
    case FileNode => None
  }

  /** `getNodeActions(type, nodeId)`: the buttons, in order; none for an unknown type. */
  function NodeActions(nodeType: string, nodeId: Id): (acts: seq<Action>)
  {
    match KindOf(nodeType)
    case None => []
    case Some(k) =>
      match ChildKind(k)
      case Some(c) => [AddChild(nodeId, c), Delete(nodeId)]
      case None => [Delete(nodeId)]
  }

  /** Every known node ends with one delete button for itself, preceded by an
      add button for the level below when there is one; a file gets only the
      delete button and an unknown type gets no buttons. */
  lemma ActionsFollowTree(nodeType: string, nodeId: Id)
    ensures KindOf(nodeType).None? <==> NodeActions(nodeType, nodeId) == []
    ensures nodeType == "file" ==> NodeActions(nodeType, nodeId) == [Delete(nodeId)]
    ensures KindOf(nodeType).Some? ==>
      var acts := NodeActions(nodeType, nodeId);
      && |acts| >= 1 && acts[|acts| - 1] == Delete(nodeId)
      && var child := ChildKind(KindOf(nodeType).value);
      acts[..|acts| - 1] == if child.Some? then [AddChild(nodeId, child.value)] else []
  {
  }

  // ---------------------------------------------------------------- deleting

  /** How a click on a delete button ends. */
  datatype DeleteOutcome =
    | Declined                     // the confirmation was dismissed
    | Planned                      // a character or category: logged, not deleted yet
    | UnknownType                  // no node element, or a type the switch does not know
    | Deleted(data: Data)          // the store changed; the tree is redrawn
    | DeleteFailed(error: Error)   // the store threw; an alert reports it

  /** A store call that resolved or threw, as a delete click ends. */
  function Outcome(r: Result<Data>): (o: DeleteOutcome)
    ensures o.Deleted? || o.DeleteFailed?
    ensures o.Deleted? <==> r.Success?
  {
    match r
    case Success(d') => Deleted(d')
    case Failure(err) => DeleteFailed(err)
  }

  /** The switch of `deleteNode`, given what the store's game and file
      deletions would return: the node type read from the tree picks one. */
  function Dispatch(confirmed: bool, nodeType: Option<string>, game: Result<Data>, file: Result<Data>): (o: DeleteOutcome)
    ensures !confirmed <==> o.Declined?
    ensures confirmed && nodeType == Some("game") ==> o == Outcome(game)
    ensures confirmed && nodeType == Some("file") ==> o == Outcome(file)
    ensures o.Planned? <==> confirmed && (nodeType == Some("character") || nodeType == Some("category"))
    ensures o.UnknownType? <==> confirmed && (nodeType.None? || KindOf(nodeType.value).None?)
  {
    if !confirmed then Declined
    else match nodeType
      case None => UnknownType
      case Some(t) =>
        match KindOf(t)
        case Some(GameNode) => Outcome(game)
        case Some(FileNode) => Outcome(file)
        case Some(_) => Planned
        case None => UnknownType
  }

  /** `deleteNode(nodeId)`: after confirmation, a game node goes to the
      store's `deleteGame` as the program has it, whose cascade walks the
      live id list that each `deleteFile` splices, and a file node goes to
      `deleteFile`. */
  function DeleteNode(d: Data, nodeId: Id, confirmed: bool, nodeType: Option<string>, now: Stamp): (o: DeleteOutcome)
    ensures !confirmed <==> o.Declined?
    ensures confirmed && nodeType == Some("game") ==>
      (o.Deleted? <==> DeleteGameAsWritten(d, nodeId, now).Success?)
      && (o.Deleted? ==> o.data == DeleteGameAsWritten(d, nodeId, now).value)
      && (o.DeleteFailed? ==> Failure(o.error) == DeleteGameAsWritten(d, nodeId, now))
    ensures confirmed && nodeType == Some("file") ==>
      (o.Deleted? <==> DeleteFile(d, nodeId, now).Success?)
      && (o.Deleted? ==> o.data == DeleteFile(d, nodeId, now).value)
      && (o.DeleteFailed? ==> Failure(o.error) == DeleteFile(d, nodeId, now))
    ensures o.Planned? <==> confirmed && (nodeType == Some("character") || nodeType == Some("category"))
    ensures o.UnknownType? <==> confirmed && (nodeType.None? || KindOf(nodeType.value).None?)
  {
    Dispatch(confirmed, nodeType, DeleteGameAsWritten(d, nodeId, now), DeleteFile(d, nodeId, now))
  }

  /** The same click with the corrected game cascade, which deletes every
      file of the game. */
  function DeleteNodeCorrected(d: Data, nodeId: Id, confirmed: bool, nodeType: Option<string>, now: Stamp): (o: DeleteOutcome)
    ensures !confirmed <==> o.Declined?
    ensures confirmed && nodeType == Some("game") ==>
      (o.Deleted? <==> DeleteGame(d, nodeId, now).Success?)
      && (o.Deleted? ==> o.data == DeleteGame(d, nodeId, now).value)
      && (o.DeleteFailed? ==> Failure(o.error) == DeleteGame(d, nodeId, now))
    ensures nodeType != Some("game") ==> o == DeleteNode(d, nodeId, confirmed, nodeType, now)
  {
    Dispatch(confirmed, nodeType, DeleteGame(d, nodeId, now), DeleteFile(d, nodeId, now))
  }

  /** The store after a delete click: changed only when something was deleted. */
  function StoreAfter(d: Data, o: DeleteOutcome): (d': Data)
    ensures !o.Deleted? ==> d' == d
  {
    if o.Deleted? then o.data else d
  }

  /** A click on any node but a game keeps every stored file reachable
      through the tree. */
  lemma DeleteNodeKeepsListed(d: Data, nodeId: Id, confirmed: bool, nodeType: Option<string>, now: Stamp)
    requires FileIdsDistinct(d.files) && EveryFileListed(d)
    ensures nodeType != Some("game") ==> EveryFileListed(StoreAfter(d, DeleteNode(d, nodeId, confirmed, nodeType, now)))
  {
    var o := DeleteNode(d, nodeId, confirmed, nodeType, now);
    if o.Deleted? && nodeType != Some("game") {
      DeleteFileKeepsListed(d, nodeId, now);
    }
  }

  /** Deleting a game node as the program does can leave a file that no
      category lists: the one game of a store whose category lists two files. */
  lemma DeleteGameNodeOrphans()
    ensures EveryFileListed(TwoFileStore())
    ensures DeleteNode(TwoFileStore(), "g", true, Some("game"), "t1").Deleted?
    ensures !EveryFileListed(StoreAfter(TwoFileStore(), DeleteNode(TwoFileStore(), "g", true, Some("game"), "t1")))
  {
    AsWrittenBreaksListing();
  }

  /** With the corrected cascade, whatever a delete click does, every file
      left in the store is still reachable through the tree. */
  lemma DeleteNodeCorrectedKeepsListed(d: Data, nodeId: Id, confirmed: bool, nodeType: Option<string>, now: Stamp)
    requires FileIdsDistinct(d.files) && EveryFileListed(d)
    ensures EveryFileListed(StoreAfter(d, DeleteNodeCorrected(d, nodeId, confirmed, nodeType, now)))
  {
    var o := DeleteNodeCorrected(d, nodeId, confirmed, nodeType, now);
    if o.Deleted? {
      if nodeType == Some("game") {
        DeleteGameKeepsListed(d, nodeId, now);
      } else {
        DeleteFileKeepsListed(d, nodeId, now);
      }
    }
  }

  /** Deleting a file node removes that file from the store. */
  lemma DeleteFileNodeRemovesIt(d: Data, nodeId: Id, now: Stamp)
    requires FileIdsDistinct(d.files)
    requires DeleteNode(d, nodeId, true, Some("file"), now).Deleted?
    ensures GetFile(StoreAfter(d, DeleteNode(d, nodeId, true, Some("file"), now)), nodeId).None?
  {
    DeleteFileRemovesId(d, nodeId, now);
  }

  /** Characters and categories are offered a delete button that leaves the store as it was. */
  lemma OfferedDeleteIsPlanned(nodeType: string, nodeId: Id, d: Data, now: Stamp)
    requires nodeType == "character" || nodeType == "category"
    ensures Delete(nodeId) in NodeActions(nodeType, nodeId)
    ensures StoreAfter(d, DeleteNode(d, nodeId, true, Some(nodeType), now)) == d
  {
    assert NodeActions(nodeType, nodeId)[1] == Delete(nodeId);
  }
}

=== FILE: keyboard.dfy ===
/** The extended keyboard's button catalogue: a JavaScript `Map` from game id
    to that game's definitions, an object from category name to an ordered
    list of buttons. The built-in catalogue is stored under `'default'`, and
    every lookup for a game without definitions of its own falls back on it. */
module Keyboard {
  import opened Wrappers
  import opened Strings
  import opened Seqs
  import opened OrderedMap

  datatype Button = Button(text: string, color: string)

  /** One game's definitions: category name to buttons, in `Object.keys` order. */
  type Definitions = OMap<seq<Button>>

  const DefaultGame := "default"
  const AllCategories := "all"

  datatype Keyboard = Keyboard(
    catalogue: OMap<Definitions>,
    mounted: bool,                   // `init` found the keyboard's container
    isVisible: bool,
    currentCategory: string,
    currentGame: string,
    currentCharacter: Option<string>)

  /** Every game's definitions are well formed and the fallback entry exists. */
  predicate Inv(k: Keyboard) {
    && Valid(k.catalogue)
    && DefaultGame in k.catalogue.vals
    && (forall g :: g in k.catalogue.vals ==> Valid(k.catalogue.vals[g]))
  }

  /** The constructor: hidden, showing all categories of `'default'`, with the
      built-in definitions as the only entry. */
  function New(builtIn: Definitions): (k: Keyboard)
    requires Valid(builtIn)
    ensures Inv(k)
    ensures k.catalogue.keys == [DefaultGame] && k.catalogue.vals[DefaultGame] == builtIn
    ensures k.currentGame == DefaultGame && k.currentCategory == AllCategories && k.currentCharacter.None?
    ensures !k.isVisible && !k.mounted
  {
    Keyboard(OMap([DefaultGame], map[DefaultGame := builtIn]), false, false, AllCategories, DefaultGame, None)
  }

  /** `init()`: records whether the container was found. */
  function Mount(k: Keyboard, containerFound: bool): (r: Keyboard)
    ensures r.mounted == containerFound && r.(mounted := k.mounted) == k
  {
    k.(mounted := containerFound)
  }

  // ---------------------------------------------------------------- visibility

  /** `show()`: nothing happens before a container is found. */
  function Show(k: Keyboard): (r: Keyboard)
    ensures k.mounted ==> r.isVisible
    ensures !k.mounted ==> r == k
    ensures r.(isVisible := k.isVisible) == k
  {
    if k.mounted then k.(isVisible := true) else k
  }

  /** `hide()`. */
  function Hide(k: Keyboard): (r: Keyboard)
    ensures k.mounted ==> !r.isVisible
    ensures !k.mounted ==> r == k
    ensures r.(isVisible := k.isVisible) == k
  {
    if k.mounted then k.(isVisible := false) else k
  }

  /** `toggle()`. */
  function Toggle(k: Keyboard): (r: Keyboard)
    ensures r == if k.isVisible then Hide(k) else Show(k)
  {
    if k.isVisible then Hide(k) else Show(k)
  }

  /** Once mounted, toggling flips visibility and toggling twice changes nothing. */
  lemma ToggleTwice(k: Keyboard)
    requires k.mounted
    ensures Toggle(k).isVisible == !k.isVisible
    ensures Toggle(Toggle(k)) == k
  {
  }

  // ---------------------------------------------------------------- lookup

  /** `keyboardDefinitions.get(gameId) || keyboardDefinitions.get('default')`:
      a game's own entry, or the fallback. */
  function Target(k: Keyboard, gameId: string): (g: string)
    requires Inv(k)
    ensures g in k.catalogue.vals
    ensures gameId in k.catalogue.vals <==> g == gameId
  {
    if gameId in k.catalogue.vals then gameId else DefaultGame
  }

  /** `defs[category] || []`: an absent category reads as no buttons. */
  function ButtonsIn(d: Definitions, category: string): (bs: seq<Button>)
    ensures category in d.vals ==> bs == d.vals[category]
    ensures category !in d.vals ==> bs == []
  {
    if category in d.vals then d.vals[category] else []
  }

  /** A catalogue with one game's definitions replaced keeps the invariant. */
  function WithGame(k: Keyboard, g: string, d: Definitions): (r: Keyboard)
    requires Inv(k) && g in k.catalogue.vals && Valid(d)
    ensures Inv(r)
    ensures r.catalogue.keys == k.catalogue.keys
    ensures r.catalogue.vals == k.catalogue.vals[g := d]
    ensures r.(catalogue := k.catalogue) == k
  {
    k.(catalogue := Put(k.catalogue, g, d))
  }

  // ---------------------------------------------------------------- editing

  /** `addCustomDefinition(category, text, color)`: the button goes at the end
      of that category of the current game's definitions (or the fallback's),
      and a missing category is created at the end of the key order. */
  function AddCustomDefinition(k: Keyboard, category: string, text: string, color: string): (r: Keyboard)
    requires Inv(k)
    ensures Inv(r)
    ensures r.catalogue.keys == k.catalogue.keys && r.(catalogue := k.catalogue) == k
    ensures var g := Target(k, k.currentGame);
      && (forall h :: h in k.catalogue.vals && h != g ==> r.catalogue.vals[h] == k.catalogue.vals[h])
      && var before, after := k.catalogue.vals[g], r.catalogue.vals[g];
      && after.keys == (if category in before.vals then before.keys else before.keys + [category])
      && (forall c :: c in after.vals <==> c in before.vals || c == category)
      && (forall c :: c in before.vals && c != category ==> after.vals[c] == before.vals[c])
      && |after.vals[category]| == |ButtonsIn(before, category)| + 1
      && after.vals[category][..|ButtonsIn(before, category)|] == ButtonsIn(before, category)
      && after.vals[category][|ButtonsIn(before, category)|] == Button(text, color)
  {
    var g := Target(k, k.currentGame);
    var d := k.catalogue.vals[g];
    WithGame(k, g, Put(d, category, ButtonsIn(d, category) + [Button(text, color)]))
  }

  /** `removeDefinition(category, text)`: the first button with that text
      leaves the category; an absent category or text changes nothing. */
  function RemoveDefinition(k: Keyboard, category: string, text: string): (r: Keyboard)
    requires Inv(k)
    ensures Inv(r)
    ensures var g := Target(k, k.currentGame);
      var before := k.catalogue.vals[g];
      var bs := ButtonsIn(before, category);
      && ((forall j :: 0 <= j < |bs| ==> bs[j].text != text) ==> r == k)
      && ((exists j :: 0 <= j < |bs| && bs[j].text == text) ==>
            && r.catalogue.keys == k.catalogue.keys && r.(catalogue := k.catalogue) == k
            && (forall h :: h in k.catalogue.vals && h != g ==> r.catalogue.vals[h] == k.catalogue.vals[h])
            && var after := r.catalogue.vals[g];
            && after.keys == before.keys
            && (forall c :: c in before.vals && c != category ==> c in after.vals && after.vals[c] == before.vals[c])
            && category in after.vals
            && (exists i :: 0 <= i < |bs| && bs[i].text == text
                  && (forall j :: 0 <= j < i ==> bs[j].text != text)
                  && after.vals[category] == bs[..i] + bs[i + 1..]))
  {
    var g := Target(k, k.currentGame);
    var d := k.catalogue.vals[g];
    if category !in d.vals then k
    else
      match FindFirst(d.vals[category], (b: Button) => b.text == text)
      case None => k
      case Some(i) => ReplaceButtons(k, g, category, RemoveAt(d.vals[category], i))
  }

  /** One category of one game set to `bs`: the game keeps its key order when the
      category was already there, and nothing else in the catalogue changes. */
  function ReplaceButtons(k: Keyboard, g: string, category: string, bs: seq<Button>): (r: Keyboard)
    requires Inv(k) && g in k.catalogue.vals
    ensures Inv(r) && r.catalogue.keys == k.catalogue.keys && r.(catalogue := k.catalogue) == k
    ensures r.catalogue.vals.Keys == k.catalogue.vals.Keys
    ensures forall h :: h in k.catalogue.vals && h != g ==> r.catalogue.vals[h] == k.catalogue.vals[h]
    ensures category in k.catalogue.vals[g].vals ==> r.catalogue.vals[g].keys == k.catalogue.vals[g].keys
    ensures forall c :: c in k.catalogue.vals[g].vals && c != category ==>
      c in r.catalogue.vals[g].vals && r.catalogue.vals[g].vals[c] == k.catalogue.vals[g].vals[c]
    ensures category in r.catalogue.vals[g].vals && r.catalogue.vals[g].vals[category] == bs
  {
    WithGame(k, g, Put(k.catalogue.vals[g], category, bs))
  }

  /** `createGameDefinition(gameId, gameName)`: the game gets a deep copy of the
      fallback definitions, which is also returned. Because the copy shares no
      arrays with `'default'`, the two evolve independently (see
      `GameCopyIsIndependent`). */
  function CreateGameDefinition(k: Keyboard, gameId: string, gameName: string): (r: (Keyboard, Definitions))
    requires Inv(k)
    ensures Inv(r.0)
    ensures r.1 == k.catalogue.vals[DefaultGame]
    ensures r.0.catalogue.vals == k.catalogue.vals[gameId := k.catalogue.vals[DefaultGame]]
    ensures r.0.catalogue.keys == if gameId in k.catalogue.vals then k.catalogue.keys else k.catalogue.keys + [gameId]
    ensures r.0.(catalogue := k.catalogue) == k
  {
    var copy := k.catalogue.vals[DefaultGame];
    (k.(catalogue := Put(k.catalogue, gameId, copy)), copy)
  }

  /** The category `createCharacterDefinition` makes: `` `${characterName}専用` ``. */
  function CharacterCategory(characterName: string): (c: string)
    ensures |c| == |characterName| + 2 && c[..|characterName|] == characterName
  {
    characterName + "専用"
  }

  /** `createCharacterDefinition(characterId, characterName, gameId)`: the
      game's (or the fallback's) character category, created empty if absent;
      the list is returned. */
  function CreateCharacterDefinition(k: Keyboard, characterId: string, characterName: string, gameId: string): (r: (Keyboard, seq<Button>))
    requires Inv(k)
    ensures Inv(r.0)
    ensures var g, c := Target(k, gameId), CharacterCategory(characterName);
      && (c in k.catalogue.vals[g].vals ==> r.0 == k && r.1 == k.catalogue.vals[g].vals[c])
      && (c !in k.catalogue.vals[g].vals ==>
            && r.1 == []
            && r.0.catalogue.keys == k.catalogue.keys && r.0.(catalogue := k.catalogue) == k
            && (forall h :: h in k.catalogue.vals && h != g ==> r.0.catalogue.vals[h] == k.catalogue.vals[h])
            && r.0.catalogue.vals[g].keys == k.catalogue.vals[g].keys + [c]
            && r.0.catalogue.vals[g].vals == k.catalogue.vals[g].vals[c := []])
  {
    var g, c := Target(k, gameId), CharacterCategory(characterName);
    var d := k.catalogue.vals[g];
    if c in d.vals then (k, d.vals[c]) else (WithGame(k, g, Put(d, c, [])), [])
  }

  // ---------------------------------------------------------------- search

  /** One entry of `searchButtons`' result. */
  datatype Hit = Hit(game: string, category: string, button: Button)

  /** The hit one button gives: one when its text contains the query, ignoring case. */
  function ButtonHit(game: string, category: string, query: string): Button -> Option<Hit> {
    (b: Button) => if Matches(b.text, query) then Some(Hit(game, category, b)) else None
  }

  /** The hits among one category's buttons, in list order: one per matching
      button occurrence, none for the others. */
  function SearchList(game: string, category: string, bs: seq<Button>, query: string): (r: seq<Hit>)
    ensures forall h :: h in r <==> h.game == game && h.category == category && h.button in bs && Matches(h.button.text, query)
    ensures forall h ::
              Count(r, h) ==
              if h.game == game && h.category == category && Matches(h.button.text, query)
              then Count(bs, h.button) else 0
    decreases |bs|
  {
    if |bs| == 0 then []
    else
      var rest := SearchList(game, category, bs[1..], query);
      assert forall b :: b in bs <==> b == bs[0] || b in bs[1..];
      if Matches(bs[0].text, query) then
        var r := [Hit(game, category, bs[0])] + rest;
        assert r[1..] == rest;
        r
      else rest
  }

  /** The hits among one category's buttons are the buttons filtered in list
      order: the generic filter-and-collect loop with `ButtonHit`. */
  lemma {:induction false} SearchListIsFilterMap(game: string, category: string, bs: seq<Button>, query: string)
    ensures SearchList(game, category, bs, query) == FilterMap(bs, ButtonHit(game, category, query))
    decreases |bs|
  {
    if |bs| > 0 {
      SearchListIsFilterMap(game, category, bs[1..], query);
    }
  }

  /** The hits among one category's buttons come from strictly increasing
      positions, exactly the positions of the matching buttons: list order,
      and no button reported twice. */
  lemma SearchListExact(game: string, category: string, bs: seq<Button>, query: string) returns (idx: seq<nat>)
    ensures |idx| == |SearchList(game, category, bs, query)|
    ensures forall k :: 0 <= k < |idx| ==>
      idx[k] < |bs| && Matches(bs[idx[k]].text, query)
      && SearchList(game, category, bs, query)[k] == Hit(game, category, bs[idx[k]])
    ensures forall k, m :: 0 <= k < m < |idx| ==> idx[k] < idx[m]
    ensures forall j :: 0 <= j < |bs| && Matches(bs[j].text, query) ==> j in idx
  {
    var f := ButtonHit(game, category, query);
    SearchListIsFilterMap(game, category, bs, query);
    idx := FilterMapOrigins(bs, f);
    forall j | 0 <= j < |bs| && Matches(bs[j].text, query) ensures j in idx {
      assert f(bs[j]).Some?;
    }
  }

  /** The hits in the listed categories of one game's definitions, category by category. */
  function SearchCategories(game: string, d: Definitions, cats: seq<string>, query: string): (r: seq<Hit>)
    requires forall c :: c in cats ==> c in d.vals
    ensures forall h :: h in r <==>
      (h.game == game && h.category in cats && h.button in d.vals[h.category] && Matches(h.button.text, query))
    decreases |cats|
  {
    if |cats| == 0 then []
    else
      assert forall c :: c in cats <==> c == cats[0] || c in cats[1..];
      SearchList(game, cats[0], d.vals[cats[0]], query) + SearchCategories(game, d, cats[1..], query)
  }

  /** The category loop concatenates: the hits of `a + b` are the hits of `a`
      followed by those of `b`. */
  lemma {:induction false} SearchCategoriesAppend(game: string, d: Definitions, a: seq<string>, b: seq<string>, query: string)
    requires forall c :: c in a + b ==> c in d.vals
    ensures SearchCategories(game, d, a + b, query) == SearchCategories(game, d, a, query) + SearchCategories(game, d, b, query)
    decreases |a|
  {
    if |a| == 0 {
      assert a + b == b;
    } else {
      assert (a + b)[0] == a[0] && (a + b)[1..] == a[1..] + b;
      TailAppendIn(a, b);
      SearchCategoriesAppend(game, d, a[1..], b, query);
    }
  }

  /** One category gives its own list's hits. */
  lemma SearchCategoriesOne(game: string, d: Definitions, c: string, query: string)
    requires c in d.vals
    ensures SearchCategories(game, d, [c], query) == SearchList(game, c, d.vals[c], query)
  {
    assert [c][1..] == [];
  }

  /** Over distinct categories, a hit is reported once per occurrence of its
      button in its category, and never for a non-matching button. */
  lemma {:induction false} SearchCategoriesCount(game: string, d: Definitions, cats: seq<string>, query: string)
    requires forall c :: c in cats ==> c in d.vals
    requires Distinct(cats)
    ensures forall h ::
              Count(SearchCategories(game, d, cats, query), h) ==
              if h.game == game && h.category in cats && Matches(h.button.text, query)
              then Count(d.vals[h.category], h.button) else 0
    decreases |cats|
  {
    if |cats| > 0 {
      var head := SearchList(game, cats[0], d.vals[cats[0]], query);
      var rest := SearchCategories(game, d, cats[1..], query);
      assert Distinct(cats[1..]);
      SearchCategoriesCount(game, d, cats[1..], query);
      forall h ensures Count(head + rest, h) ==
        if h.game == game && h.category in cats && Matches(h.button.text, query) then Count(d.vals[h.category], h.button) else 0
      {
        CountAppend(head, rest, h);
        assert h.category in cats <==> h.category == cats[0] || h.category in cats[1..];
      }
    }
  }

  /** The hits in the listed games, game by game. */
  function SearchGames(m: OMap<Definitions>, games: seq<string>, query: string): (r: seq<Hit>)
    requires forall g :: g in games ==> g in m.vals && Valid(m.vals[g])
    ensures forall h :: h in r <==>
      (h.game in games && h.category in m.vals[h.game].vals
       && h.button in m.vals[h.game].vals[h.category] && Matches(h.button.text, query))
    decreases |games|
  {
    if |games| == 0 then []
    else
      assert forall g :: g in games <==> g == games[0] || g in games[1..];
      var d := m.vals[games[0]];
      assert Valid(d) by { assert games[0] in games; }
      SearchCategories(games[0], d, d.keys, query) + SearchGames(m, games[1..], query)
  }

  /** The game loop concatenates: the hits of `a + b` are the hits of `a`
      followed by those of `b`. */
  lemma {:induction false} SearchGamesAppend(m: OMap<Definitions>, a: seq<string>, b: seq<string>, query: string)
    requires forall g :: g in a + b ==> g in m.vals && Valid(m.vals[g])
    ensures SearchGames(m, a + b, query) == SearchGames(m, a, query) + SearchGames(m, b, query)
    decreases |a|
  {
    if |a| == 0 {
      assert a + b == b;
    } else {
      assert (a + b)[0] == a[0] && (a + b)[1..] == a[1..] + b;
      TailAppendIn(a, b);
      SearchGamesAppend(m, a[1..], b, query);
    }
  }

  /** One game gives its categories' hits, in `Object.entries` order. */
  lemma SearchGamesOne(m: OMap<Definitions>, g: string, query: string)
    requires g in m.vals && Valid(m.vals[g])
    ensures SearchGames(m, [g], query) == SearchCategories(g, m.vals[g], m.vals[g].keys, query)
  {
    assert [g][1..] == [];
  }

  /** Over distinct games, a hit is reported once per occurrence of its
      button in its game's category, and never for a non-matching button. */
  lemma {:induction false} SearchGamesCount(m: OMap<Definitions>, games: seq<string>, query: string)
    requires forall g :: g in games ==> g in m.vals && Valid(m.vals[g])
    requires Distinct(games)
    ensures forall h ::
              Count(SearchGames(m, games, query), h) ==
              if h.game in games && h.category in m.vals[h.game].vals && Matches(h.button.text, query)
              then Count(m.vals[h.game].vals[h.category], h.button) else 0
    decreases |games|
  {
    if |games| > 0 {
      var d := m.vals[games[0]];
      assert Valid(d) by { assert games[0] in games; }
      var head := SearchCategories(games[0], d, d.keys, query);
      var rest := SearchGames(m, games[1..], query);
      SearchCategoriesCount(games[0], d, d.keys, query);
      assert Distinct(games[1..]);
      SearchGamesCount(m, games[1..], query);
      forall h ensures Count(head + rest, h) ==
        if h.game in games && h.category in m.vals[h.game].vals && Matches(h.button.text, query)
        then Count(m.vals[h.game].vals[h.category], h.button) else 0
      {
        CountAppend(head, rest, h);
        assert h.game in games <==> h.game == games[0] || h.game in games[1..];
      }
    }
  }

  /** `searchButtons(query)`: every button of every game and category whose
      text contains the query, ignoring case, reported once per occurrence. */
  function SearchButtons(k: Keyboard, query: string): (r: seq<Hit>)
    requires Inv(k)
    ensures forall h :: h in r <==>
      (h.game in k.catalogue.vals && h.category in k.catalogue.vals[h.game].vals
       && h.button in k.catalogue.vals[h.game].vals[h.category] && Matches(h.button.text, query))
    ensures forall h ::
              Count(r, h) ==
              if h.game in k.catalogue.vals && h.category in k.catalogue.vals[h.game].vals && Matches(h.button.text, query)
              then Count(k.catalogue.vals[h.game].vals[h.category], h.button) else 0
  {
    SearchGamesCount(k.catalogue, k.catalogue.keys, query);
    SearchGames(k.catalogue, k.catalogue.keys, query)
  }

  // ---------------------------------------------------------------- import / export

  /** `Object.fromEntries(keyboardDefinitions)`, before `JSON.stringify`. */
  function ExportDefinitions(k: Keyboard): (p: OMap<Definitions>)
    requires Inv(k)
    ensures Valid(p) && forall g :: g in p.vals ==> Valid(p.vals[g])
    ensures p.keys == k.catalogue.keys
  {
    k.catalogue
  }

  /** What `JSON.parse` gives `importDefinitions`: games mapped to well-formed definitions. */
  predicate WellFormedPayload(p: OMap<Definitions>) {
    Valid(p) && forall g :: g in p.vals ==> Valid(p.vals[g])
  }

  /** `map.set(g, p[g])` for each listed key, in order. */
  function ImportEach(m: OMap<Definitions>, p: OMap<Definitions>, games: seq<string>): (r: OMap<Definitions>)
    requires Valid(m) && WellFormedPayload(p)
    requires forall g :: g in games ==> g in p.vals
    ensures Valid(r)
    ensures forall g :: g in r.vals <==> g in m.vals || g in games
    ensures forall g :: g in games ==> r.vals[g] == p.vals[g]
    ensures forall g :: g in m.vals && g !in games ==> r.vals[g] == m.vals[g]
    ensures |r.keys| >= |m.keys| && r.keys[..|m.keys|] == m.keys
    decreases |games|
  {
    if |games| == 0 then m
    else
      var m1 := Put(m, games[0], p.vals[games[0]]);
      var r := ImportEach(m1, p, games[1..]);
      ImportStep(m, m1, r, p, games);
      r
  }

  /** One step of the import loop: setting the first game, then the rest,
      imports the whole list. */
  lemma ImportStep(m: OMap<Definitions>, m1: OMap<Definitions>, r: OMap<Definitions>, p: OMap<Definitions>, games: seq<string>)
    requires |games| > 0 && games[0] in p.vals
    requires m1.vals == m.vals[games[0] := p.vals[games[0]]]
    requires |m1.keys| >= |m.keys| && m1.keys[..|m.keys|] == m.keys
    requires forall g :: g in r.vals <==> g in m1.vals || g in games[1..]
    requires forall g :: g in games[1..] ==> g in p.vals && r.vals[g] == p.vals[g]
    requires forall g :: g in m1.vals && g !in games[1..] ==> r.vals[g] == m1.vals[g]
    requires |r.keys| >= |m1.keys| && r.keys[..|m1.keys|] == m1.keys
    ensures forall g :: g in r.vals <==> g in m.vals || g in games
    ensures forall g :: g in games ==> r.vals[g] == p.vals[g]
    ensures forall g :: g in m.vals && g !in games ==> r.vals[g] == m.vals[g]
    ensures |r.keys| >= |m.keys| && r.keys[..|m.keys|] == m.keys
  {
    InHeadOrTail(games);
    PrefixOfPrefix(m.keys, m1.keys, r.keys);
  }

  /** Membership in a non-empty list splits into its head and its tail. */
  lemma InHeadOrTail<T>(s: seq<T>)
    requires |s| > 0
    ensures forall x :: x in s <==> x == s[0] || x in s[1..]
  {
    assert s == [s[0]] + s[1..];
  }

  /** A prefix of a prefix is a prefix. */
  lemma PrefixOfPrefix<T>(a: seq<T>, b: seq<T>, c: seq<T>)
    requires |a| <= |b| <= |c| && c[..|b|] == b && b[..|a|] == a
    ensures c[..|a|] == a
  {
    assert c[..|a|] == c[..|b|][..|a|];
  }

  /** `importDefinitions(json)`: `None` is text `JSON.parse` rejects (or `null`),
      which is logged and changes nothing. Otherwise each game in the payload
      replaces or joins the catalogue; the other games keep their definitions
      and their place in the key order. */
  function ImportDefinitions(k: Keyboard, payload: Option<OMap<Definitions>>): (r: Keyboard)
    requires Inv(k)
    requires payload.Some? ==> WellFormedPayload(payload.value)
    ensures Inv(r)
    ensures payload.None? ==> r == k
    ensures payload.Some? ==>
      var p := payload.value;
      && r.(catalogue := k.catalogue) == k
      && (forall g :: g in r.catalogue.vals <==> g in k.catalogue.vals || g in p.vals)
      && (forall g :: g in p.vals ==> r.catalogue.vals[g] == p.vals[g])
      && (forall g :: g in k.catalogue.vals && g !in p.vals ==> r.catalogue.vals[g] == k.catalogue.vals[g])
      && |r.catalogue.keys| >= |k.catalogue.keys| && r.catalogue.keys[..|k.catalogue.keys|] == k.catalogue.keys
  {
    match payload
    case None => k
    case Some(p) =>
      var m := ImportEach(k.catalogue, p, p.keys);
      assert forall g :: g in m.vals ==> Valid(m.vals[g]) by {
        forall g | g in m.vals ensures Valid(m.vals[g]) {
          if g in p.keys { assert m.vals[g] == p.vals[g]; }
        }
      }
      k.(catalogue := m)
  }

  // ---------------------------------------------------------------- game and character

  /** `switchGame(gameId)`: the character selection is forgotten. */
  function SwitchGame(k: Keyboard, gameId: string): (r: Keyboard)
    ensures r.currentGame == gameId && r.currentCharacter.None?
    ensures r.(currentGame := k.currentGame, currentCharacter := k.currentCharacter) == k
  {
    k.(currentGame := gameId, currentCharacter := None)
  }

  /** `switchCharacter(characterId)`. */
  function SwitchCharacter(k: Keyboard, characterId: string): (r: Keyboard)
    ensures r.currentCharacter == Some(characterId)
    ensures r.(currentCharacter := k.currentCharacter) == k
  {
    k.(currentCharacter := Some(characterId))
  }

  // ---------------------------------------------------------------- partners

  /** Switching game undoes any character switch made before it. */
  lemma SwitchGameForgetsCharacter(k: Keyboard, characterId: string, gameId: string)
    ensures SwitchGame(SwitchCharacter(k, characterId), gameId) == SwitchGame(k, gameId)
  {
  }

  /** Adding a button whose text the category does not yet hold and then
      removing that text restores the catalogue, except that a category the
      add created stays behind, empty. */
  lemma AddThenRemove(k: Keyboard, category: string, text: string, color: string)
    requires Inv(k)
    requires var bs := ButtonsIn(k.catalogue.vals[Target(k, k.currentGame)], category);
      forall j :: 0 <= j < |bs| ==> bs[j].text != text
    ensures var g := Target(k, k.currentGame);
      var d := k.catalogue.vals[g];
      RemoveDefinition(AddCustomDefinition(k, category, text, color), category, text)
        == if category in d.vals then k else WithGame(k, g, Put(d, category, []))
  {
    var g := Target(k, k.currentGame);
    var d := k.catalogue.vals[g];
    var bs := ButtonsIn(d, category);
    var d1 := Put(d, category, bs + [Button(text, color)]);
    var k1 := WithGame(k, g, d1);
    assert AddCustomDefinition(k, category, text, color) == k1;
    assert Target(k1, k1.currentGame) == g;
    assert k1.catalogue.vals[g] == d1;
    assert d1.vals[category] == bs + [Button(text, color)];
    RemoveAppended(bs, text, color);
    RemoveShape(k1, category, text, |bs|);
    PutPut(d, category, bs + [Button(text, color)], bs);
    PutPut(k.catalogue, g, d1, Put(d, category, bs));
    if category in d.vals {
      PutSame(d, category);
      PutSame(k.catalogue, g);
    }
  }

  /** `removeDefinition` on a category whose first button with the text is at `i`. */
  lemma RemoveShape(k: Keyboard, category: string, text: string, i: nat)
    requires Inv(k)
    requires var d := k.catalogue.vals[Target(k, k.currentGame)];
      category in d.vals && FindFirst(d.vals[category], (b: Button) => b.text == text) == Some(i)
    ensures var g := Target(k, k.currentGame);
      var d := k.catalogue.vals[g];
      RemoveDefinition(k, category, text) == WithGame(k, g, Put(d, category, RemoveAt(d.vals[category], i)))
  {
  }

  /** The first button with the text of one appended to a list without it is the appended one. */
  lemma RemoveAppended(bs: seq<Button>, text: string, color: string)
    requires forall j :: 0 <= j < |bs| ==> bs[j].text != text
    ensures FindFirst(bs + [Button(text, color)], (b: Button) => b.text == text) == Some(|bs|)
    ensures RemoveAt(bs + [Button(text, color)], |bs|) == bs
  {
    var added := bs + [Button(text, color)];
    var p := (b: Button) => b.text == text;
    var r := FindFirst(added, p);
    assert p(added[|bs|]);
    assert r.Some?;
    assert forall j :: 0 <= j < |bs| ==> !p(added[j]) by {
      forall j | 0 <= j < |bs| ensures !p(added[j]) {
        assert added[j] == bs[j];
      }
    }
    assert r.value == |bs|;
    assert added[..|bs|] == bs;
  }

  /** Creating a character's category twice is the same as creating it once,
      and the second call hands back the same list. */
  lemma CreateCharacterDefinitionIdempotent(k: Keyboard, characterId: string, characterName: string, gameId: string)
    requires Inv(k)
    ensures var (k1, bs1) := CreateCharacterDefinition(k, characterId, characterName, gameId);
      CreateCharacterDefinition(k1, characterId, characterName, gameId) == (k1, bs1)
  {
    var (k1, bs1) := CreateCharacterDefinition(k, characterId, characterName, gameId);
    assert Target(k1, gameId) == Target(k, gameId);
  }

  /** Editing a game created from the fallback leaves the fallback as it was:
      the deep copy shares nothing with `'default'`. */
  lemma GameCopyIsIndependent(k: Keyboard, gameId: string, gameName: string, category: string, text: string, color: string)
    requires Inv(k) && gameId != DefaultGame
    ensures var k1 := SwitchGame(CreateGameDefinition(k, gameId, gameName).0, gameId);
      && AddCustomDefinition(k1, category, text, color).catalogue.vals[DefaultGame] == k.catalogue.vals[DefaultGame]
      && RemoveDefinition(k1, category, text).catalogue.vals[DefaultGame] == k.catalogue.vals[DefaultGame]
  {
  }

  /** A button just added is found by searching for its own text. */
  lemma AddedButtonIsFound(k: Keyboard, category: string, text: string, color: string)
    requires Inv(k)
    ensures Hit(Target(k, k.currentGame), category, Button(text, color))
      in SearchButtons(AddCustomDefinition(k, category, text, color), text)
  {
    var g := Target(k, k.currentGame);
    var r := AddCustomDefinition(k, category, text, color);
    var bs := r.catalogue.vals[g].vals[category];
    assert bs[|bs| - 1] == Button(text, color);
    assert OccursAt(Lower(text), Lower(text), 0);
  }

  /** Importing the catalogue's own export changes nothing, and importing the
      same payload twice is the same as importing it once. */
  lemma ImportOwnExport(k: Keyboard)
    requires Inv(k)
    ensures ImportDefinitions(k, Some(ExportDefinitions(k))) == k
  {
    ImportSame(k.catalogue, k.catalogue, k.catalogue.keys);
  }

  lemma ImportTwice(k: Keyboard, p: OMap<Definitions>)
    requires Inv(k) && WellFormedPayload(p)
    ensures ImportDefinitions(ImportDefinitions(k, Some(p)), Some(p)) == ImportDefinitions(k, Some(p))
  {
    var r := ImportDefinitions(k, Some(p));
    ImportSame(r.catalogue, p, p.keys);
  }

  /** Setting games to the values they already hold changes nothing. */
  lemma {:induction false} ImportSame(m: OMap<Definitions>, p: OMap<Definitions>, games: seq<string>)
    requires Valid(m) && WellFormedPayload(p)
    requires forall g :: g in games ==> g in p.vals && g in m.vals && m.vals[g] == p.vals[g]
    ensures ImportEach(m, p, games) == m
    decreases |games|
  {
    if |games| > 0 {
      assert games[0] in games;
      assert Put(m, games[0], p.vals[games[0]]) == m;
      assert forall g :: g in games[1..] ==> g in games;
      ImportSame(m, p, games[1..]);
    }
  }
}

=== FILE: legacy_store.dfy ===
/** The store of the single-file build. Unlike `Store`, each category keeps
    whole file records in its `files` array, and `createFile` pushes the same
    record into that array and into the flat `files` collection.

    The model is the state as it is read back from storage: `JSON.parse`
    gives the two arrays separate copies of each record, so values here are
    copies, not shared objects. Ids and stamps are parameters. */
module LegacyStore {
  import opened Wrappers
  import opened Strings
  import opened Seqs
  import Store

  type Id = string
  type Stamp = string

  datatype LFile = LFile(
    id: Id, name: string, content: string,
    gameId: Id, characterId: Id, categoryId: Id,
    createdAt: Stamp, updatedAt: Stamp)

  datatype LCategory = LCategory(
    id: Id, name: string, gameId: Id, characterId: Id, files: seq<LFile>,
    createdAt: Stamp, updatedAt: Stamp)

  datatype LCharacter = LCharacter(
    id: Id, name: string, gameId: Id, categories: seq<LCategory>,
    createdAt: Stamp, updatedAt: Stamp)

  datatype LGame = LGame(
    id: Id, name: string, characters: seq<LCharacter>,
    createdAt: Stamp, updatedAt: Stamp)

  datatype LData = LData(games: seq<LGame>, files: seq<LFile>, settings: Store.Settings)

  function InitialData(): (d: LData)
    ensures |d.games| == 0 && |d.files| == 0 && d.settings == Store.DefaultSettings
  {
    LData([], [], Store.DefaultSettings)
  }

  /** A category in the tree: game `g`, its character `c`, that character's category `k`. */
  datatype LLoc = LLoc(g: nat, c: nat, k: nat)

  predicate ValidLoc(games: seq<LGame>, l: LLoc) {
    && l.g < |games|
    && l.c < |games[l.g].characters|
    && l.k < |games[l.g].characters[l.c].categories|
  }

  function CatAt(games: seq<LGame>, l: LLoc): LCategory
    requires ValidLoc(games, l)
  {
    games[l.g].characters[l.c].categories[l.k]
  }

  // ---------------------------------------------------------------- lookup

  /** `games.find(g => g.id === gameId)`, as a position. */
  function GameIndex(games: seq<LGame>, gameId: Id): (r: Option<nat>)
    ensures r.Some? ==> r.value < |games| && games[r.value].id == gameId
    ensures r.Some? ==> forall j :: 0 <= j < r.value ==> games[j].id != gameId
    ensures r.None? <==> forall j :: 0 <= j < |games| ==> games[j].id != gameId
  {
    FindFirst(games, (g: LGame) => g.id == gameId)
  }

  /** `game.characters.find(c => c.id === id)`, as a position. */
  function CharacterIndex(g: LGame, id: Id): (r: Option<nat>)
    ensures r.Some? ==> r.value < |g.characters| && g.characters[r.value].id == id
    ensures r.Some? ==> forall j :: 0 <= j < r.value ==> g.characters[j].id != id
    ensures r.None? <==> forall j :: 0 <= j < |g.characters| ==> g.characters[j].id != id
  {
    FindFirst(g.characters, (c: LCharacter) => c.id == id)
  }

  /** `character.categories.find(c => c.id === id)`, as a position. */
  function CategoryIndex(ch: LCharacter, id: Id): (r: Option<nat>)
    ensures r.Some? ==> r.value < |ch.categories| && ch.categories[r.value].id == id
    ensures r.Some? ==> forall j :: 0 <= j < r.value ==> ch.categories[j].id != id
    ensures r.None? <==> forall j :: 0 <= j < |ch.categories| ==> ch.categories[j].id != id
  {
    FindFirst(ch.categories, (c: LCategory) => c.id == id)
  }

  /** The game, character and category the three ids name, each looked up
      inside the one before, as `createFile` walks them; the first id that
      names nothing is the error, and when all three are found the result
      is the first match at each level. */
  function Locate(games: seq<LGame>, gameId: Id, characterId: Id, categoryId: Id): (r: Result<LLoc>)
    ensures r.Success? ==> ValidLoc(games, r.value)
    ensures r.Success? ==>
      && games[r.value.g].id == gameId
      && games[r.value.g].characters[r.value.c].id == characterId
      && CatAt(games, r.value).id == categoryId
    ensures (forall j :: 0 <= j < |games| ==> games[j].id != gameId) <==> r == Failure(NotFound("game", gameId))
    ensures var gi := GameIndex(games, gameId);
      gi.Some? ==>
        var ci := CharacterIndex(games[gi.value], characterId);
        && (ci.None? <==> r == Failure(NotFound("character", characterId)))
        && (ci.Some? ==>
              var ki := CategoryIndex(games[gi.value].characters[ci.value], categoryId);
              && (ki.None? <==> r == Failure(NotFound("category", categoryId)))
              && (ki.Some? <==> r.Success?)
              && (ki.Some? ==> r.value == LLoc(gi.value, ci.value, ki.value)))
  {
    var g :- GameIndex(games, gameId).ToResult(NotFound("game", gameId));
    var c :- CharacterIndex(games[g], characterId).ToResult(NotFound("character", characterId));
    var k :- CategoryIndex(games[g].characters[c], categoryId).ToResult(NotFound("category", categoryId));
    Success(LLoc(g, c, k))
  }

  // ---------------------------------------------------------------- create

  /** `createGame(name)`. */
  function CreateGame(d: LData, id: Id, name: string, now: Stamp): (d': LData)
    ensures d'.games == d.games + [LGame(id, name, [], now, now)]
    ensures d'.files == d.files && d'.settings == d.settings
  {
    d.(games := d.games + [LGame(id, name, [], now, now)])
  }

  /** `createCharacter(gameId, name)`: appends to the first game with that id. */
  function CreateCharacter(d: LData, gameId: Id, name: string, id: Id, now: Stamp): (r: Result<LData>)
    ensures r.Failure? <==> forall j :: 0 <= j < |d.games| ==> d.games[j].id != gameId
    ensures r.Success? ==> |r.value.games| == |d.games|
    ensures r.Success? ==>
      var i := GameIndex(d.games, gameId).value;
      && r.value.games == d.games[i := r.value.games[i]]
      && r.value.games[i] == d.games[i].(characters := d.games[i].characters + [LCharacter(id, name, gameId, [], now, now)], updatedAt := now)
      && r.value.files == d.files && r.value.settings == d.settings
  {
    match GameIndex(d.games, gameId)
    case None => Failure(NotFound("game", gameId))
    case Some(i) =>
      var g := d.games[i];
      var ch := LCharacter(id, name, gameId, [], now, now);
      Success(d.(games := d.games[i := g.(characters := g.characters + [ch], updatedAt := now)]))
  }

  /** `createCategory(gameId, characterId, name)`: the character is looked up
      inside the named game only; it fails for a missing game, then for a
      missing character, and otherwise appends one empty category to the
      first matching character, touching it and its game. */
  function CreateCategory(d: LData, gameId: Id, characterId: Id, name: string, id: Id, now: Stamp): (r: Result<LData>)
    ensures (forall j :: 0 <= j < |d.games| ==> d.games[j].id != gameId) <==> r == Failure(NotFound("game", gameId))
    ensures GameIndex(d.games, gameId).Some? ==>
      var g := d.games[GameIndex(d.games, gameId).value];
      && ((forall c :: 0 <= c < |g.characters| ==> g.characters[c].id != characterId) <==> r == Failure(NotFound("character", characterId)))
      && (CharacterIndex(g, characterId).Some? <==> r.Success?)
    ensures r.Success? ==> |r.value.games| == |d.games|
    ensures r.Success? ==>
      var i := GameIndex(d.games, gameId).value;
      var c := CharacterIndex(d.games[i], characterId).value;
      var ch := d.games[i].characters[c];
      && r.value.games[i] == d.games[i].(characters := d.games[i].characters[c := ch.(
           categories := ch.categories + [LCategory(id, name, gameId, characterId, [], now, now)],
           updatedAt := now)], updatedAt := now)
      && r.value.games == d.games[i := r.value.games[i]]
      && r.value.files == d.files && r.value.settings == d.settings
  {
    match GameIndex(d.games, gameId)
    case None => Failure(NotFound("game", gameId))
    case Some(i) =>
      var g := d.games[i];
      match CharacterIndex(g, characterId)
      case None => Failure(NotFound("character", characterId))
      case Some(c) =>
        var ch := g.characters[c];
        var cat := LCategory(id, name, gameId, characterId, [], now, now);
        var ch' := ch.(categories := ch.categories + [cat], updatedAt := now);
        Success(d.(games := d.games[i := g.(characters := g.characters[c := ch'], updatedAt := now)]))
  }

  /** Replace the category at `l`, touching its character and game. */
  function WithCategory(games: seq<LGame>, l: LLoc, cat: LCategory, now: Stamp): (r: seq<LGame>)
    requires ValidLoc(games, l)
    ensures |r| == |games| && ValidLoc(r, l) && CatAt(r, l) == cat
    ensures forall m :: ValidLoc(games, m) ==> ValidLoc(r, m)
    ensures forall m :: ValidLoc(games, m) && m != l ==> CatAt(r, m) == CatAt(games, m)
    ensures forall m :: ValidLoc(r, m) ==> ValidLoc(games, m)
  {
    var g := games[l.g];
    var ch := g.characters[l.c];
    var ch' := ch.(categories := ch.categories[l.k := cat], updatedAt := now);
    games[l.g := g.(characters := g.characters[l.c := ch'], updatedAt := now)]
  }

  /** `createFile(gameId, characterId, categoryId, name, content)`: the new
      record goes both into the category's own list and into the flat collection. */
  function CreateFile(d: LData, gameId: Id, characterId: Id, categoryId: Id, name: string, content: string, id: Id, now: Stamp): (r: Result<LData>)
    ensures Locate(d.games, gameId, characterId, categoryId).Failure? <==> r.Failure?
    ensures r.Failure? ==> r.error == Locate(d.games, gameId, characterId, categoryId).error
    ensures r.Success? ==>
      var l := Locate(d.games, gameId, characterId, categoryId).value;
      var f := LFile(id, name, content, gameId, characterId, categoryId, now, now);
      && ValidLoc(r.value.games, l)
      && CatAt(r.value.games, l) == CatAt(d.games, l).(files := CatAt(d.games, l).files + [f], updatedAt := now)
      && (forall m :: ValidLoc(d.games, m) <==> ValidLoc(r.value.games, m))
      && (forall m :: ValidLoc(d.games, m) && m != l ==> CatAt(r.value.games, m) == CatAt(d.games, m))
      && r.value.files == d.files + [f]
      && r.value.settings == d.settings
  {
    var l :- Locate(d.games, gameId, characterId, categoryId);
    var f := LFile(id, name, content, gameId, characterId, categoryId, now, now);
    var cat := CatAt(d.games, l);
    Success(LData(WithCategory(d.games, l, cat.(files := cat.files + [f], updatedAt := now), now), d.files + [f], d.settings))
  }

  // ---------------------------------------------------------------- update

  /** `file.content = content; file.updatedAt = now` on one record. */
  function Edited(f: LFile, content: string, now: Stamp): (f': LFile)
    ensures f'.content == content && f'.updatedAt == now
    ensures f' == f.(content := f'.content, updatedAt := f'.updatedAt)
  {
    f.(content := content, updatedAt := now)
  }

  /** `updateFile(fileId, content)` as written: only the flat copy changes. */
  function UpdateFileAsWritten(d: LData, fileId: Id, content: string, now: Stamp): (r: Result<LData>)
    ensures r.Failure? <==> forall j :: 0 <= j < |d.files| ==> d.files[j].id != fileId
    ensures r.Success? ==>
      var i := FindFirst(d.files, (f: LFile) => f.id == fileId).value;
      && r.value.files == d.files[i := Edited(d.files[i], content, now)]
      && r.value.games == d.games && r.value.settings == d.settings
  {
    match FindFirst(d.files, (f: LFile) => f.id == fileId)
    case None => Failure(NotFound("file", fileId))
    case Some(i) => Success(d.(files := d.files[i := Edited(d.files[i], content, now)]))
  }

  /** Apply the edit to every copy in a category's list that carries the id. */
  function EditedIn(files: seq<LFile>, fileId: Id, content: string, now: Stamp): (r: seq<LFile>)
    ensures |r| == |files|
    ensures forall i :: 0 <= i < |files| ==> r[i] == if files[i].id == fileId then Edited(files[i], content, now) else files[i]
  {
    seq(|files|, i requires 0 <= i < |files| => if files[i].id == fileId then Edited(files[i], content, now) else files[i])
  }

  /** The tree with every embedded copy of `fileId` edited. */
  function EditedTree(games: seq<LGame>, fileId: Id, content: string, now: Stamp): (r: seq<LGame>)
    ensures forall m :: ValidLoc(games, m) <==> ValidLoc(r, m)
    ensures forall m :: ValidLoc(games, m) ==> CatAt(r, m) == CatAt(games, m).(files := EditedIn(CatAt(games, m).files, fileId, content, now))
  {
    seq(|games|, g requires 0 <= g < |games| =>
      games[g].(characters := seq(|games[g].characters|, c requires 0 <= c < |games[g].characters| =>
        games[g].characters[c].(categories := seq(|games[g].characters[c].categories|, k requires 0 <= k < |games[g].characters[c].categories| =>
          games[g].characters[c].categories[k].(files := EditedIn(games[g].characters[c].categories[k].files, fileId, content, now)))))))
  }

  /** `updateFile(fileId, content)` as the shared record makes it behave before
      any reload: the flat copy and every embedded copy change together. */
  function UpdateFile(d: LData, fileId: Id, content: string, now: Stamp): (r: Result<LData>)
    ensures r.Failure? <==> forall j :: 0 <= j < |d.files| ==> d.files[j].id != fileId
    ensures r.Success? ==>
      var i := FindFirst(d.files, (f: LFile) => f.id == fileId).value;
      && r.value.files == d.files[i := Edited(d.files[i], content, now)]
      && r.value.games == EditedTree(d.games, fileId, content, now)
      && r.value.settings == d.settings
  {
    match FindFirst(d.files, (f: LFile) => f.id == fileId)
    case None => Failure(NotFound("file", fileId))
    case Some(i) => Success(LData(EditedTree(d.games, fileId, content, now), d.files[i := Edited(d.files[i], content, now)], d.settings))
  }

  // ---------------------------------------------------------------- coherence

  /** Flat file ids are distinct. */
  predicate IdsDistinct(files: seq<LFile>) {
    forall i, j :: 0 <= i < j < |files| ==> files[i].id != files[j].id
  }

  /** Each record a category lists is identical to a record of the flat
      collection: the tree and the collection tell the same story. */
  ghost predicate Coherent(d: LData) {
    forall l, i :: ValidLoc(d.games, l) && 0 <= i < |CatAt(d.games, l).files| ==> CatAt(d.games, l).files[i] in d.files
  }

  /** Creating a file keeps the tree and the collection in agreement. */
  lemma CreateFileCoherent(d: LData, gameId: Id, characterId: Id, categoryId: Id, name: string, content: string, id: Id, now: Stamp)
    requires Coherent(d) && CreateFile(d, gameId, characterId, categoryId, name, content, id, now).Success?
    ensures Coherent(CreateFile(d, gameId, characterId, categoryId, name, content, id, now).value)
  {
    var r := CreateFile(d, gameId, characterId, categoryId, name, content, id, now).value;
    var l := Locate(d.games, gameId, characterId, categoryId).value;
    forall m, i | ValidLoc(r.games, m) && 0 <= i < |CatAt(r.games, m).files| ensures CatAt(r.games, m).files[i] in r.files {
      if m == l && i == |CatAt(d.games, l).files| {
        assert r.files[|d.files|] == CatAt(r.games, m).files[i];
      } else {
        assert CatAt(r.games, m).files[i] == CatAt(d.games, m).files[i];
        assert CatAt(d.games, m).files[i] in d.files;
      }
    }
  }

  /** A new character has no categories, so the tree lists no new record
      and the tree and the collection still agree. */
  lemma CreateCharacterCoherent(d: LData, gameId: Id, name: string, id: Id, now: Stamp)
    requires Coherent(d) && CreateCharacter(d, gameId, name, id, now).Success?
    ensures Coherent(CreateCharacter(d, gameId, name, id, now).value)
  {
    var r := CreateCharacter(d, gameId, name, id, now).value;
    var g := GameIndex(d.games, gameId).value;
    forall m, i | ValidLoc(r.games, m) && 0 <= i < |CatAt(r.games, m).files| ensures CatAt(r.games, m).files[i] in r.files {
      if m.g == g {
        assert m.c < |d.games[g].characters|;
        assert r.games[g].characters[m.c] == d.games[g].characters[m.c];
      }
      assert ValidLoc(d.games, m) && CatAt(r.games, m) == CatAt(d.games, m);
    }
  }

  /** A new category is empty, so the tree lists no new record and the tree
      and the collection still agree. */
  lemma CreateCategoryCoherent(d: LData, gameId: Id, characterId: Id, name: string, id: Id, now: Stamp)
    requires Coherent(d) && CreateCategory(d, gameId, characterId, name, id, now).Success?
    ensures Coherent(CreateCategory(d, gameId, characterId, name, id, now).value)
  {
    var r := CreateCategory(d, gameId, characterId, name, id, now).value;
    var g := GameIndex(d.games, gameId).value;
    var c := CharacterIndex(d.games[g], characterId).value;
    forall m, i | ValidLoc(r.games, m) && 0 <= i < |CatAt(r.games, m).files| ensures CatAt(r.games, m).files[i] in r.files {
      if m.g == g && m.c == c {
        var cats := d.games[g].characters[c].categories;
        assert m.k < |cats|;
        assert CatAt(r.games, m) == cats[m.k];
      } else if m.g == g {
        assert r.games[g].characters[m.c] == d.games[g].characters[m.c];
      }
      assert ValidLoc(d.games, m) && CatAt(r.games, m) == CatAt(d.games, m);
    }
  }

  /** Editing through both copies keeps them in agreement. */
  lemma UpdateFileCoherent(d: LData, fileId: Id, content: string, now: Stamp)
    requires Coherent(d) && IdsDistinct(d.files) && UpdateFile(d, fileId, content, now).Success?
    ensures Coherent(UpdateFile(d, fileId, content, now).value)
    ensures IdsDistinct(UpdateFile(d, fileId, content, now).value.files)
  {
    var r := UpdateFile(d, fileId, content, now).value;
    var k := FindFirst(d.files, (f: LFile) => f.id == fileId).value;
    forall m, i | ValidLoc(r.games, m) && 0 <= i < |CatAt(r.games, m).files| ensures CatAt(r.games, m).files[i] in r.files {
      var e := CatAt(d.games, m).files[i];
      assert e in d.files;
      var j :| 0 <= j < |d.files| && d.files[j] == e;
      if e.id == fileId {
        assert j == k;
        assert r.files[k] == CatAt(r.games, m).files[i];
      } else {
        assert r.files[j] == e;
      }
    }
  }

  /** One game, character and category holding a single note in both places. */
  function OneNote(content: string): (d: LData)
  {
    var f := LFile("f1", "BnB", content, "g", "c", "k", "t0", "t0");
    LData([LGame("g", "SF6", [LCharacter("c", "Ryu", "g", [LCategory("k", "Combos", "g", "c", [f], "t0", "t0")], "t0", "t0")], "t0", "t0")],
          [f], Store.DefaultSettings)
  }

  /** As written, an edit reaches the collection but not the tree: the tree
      still holds the old text, and the two no longer agree. */
  lemma AsWrittenLeavesStaleCopy()
    ensures Coherent(OneNote("old"))
    ensures UpdateFileAsWritten(OneNote("old"), "f1", "new", "t1").Success?
    ensures var r := UpdateFileAsWritten(OneNote("old"), "f1", "new", "t1").value;
      && r.files[0].content == "new"
      && CatAt(r.games, LLoc(0, 0, 0)).files[0].content == "old"
      && !Coherent(r)
  {
    var d := OneNote("old");
    forall l, i | ValidLoc(d.games, l) && 0 <= i < |CatAt(d.games, l).files| ensures CatAt(d.games, l).files[i] in d.files {
      assert CatAt(d.games, l).files[i] == d.files[0];
    }
    assert FindFirst(d.files, (f: LFile) => f.id == "f1") == Some(0);
    var r := UpdateFileAsWritten(d, "f1", "new", "t1").value;
    var e := CatAt(r.games, LLoc(0, 0, 0)).files[0];
    assert e !in r.files by {
      assert |r.files| == 1 && r.files[0].content != e.content;
    }
  }

  // ---------------------------------------------------------------- search

  /** One search result with the game, character and category the file's
      ids resolve to (`undefined` as `None`). */
  datatype LHit = LHit(file: LFile, game: Option<LGame>, character: Option<LCharacter>, category: Option<LCategory>)

  /** The `?.`-chained lookups of a result row. */
  function Resolve(d: LData, f: LFile): (h: LHit)
    ensures h.file == f
    ensures h.game.Some? <==> exists j :: 0 <= j < |d.games| && d.games[j].id == f.gameId
    ensures h.game.None? ==> h.character.None?
    ensures h.character.None? ==> h.category.None?
    ensures h.game.Some? ==> h.game.value.id == f.gameId && h.game.value in d.games
    ensures h.character.Some? ==> h.character.value.id == f.characterId && h.character.value in h.game.value.characters
    ensures h.category.Some? ==> h.category.value.id == f.categoryId && h.category.value in h.character.value.categories
    ensures h.game.Some? ==> h.game.value == d.games[GameIndex(d.games, f.gameId).value]
    ensures h.game.Some? ==>
      && (h.character.Some? <==> exists c :: 0 <= c < |h.game.value.characters| && h.game.value.characters[c].id == f.characterId)
      && (h.character.Some? ==> h.character.value == h.game.value.characters[CharacterIndex(h.game.value, f.characterId).value])
    ensures h.character.Some? ==>
      && (h.category.Some? <==> exists k :: 0 <= k < |h.character.value.categories| && h.character.value.categories[k].id == f.categoryId)
      && (h.category.Some? ==> h.category.value == h.character.value.categories[CategoryIndex(h.character.value, f.categoryId).value])
  {
    match GameIndex(d.games, f.gameId)
    case None => LHit(f, None, None, None)
    case Some(g) =>
      var game := d.games[g];
      match CharacterIndex(game, f.characterId)
      case None => LHit(f, Some(game), None, None)
      case Some(c) =>
        var ch := game.characters[c];
        match CategoryIndex(ch, f.categoryId)
        case None => LHit(f, Some(game), Some(ch), None)
        case Some(k) => LHit(f, Some(game), Some(ch), Some(ch.categories[k]))
  }

  /** A file answers the search when its name or its content contains the query, ignoring case. */
  function HitFor(d: LData, query: string, f: LFile): (r: Option<LHit>)
    ensures r.Some? <==> Matches(f.name, query) || Matches(f.content, query)
    ensures r.Some? ==> r.value == Resolve(d, f)
  {
    if Matches(f.name, query) || Matches(f.content, query) then Some(Resolve(d, f)) else None
  }

  function HitsFor(d: LData, query: string): (step: LFile -> Option<LHit>)
    ensures forall f :: step(f) == HitFor(d, query, f)
  {
    (f: LFile) => HitFor(d, query, f)
  }

  /** `search(query)`: nothing for a blank query, else one row per matching file in order. */
  function Search(d: LData, query: string): (r: seq<LHit>)
    ensures AllWhitespace(query) ==> r == []
    ensures |r| <= |d.files|
  {
    TrimEmpty(query);
    if Trim(query) == "" then [] else FilterMap(d.files, HitsFor(d, query))
  }

  /** One row per matching file and nothing else, in `files` order: `idx`
      lists, strictly increasing, the positions of the files reported, and
      for a query that is not blank these are exactly the matching files. */
  lemma SearchExact(d: LData, query: string) returns (idx: seq<nat>)
    ensures |idx| == |Search(d, query)|
    ensures forall k :: 0 <= k < |idx| ==>
      idx[k] < |d.files| && HitFor(d, query, d.files[idx[k]]) == Some(Search(d, query)[k])
    ensures forall k, m :: 0 <= k < m < |idx| ==> idx[k] < idx[m]
    ensures !AllWhitespace(query) ==>
      forall j :: 0 <= j < |d.files| && HitFor(d, query, d.files[j]).Some? ==> j in idx
  {
    TrimEmpty(query);
    if Trim(query) == "" {
      idx := [];
    } else {
      idx := FilterMapOrigins(d.files, HitsFor(d, query));
    }
  }
}

=== FILE: ordered_map.dfy ===
/** A JavaScript `Map` (and the key order `Object.entries` reports): a finite
    map together with the order in which its keys were first inserted.
    `set` on a present key keeps its position; `delete` drops it from the order. */
module OrderedMap {
  import opened Wrappers

  type Key = string

  datatype OMap<V> = OMap(keys: seq<Key>, vals: map<Key, V>)

  predicate Distinct(s: seq<Key>) {
    forall i, j :: 0 <= i < j < |s| ==> s[i] != s[j]
  }

  /** Keys are listed once each, and exactly the mapped keys are listed. */
  predicate Valid<V>(m: OMap<V>) {
    && Distinct(m.keys)
    && (forall k :: k in m.vals ==> k in m.keys)
    && (forall k :: k in m.keys ==> k in m.vals)
  }

  function Empty<V>(): (m: OMap<V>)
    ensures Valid(m) && |m.keys| == 0
  {
    OMap([], map[])
  }

  /** `map.get(k)`: `None` stands for `undefined`. */
  function Get<V>(m: OMap<V>, k: Key): (r: Option<V>)
    ensures r.Some? <==> k in m.vals
    ensures r.Some? ==> r.value == m.vals[k]
  {
    if k in m.vals then Some(m.vals[k]) else None
  }

  /** `map.set(k, v)`: overwrite in place, or append a new key at the end. */
  function Put<V>(m: OMap<V>, k: Key, v: V): (r: OMap<V>)
    requires Valid(m)
    ensures Valid(r)
    ensures r.vals == m.vals[k := v]
    ensures k in m.vals ==> r.keys == m.keys
    ensures k !in m.vals ==> r.keys == m.keys + [k]
  {
    if k in m.vals then OMap(m.keys, m.vals[k := v])
    else OMap(m.keys + [k], m.vals[k := v])
  }

  /** A second `set` of the same key overrides the first and keeps its position. */
  lemma PutPut<V>(m: OMap<V>, k: Key, a: V, b: V)
    requires Valid(m)
    ensures Put(Put(m, k, a), k, b) == Put(m, k, b)
  {
    assert m.vals[k := a][k := b] == m.vals[k := b];
  }

  /** `set` of the value a key already holds changes nothing. */
  lemma PutSame<V>(m: OMap<V>, k: Key)
    requires Valid(m) && k in m.vals
    ensures Put(m, k, m.vals[k]) == m
  {
    assert m.vals[k := m.vals[k]] == m.vals;
  }

  /** The key order without `k`. */
  function Without(s: seq<Key>, k: Key): (r: seq<Key>)
    ensures k !in r
    ensures forall x :: x in r <==> x in s && x != k
    ensures k !in s ==> r == s
    ensures |r| <= |s|
  {
    if |s| == 0 then []
    else if s[0] == k then Without(s[1..], k)
    else [s[0]] + Without(s[1..], k)
  }

  lemma {:induction false} WithoutDistinct(s: seq<Key>, k: Key)
    requires Distinct(s)
    ensures Distinct(Without(s, k))
    decreases |s|
  {
    if |s| > 0 {
      WithoutDistinct(s[1..], k);
      assert s[0] !in s[1..];
    }
  }

  /** On a key that is listed once, removal deletes exactly that position. */
  lemma {:induction false} WithoutAt(s: seq<Key>, i: nat)
    requires Distinct(s) && i < |s|
    ensures Without(s, s[i]) == s[..i] + s[i + 1..]
    decreases |s|
  {
    if i == 0 {
      assert s[0] !in s[1..];
    } else {
      WithoutAt(s[1..], i - 1);
      assert s[1..][..i - 1] == s[1..i];
      assert s[1..][i..] == s[i + 1..];
      assert [s[0]] + s[1..i] == s[..i];
    }
  }

  /** `map.delete(k)`: every other key keeps its value and relative order. */
  function Remove<V>(m: OMap<V>, k: Key): (r: OMap<V>)
    requires Valid(m)
    ensures Valid(r)
    ensures r.vals == m.vals - {k}
    ensures r.keys == Without(m.keys, k)
  {
    WithoutDistinct(m.keys, k);
    OMap(Without(m.keys, k), m.vals - {k})
  }

  /** The index of `k` in the key order, `-1` when absent (`indexOf`). */
  function IndexOf(s: seq<Key>, k: Key): (i: int)
    ensures -1 <= i < |s|
    ensures i == -1 <==> k !in s
    ensures i >= 0 ==> s[i] == k && k !in s[..i]
  {
    if |s| == 0 then -1
    else if s[0] == k then 0
    else
      var j := IndexOf(s[1..], k);
      if j == -1 then -1 else j + 1
  }
}

=== FILE: seqs.dfy ===
/** The array primitives the application code uses on its lists:
    `findIndex`, `indexOf` followed by `splice(i, 1)`, and `filter`. */
module Seqs {
  import opened Wrappers

  /** `s.findIndex(p)`, with `None` for `-1`: the first position satisfying `p`. */
  function FindFirst<T>(s: seq<T>, p: T -> bool): (r: Option<nat>)
    ensures r.Some? ==> r.value < |s| && p(s[r.value])
    ensures r.Some? ==> forall j :: 0 <= j < r.value ==> !p(s[j])
    ensures r.None? <==> forall j :: 0 <= j < |s| ==> !p(s[j])
    decreases |s|
  {
    if |s| == 0 then None
    else if p(s[0]) then Some(0)
    else
      match FindFirst(s[1..], p)
      case None => None
      case Some(i) => Some(i + 1)
  }

  /** `s.splice(i, 1)`. */
  function RemoveAt<T>(s: seq<T>, i: nat): (r: seq<T>)
    requires i < |s|
    ensures |r| == |s| - 1
    ensures forall j :: 0 <= j < i ==> r[j] == s[j]
    ensures forall j :: i <= j < |r| ==> r[j] == s[j + 1]
  {
    s[..i] + s[i + 1..]
  }

  /** The number of occurrences of `x` in `s`. */
  function Count<T(==)>(s: seq<T>, x: T): nat
    decreases |s|
  {
    if |s| == 0 then 0 else (if s[0] == x then 1 else 0) + Count(s[1..], x)
  }

  /** Dropping the head of `a` keeps every element of `a[1..] + b` inside `a + b`. */
  lemma TailAppendIn<T>(a: seq<T>, b: seq<T>)
    requires |a| > 0
    ensures forall x :: x in a[1..] + b ==> x in a + b
  {
    assert a + b == [a[0]] + (a[1..] + b);
  }

  /** Occurrences add up over concatenation. */
  lemma {:induction false} CountAppend<T>(a: seq<T>, b: seq<T>, x: T)
    ensures Count(a + b, x) == Count(a, x) + Count(b, x)
    decreases |a|
  {
    if |a| == 0 {
      assert a + b == b;
    } else {
      assert (a + b)[1..] == a[1..] + b;
      CountAppend(a[1..], b, x);
    }
  }

  /** `i = s.indexOf(x); if (i > -1) s.splice(i, 1)`: drop the first occurrence only. */
  function RemoveFirst<T(==)>(s: seq<T>, x: T): (r: seq<T>)
    ensures x in s ==> |r| == |s| - 1 && Count(r, x) == Count(s, x) - 1
    ensures x !in s ==> r == s
    ensures forall i :: 0 <= i < |s| && s[i] != x ==> s[i] in r
    ensures forall i :: 0 <= i < |r| ==> r[i] in s
    decreases |s|
  {
    if |s| == 0 then s
    else if s[0] == x then s[1..]
    else [s[0]] + RemoveFirst(s[1..], x)
  }

  /** Every element is listed once. */
  predicate NoDuplicates<T(==)>(s: seq<T>) {
    forall i, j :: 0 <= i < j < |s| ==> s[i] != s[j]
  }

  lemma {:induction false} CountZero<T>(s: seq<T>, x: T)
    ensures Count(s, x) == 0 <==> x !in s
    decreases |s|
  {
    if |s| > 0 {
      CountZero(s[1..], x);
      assert s == [s[0]] + s[1..];
    }
  }

  lemma {:induction false} CountNoDuplicates<T>(s: seq<T>, x: T)
    requires NoDuplicates(s)
    ensures Count(s, x) <= 1
    decreases |s|
  {
    if |s| > 0 {
      assert NoDuplicates(s[1..]);
      CountNoDuplicates(s[1..], x);
      if s[0] == x {
        assert x !in s[1..];
        CountZero(s[1..], x);
      }
    }
  }

  /** On a list without duplicates, removing the first occurrence removes the element entirely. */
  lemma RemoveFirstGone<T>(s: seq<T>, x: T)
    requires NoDuplicates(s)
    ensures x !in RemoveFirst(s, x)
  {
    CountNoDuplicates(s, x);
    CountZero(RemoveFirst(s, x), x);
  }

  /** Removing an element keeps a list free of duplicates. */
  lemma {:induction false} RemoveFirstNoDuplicates<T>(s: seq<T>, x: T)
    requires NoDuplicates(s)
    ensures NoDuplicates(RemoveFirst(s, x))
    decreases |s|
  {
    if |s| > 0 && s[0] != x {
      assert NoDuplicates(s[1..]);
      RemoveFirstNoDuplicates(s[1..], x);
      var r := RemoveFirst(s[1..], x);
      assert s[0] !in s[1..];
      assert s[0] !in r;
    } else if |s| > 0 {
      assert NoDuplicates(s[1..]);
    }
  }

  /** `s.reduce((sum, x) => sum + f(x), 0)`. */
  function SumOf<T>(s: seq<T>, f: T -> nat): nat
    decreases |s|
  {
    if |s| == 0 then 0 else f(s[0]) + SumOf(s[1..], f)
  }

  lemma {:induction false} SumOfAppend<T>(s: seq<T>, x: T, f: T -> nat)
    ensures SumOf(s + [x], f) == SumOf(s, f) + f(x)
    decreases |s|
  {
    if |s| == 0 {
      assert [x][1..] == [];
    } else {
      assert (s + [x])[1..] == s[1..] + [x];
      SumOfAppend(s[1..], x, f);
    }
  }

  lemma {:induction false} SumOfUpdate<T>(s: seq<T>, i: nat, x: T, f: T -> nat)
    requires i < |s|
    ensures SumOf(s[i := x], f) + f(s[i]) == SumOf(s, f) + f(x)
    decreases |s|
  {
    if i > 0 {
      assert s[i := x][1..] == s[1..][i - 1 := x];
      SumOfUpdate(s[1..], i - 1, x, f);
    } else {
      assert s[i := x][1..] == s[1..];
    }
  }

  lemma {:induction false} SumOfRemoveAt<T>(s: seq<T>, i: nat, f: T -> nat)
    requires i < |s|
    ensures SumOf(RemoveAt(s, i), f) + f(s[i]) == SumOf(s, f)
    decreases |s|
  {
    if i > 0 {
      assert RemoveAt(s, i)[1..] == RemoveAt(s[1..], i - 1);
      SumOfRemoveAt(s[1..], i - 1, f);
    } else {
      assert RemoveAt(s, 0) == s[1..];
    }
  }

  /** The `for … of` loop that pushes a result for each element that yields one. */
  function FilterMap<T, U>(s: seq<T>, f: T -> Option<U>): (r: seq<U>)
    ensures |r| <= |s|
    decreases |s|
  {
    if |s| == 0 then []
    else
      match f(s[0])
      case None => FilterMap(s[1..], f)
      case Some(u) => [u] + FilterMap(s[1..], f)
  }

  /** Every result comes from some element. */
  lemma {:induction false} FilterMapSound<T, U>(s: seq<T>, f: T -> Option<U>, k: nat)
    requires k < |FilterMap(s, f)|
    ensures exists j :: 0 <= j < |s| && f(s[j]) == Some(FilterMap(s, f)[k])
    decreases |s|
  {
    var r := FilterMap(s[1..], f);
    match f(s[0])
    case None =>
      FilterMapSound(s[1..], f, k);
      var j :| 0 <= j < |s[1..]| && f(s[1..][j]) == Some(r[k]);
      assert s[j + 1] == s[1..][j];
    case Some(u) =>
      if k > 0 {
        FilterMapSound(s[1..], f, k - 1);
        var j :| 0 <= j < |s[1..]| && f(s[1..][j]) == Some(r[k - 1]);
        assert s[j + 1] == s[1..][j];
      }
  }

  /** Every element that yields a result has it reported. */
  lemma {:induction false} FilterMapComplete<T, U>(s: seq<T>, f: T -> Option<U>, j: nat)
    requires j < |s| && f(s[j]).Some?
    ensures f(s[j]).value in FilterMap(s, f)
    decreases |s|
  {
    if j > 0 {
      assert s[1..][j - 1] == s[j];
      FilterMapComplete(s[1..], f, j - 1);
    }
  }

  /** When every element yields a result, none is dropped. */
  lemma {:induction false} FilterMapTotal<T, U>(s: seq<T>, f: T -> Option<U>)
    requires forall j :: 0 <= j < |s| ==> f(s[j]).Some?
    ensures |FilterMap(s, f)| == |s|
    decreases |s|
  {
    if |s| > 0 {
      assert forall j :: 0 <= j < |s[1..]| ==> f(s[1..][j]).Some? by {
        forall j | 0 <= j < |s[1..]| ensures f(s[1..][j]).Some? { assert s[1..][j] == s[j + 1]; }
      }
      FilterMapTotal(s[1..], f);
    }
  }

  /** The positions the results come from: strictly increasing, one per
      element that yields a result, so the results keep the order of `s`
      and no element is reported twice. */
  lemma {:induction false} FilterMapOrigins<T, U>(s: seq<T>, f: T -> Option<U>) returns (idx: seq<nat>)
    ensures |idx| == |FilterMap(s, f)|
    ensures forall k :: 0 <= k < |idx| ==> idx[k] < |s| && f(s[idx[k]]) == Some(FilterMap(s, f)[k])
    ensures forall k, m :: 0 <= k < m < |idx| ==> idx[k] < idx[m]
    ensures forall j :: 0 <= j < |s| && f(s[j]).Some? ==> j in idx
    decreases |s|
  {
    if |s| == 0 {
      return [];
    }
    var tail := FilterMap(s[1..], f);
    var rest := FilterMapOrigins(s[1..], f);
    var shifted := ShiftOrigins(s, f, tail, rest);
    if f(s[0]).None? {
      assert FilterMap(s, f) == tail;
      idx := shifted;
    } else {
      assert FilterMap(s, f) == [f(s[0]).value] + tail;
      idx := PrependOrigin(s, f, tail, shifted);
    }
  }

  /** Position 0 put in front of shifted origins, for a first element that yields a result. */
  lemma PrependOrigin<T, U>(s: seq<T>, f: T -> Option<U>, tail: seq<U>, shifted: seq<nat>) returns (idx: seq<nat>)
    requires |s| > 0 && f(s[0]).Some? && |shifted| == |tail|
    requires forall k :: 0 <= k < |shifted| ==> 1 <= shifted[k] < |s| && f(s[shifted[k]]) == Some(tail[k])
    requires forall k, m :: 0 <= k < m < |shifted| ==> shifted[k] < shifted[m]
    requires forall j :: 1 <= j < |s| && f(s[j]).Some? ==> j in shifted
    ensures |idx| == |tail| + 1
    ensures forall k :: 0 <= k < |idx| ==> idx[k] < |s| && f(s[idx[k]]) == Some(([f(s[0]).value] + tail)[k])
    ensures forall k, m :: 0 <= k < m < |idx| ==> idx[k] < idx[m]
    ensures forall j :: 0 <= j < |s| && f(s[j]).Some? ==> j in idx
  {
    idx := [0] + shifted;
    var out := [f(s[0]).value] + tail;
    forall k | 0 <= k < |idx| ensures idx[k] < |s| && f(s[idx[k]]) == Some(out[k]) {
      if k > 0 {
        assert idx[k] == shifted[k - 1] && out[k] == tail[k - 1];
      }
    }
    forall k, m | 0 <= k < m < |idx| ensures idx[k] < idx[m] {
      assert idx[m] == shifted[m - 1];
    }
  }

  /** The origins in `s[1..]`, moved one place right to be origins in `s`. */
  lemma ShiftOrigins<T, U>(s: seq<T>, f: T -> Option<U>, tail: seq<U>, rest: seq<nat>) returns (shifted: seq<nat>)
    requires |s| > 0 && |rest| == |tail|
    requires forall k :: 0 <= k < |rest| ==> rest[k] < |s| - 1 && f(s[1..][rest[k]]) == Some(tail[k])
    requires forall k, m :: 0 <= k < m < |rest| ==> rest[k] < rest[m]
    requires forall j :: 0 <= j < |s| - 1 && f(s[1..][j]).Some? ==> j in rest
    ensures |shifted| == |tail|
    ensures forall k :: 0 <= k < |shifted| ==> 1 <= shifted[k] < |s| && f(s[shifted[k]]) == Some(tail[k])
    ensures forall k, m :: 0 <= k < m < |shifted| ==> shifted[k] < shifted[m]
    ensures forall j :: 1 <= j < |s| && f(s[j]).Some? ==> j in shifted
  {
    shifted := seq(|rest|, k requires 0 <= k < |rest| => rest[k] + 1);
    forall k | 0 <= k < |shifted| ensures f(s[shifted[k]]) == Some(tail[k]) {
      assert s[shifted[k]] == s[1..][rest[k]];
    }
    forall j | 1 <= j < |s| && f(s[j]).Some? ensures j in shifted {
      assert s[1..][j - 1] == s[j];
      var k :| 0 <= k < |rest| && rest[k] == j - 1;
      assert shifted[k] == j;
    }
  }
}

=== FILE: store.dfy ===
/** The hierarchical note store of the modular build: games own characters,
    characters own categories, and each category lists the ids of files kept
    in one flat `files` collection beside the tree.

    Every operation is a pure function from the store to a new store (or to
    an `Error` where the original throws). Ids that the original draws from
    `generateId` and the stamps it reads from the clock are parameters. */
module Store {
  import opened Wrappers
  import opened Strings
  import opened Seqs

  type Id = string

  /** An ISO-8601 stamp as produced by `new Date().toISOString()`. */
  type Stamp = string

  datatype Category = Category(
    id: Id, name: string, characterId: Id, files: seq<Id>,
    createdAt: Stamp, lastModified: Stamp)

  datatype Character = Character(
    id: Id, name: string, gameId: Id, categories: seq<Category>,
    createdAt: Stamp, lastModified: Stamp)

  datatype Game = Game(
    id: Id, name: string, characters: seq<Character>,
    createdAt: Stamp, lastModified: Stamp)

  /** A note. An absent `title` or `content` is the empty string: every read
      of either field treats a missing value and `''` alike. */
  datatype File = File(
    id: Id, title: string, content: string, categoryId: Id,
    createdAt: Stamp, lastModified: Stamp)

  datatype Settings = Settings(theme: string, autoSave: bool, autoSaveInterval: int)

  datatype Data = Data(games: seq<Game>, files: seq<File>, settings: Settings)

  /** No two files share an id: what `generateId` is there to ensure. */
  predicate FileIdsDistinct(files: seq<File>) {
    forall i, j :: 0 <= i < j < |files| ==> files[i].id != files[j].id
  }

  /** Every stored file is listed by some category of the tree: nothing is
      reachable only through search. */
  ghost predicate EveryFileListed(d: Data) {
    forall i :: 0 <= i < |d.files| ==> Listed(d.games, d.files[i].id)
  }

  /** Some category of the tree lists the id. */
  ghost predicate Listed(games: seq<Game>, x: Id) {
    exists l :: ValidLoc(games, l) && x in CatAt(games, l).files
  }

  const DefaultSettings: Settings := Settings("dark", true, 3000)

  /** The shape the constructor builds and `resetData` restores. */
  function InitialData(): (d: Data)
    ensures |d.games| == 0 && |d.files| == 0
    ensures d.settings.theme == "dark" && d.settings.autoSave && d.settings.autoSaveInterval == 3000
  {
    Data([], [], DefaultSettings)
  }

  // ---------------------------------------------------------------- lookup

  /** `games.findIndex(g => g.id === id)`. */
  function GameIndex(d: Data, id: Id): (r: Option<nat>)
    ensures r.Some? ==> r.value < |d.games| && d.games[r.value].id == id
    ensures r.Some? ==> forall j :: 0 <= j < r.value ==> d.games[j].id != id
    ensures r.None? <==> forall j :: 0 <= j < |d.games| ==> d.games[j].id != id
  {
    FindFirst(d.games, (g: Game) => g.id == id)
  }

  /** `getGame`: the first game with that id, `None` for `undefined`. */
  function GetGame(d: Data, id: Id): (r: Option<Game>)
    ensures r.Some? <==> exists j :: 0 <= j < |d.games| && d.games[j].id == id
    ensures r.Some? ==> r.value.id == id && r.value in d.games
    ensures r.Some? ==> exists i :: 0 <= i < |d.games| && d.games[i] == r.value &&
                          forall j :: 0 <= j < i ==> d.games[j].id != id
  {
    match GameIndex(d, id)
    case None => None
    case Some(i) => Some(d.games[i])
  }

  /** `getCharacter(gameId, characterId)`: scoped to one game; `None` when
      the game is missing or lists no such character. */
  function GetCharacter(d: Data, gameId: Id, characterId: Id): (r: Option<Character>)
    ensures r.Some? ==> r.value.id == characterId
    ensures r.Some? ==> GetGame(d, gameId).Some? && r.value in GetGame(d, gameId).value.characters
    ensures GetGame(d, gameId).None? ==> r.None?
    ensures GetGame(d, gameId).Some? ==>
      var cs := GetGame(d, gameId).value.characters;
      && (r.None? <==> forall j :: 0 <= j < |cs| ==> cs[j].id != characterId)
      && (r.Some? ==> exists i :: 0 <= i < |cs| && cs[i] == r.value &&
                        forall j :: 0 <= j < i ==> cs[j].id != characterId)
  {
    match GetGame(d, gameId)
    case None => None
    case Some(g) =>
      match FindFirst(g.characters, (c: Character) => c.id == characterId)
      case None => None
      case Some(i) => Some(g.characters[i])
  }

  /** `files.findIndex(f => f.id === id)`. */
  function FileIndex(d: Data, id: Id): (r: Option<nat>)
    ensures r.Some? ==> r.value < |d.files| && d.files[r.value].id == id
    ensures r.Some? ==> forall j :: 0 <= j < r.value ==> d.files[j].id != id
    ensures r.None? <==> forall j :: 0 <= j < |d.files| ==> d.files[j].id != id
  {
    FindFirst(d.files, (f: File) => f.id == id)
  }

  /** `getFile`: the first file with that id. */
  function GetFile(d: Data, id: Id): (r: Option<File>)
    ensures r.Some? <==> exists j :: 0 <= j < |d.files| && d.files[j].id == id
    ensures r.Some? ==> r.value.id == id && r.value in d.files
    ensures r.Some? ==> exists i :: 0 <= i < |d.files| && d.files[i] == r.value &&
                          forall j :: 0 <= j < i ==> d.files[j].id != id
  {
    match FileIndex(d, id)
    case None => None
    case Some(i) => Some(d.files[i])
  }

  /** A position in the tree: game `g`, its character `c`, that character's category `k`. */
  datatype Loc = Loc(g: nat, c: nat, k: nat)

  predicate ValidLoc(games: seq<Game>, l: Loc) {
    && l.g < |games|
    && l.c < |games[l.g].characters|
    && l.k < |games[l.g].characters[l.c].categories|
  }

  function CatAt(games: seq<Game>, l: Loc): Category
    requires ValidLoc(games, l)
  {
    games[l.g].characters[l.c].categories[l.k]
  }

  /** `l` comes before `m` in the order the nested `for … of` loops visit the tree. */
  predicate TreeBefore(l: Loc, m: Loc) {
    || l.g < m.g
    || (l.g == m.g && l.c < m.c)
    || (l.g == m.g && l.c == m.c && l.k < m.k)
  }

  predicate CharacterHas(ch: Character, p: Category -> bool) {
    exists k :: 0 <= k < |ch.categories| && p(ch.categories[k])
  }

  predicate GameHas(g: Game, p: Category -> bool) {
    exists c :: 0 <= c < |g.characters| && CharacterHas(g.characters[c], p)
  }

  /** The first category in tree order that satisfies `p`: the scan
      `createFile` does for its parent and `getFilePath` for a listing. */
  function FindCategory(games: seq<Game>, p: Category -> bool): (r: Option<Loc>)
    ensures r.Some? ==> ValidLoc(games, r.value) && p(CatAt(games, r.value))
    ensures r.Some? ==> forall l :: ValidLoc(games, l) && TreeBefore(l, r.value) ==> !p(CatAt(games, l))
    ensures r.None? <==> forall l :: ValidLoc(games, l) ==> !p(CatAt(games, l))
  {
    match FindFirst(games, (g: Game) => GameHas(g, p))
    case None =>
      assert forall l :: ValidLoc(games, l) ==> !p(CatAt(games, l)) by {
        forall l | ValidLoc(games, l) ensures !p(CatAt(games, l)) {
          assert !GameHas(games[l.g], p);
          assert !CharacterHas(games[l.g].characters[l.c], p);
        }
      }
      None
    case Some(g) =>
      var chars := games[g].characters;
      var c := FindFirst(chars, (ch: Character) => CharacterHas(ch, p)).value;
      var cats := chars[c].categories;
      var k := FindFirst(cats, p).value;
      var r := Loc(g, c, k);
      assert forall l :: ValidLoc(games, l) && TreeBefore(l, r) ==> !p(CatAt(games, l)) by {
        forall l | ValidLoc(games, l) && TreeBefore(l, r) ensures !p(CatAt(games, l)) {
          if l.g < g {
            assert !GameHas(games[l.g], p);
            assert !CharacterHas(games[l.g].characters[l.c], p);
          } else if l.c < c {
            assert !CharacterHas(chars[l.c], p);
          }
        }
      }
      Some(r)
  }

  /** The first character, in game order and then character order, with that id:
      the scan `createCategory` does for its parent. */
  function FindCharacter(games: seq<Game>, id: Id): (r: Option<(nat, nat)>)
    ensures r.Some? ==> r.value.0 < |games| && r.value.1 < |games[r.value.0].characters|
    ensures r.Some? ==> games[r.value.0].characters[r.value.1].id == id
    ensures r.Some? ==> forall c :: 0 <= c < r.value.1 ==> games[r.value.0].characters[c].id != id
    ensures r.Some? ==> forall g, c :: 0 <= g < r.value.0 && 0 <= c < |games[g].characters| ==> games[g].characters[c].id != id
    ensures r.None? <==> forall g, c :: 0 <= g < |games| && 0 <= c < |games[g].characters| ==> games[g].characters[c].id != id
  {
    match FindFirst(games, (g: Game) => exists c :: 0 <= c < |g.characters| && g.characters[c].id == id)
    case None => None
    case Some(g) =>
      var c := FindFirst(games[g].characters, (ch: Character) => ch.id == id).value;
      Some((g, c))
  }

  // ---------------------------------------------------------------- create

  /** `createGame(name)`: appends a game with no characters. */
  function CreateGame(d: Data, id: Id, name: string, now: Stamp): (d': Data)
    ensures |d'.games| == |d.games| + 1 && d'.games[..|d.games|] == d.games
    ensures d'.games[|d.games|] == Game(id, name, [], now, now)
    ensures d'.files == d.files && d'.settings == d.settings
  {
    d.(games := d.games + [Game(id, name, [], now, now)])
  }

  /** `createCharacter(gameId, name)`: throws when the game is missing;
      otherwise appends exactly one character to it and touches the game. */
  function CreateCharacter(d: Data, gameId: Id, name: string, id: Id, now: Stamp): (r: Result<Data>)
    ensures r.Failure? <==> forall j :: 0 <= j < |d.games| ==> d.games[j].id != gameId
    ensures r.Failure? ==> r.error == NotFound("game", gameId)
    ensures r.Success? ==> |r.value.games| == |d.games|
    ensures r.Success? ==>
      var i := GameIndex(d, gameId).value;
      var g, g' := d.games[i], r.value.games[i];
      && |r.value.games| == |d.games|
      && (forall j :: 0 <= j < |d.games| && j != i ==> r.value.games[j] == d.games[j])
      && g'.characters == g.characters + [Character(id, name, gameId, [], now, now)]
      && g'.id == g.id && g'.name == g.name && g'.createdAt == g.createdAt
      && g'.lastModified == now
      && r.value.files == d.files && r.value.settings == d.settings
  {
    match GameIndex(d, gameId)
    case None => Failure(NotFound("game", gameId))
    case Some(i) =>
      var g := d.games[i];
      var ch := Character(id, name, gameId, [], now, now);
      Success(d.(games := d.games[i := g.(characters := g.characters + [ch], lastModified := now)]))
  }

  /** `createCategory(characterId, name)`: the parent is the first character with
      that id in any game; throws when there is none. Otherwise appends exactly
      one category to it and touches the character and its game. */
  function CreateCategory(d: Data, characterId: Id, name: string, id: Id, now: Stamp): (r: Result<Data>)
    ensures r.Failure? <==> forall g, c :: 0 <= g < |d.games| && 0 <= c < |d.games[g].characters| ==> d.games[g].characters[c].id != characterId
    ensures r.Failure? ==> r.error == NotFound("character", characterId)
    ensures r.Success? ==>
      var (gi, ci) := FindCharacter(d.games, characterId).value;
      |r.value.games| == |d.games| && |r.value.games[gi].characters| == |d.games[gi].characters|
    ensures r.Success? ==>
      var (gi, ci) := FindCharacter(d.games, characterId).value;
      var ch, ch' := d.games[gi].characters[ci], r.value.games[gi].characters[ci];
      && |r.value.games| == |d.games|
      && (forall j :: 0 <= j < |d.games| && j != gi ==> r.value.games[j] == d.games[j])
      && |r.value.games[gi].characters| == |d.games[gi].characters|
      && (forall c :: 0 <= c < |d.games[gi].characters| && c != ci ==> r.value.games[gi].characters[c] == d.games[gi].characters[c])
      && ch'.categories == ch.categories + [Category(id, name, characterId, [], now, now)]
      && ch' == ch.(categories := ch'.categories, lastModified := now)
      && r.value.games[gi] == d.games[gi].(characters := r.value.games[gi].characters, lastModified := now)
      && r.value.files == d.files && r.value.settings == d.settings
  {
    match FindCharacter(d.games, characterId)
    case None => Failure(NotFound("character", characterId))
    case Some((gi, ci)) =>
      var g := d.games[gi];
      var ch := g.characters[ci];
      var cat := Category(id, name, characterId, [], now, now);
      var ch' := ch.(categories := ch.categories + [cat], lastModified := now);
      Success(d.(games := d.games[gi := g.(characters := g.characters[ci := ch'], lastModified := now)]))
  }

  /** Replace the category at `l`, touching its character and game. */
  function WithCategory(games: seq<Game>, l: Loc, cat: Category, now: Stamp): (r: seq<Game>)
    requires ValidLoc(games, l)
    ensures |r| == |games| && ValidLoc(r, l) && CatAt(r, l) == cat
    ensures forall j :: 0 <= j < |games| && j != l.g ==> r[j] == games[j]
    ensures |r[l.g].characters| == |games[l.g].characters|
    ensures forall c :: 0 <= c < |games[l.g].characters| && c != l.c ==> r[l.g].characters[c] == games[l.g].characters[l.c := games[l.g].characters[l.c]][c]
    ensures |r[l.g].characters[l.c].categories| == |games[l.g].characters[l.c].categories|
    ensures forall k :: 0 <= k < |games[l.g].characters[l.c].categories| && k != l.k ==> r[l.g].characters[l.c].categories[k] == games[l.g].characters[l.c].categories[k]
    ensures r[l.g] == games[l.g].(characters := r[l.g].characters, lastModified := now)
    ensures r[l.g].characters[l.c] == games[l.g].characters[l.c].(categories := r[l.g].characters[l.c].categories, lastModified := now)
  {
    var g := games[l.g];
    var ch := g.characters[l.c];
    var ch' := ch.(categories := ch.categories[l.k := cat], lastModified := now);
    games[l.g := g.(characters := g.characters[l.c := ch'], lastModified := now)]
  }

  /** `createFile(categoryId, title, content)`: the parent is the first category
      with that id in tree order; throws (adding nothing) when there is none.
      Otherwise the new id is appended to that category's list, the file to
      the flat collection, and the category, character and game are touched. */
  function CreateFile(d: Data, categoryId: Id, title: string, content: string, id: Id, now: Stamp): (r: Result<Data>)
    ensures r.Failure? <==> forall l :: ValidLoc(d.games, l) ==> CatAt(d.games, l).id != categoryId
    ensures r.Failure? ==> r.error == NotFound("category", categoryId)
    ensures r.Success? ==>
      var l := FindCategory(d.games, (c: Category) => c.id == categoryId).value;
      && ValidLoc(d.games, l) && ValidLoc(r.value.games, l)
      && r.value.files == d.files + [File(id, title, content, categoryId, now, now)]
      && CatAt(r.value.games, l) == CatAt(d.games, l).(files := CatAt(d.games, l).files + [id], lastModified := now)
      && r.value.games == WithCategory(d.games, l, CatAt(r.value.games, l), now)
      && r.value.settings == d.settings
  {
    match FindCategory(d.games, (c: Category) => c.id == categoryId)
    case None => Failure(NotFound("category", categoryId))
    case Some(l) =>
      var cat := CatAt(d.games, l);
      var cat' := cat.(files := cat.files + [id], lastModified := now);
      Success(Data(WithCategory(d.games, l, cat', now),
                   d.files + [File(id, title, content, categoryId, now, now)],
                   d.settings))
  }

  // ---------------------------------------------------------------- update

  /** The fields a caller may pass to `updateGame`; `None` means "not supplied". */
  datatype GameUpdate = GameUpdate(
    id: Option<Id>, name: Option<string>, characters: Option<seq<Character>>,
    createdAt: Option<Stamp>, lastModified: Option<Stamp>)

  /** `updateGame(gameId, updates)`: `Object.assign(game, updates, {lastModified})`. */
  function UpdateGame(d: Data, gameId: Id, u: GameUpdate, now: Stamp): (r: Result<Data>)
    ensures r.Failure? <==> forall j :: 0 <= j < |d.games| ==> d.games[j].id != gameId
    ensures r.Success? ==> |r.value.games| == |d.games|
    ensures r.Success? ==>
      var i := GameIndex(d, gameId).value;
      var g, g' := d.games[i], r.value.games[i];
      && |r.value.games| == |d.games|
      && (forall j :: 0 <= j < |d.games| && j != i ==> r.value.games[j] == d.games[j])
      && g'.id == u.id.GetOr(g.id)
      && g'.name == u.name.GetOr(g.name)
      && g'.characters == u.characters.GetOr(g.characters)
      && g'.createdAt == u.createdAt.GetOr(g.createdAt)
      && g'.lastModified == now
      && r.value.files == d.files && r.value.settings == d.settings
  {
    match GameIndex(d, gameId)
    case None => Failure(NotFound("game", gameId))
    case Some(i) =>
      var g := d.games[i];
      var g' := Game(u.id.GetOr(g.id), u.name.GetOr(g.name), u.characters.GetOr(g.characters),
                     u.createdAt.GetOr(g.createdAt), now);
      Success(d.(games := d.games[i := g']))
  }

  /** The fields a caller may pass to `updateFile`; `None` means "not supplied". */
  datatype FileUpdate = FileUpdate(
    id: Option<Id>, title: Option<string>, content: Option<string>, categoryId: Option<Id>,
    createdAt: Option<Stamp>, lastModified: Option<Stamp>)

  /** `updateFile(fileId, updates)`: throws for an unknown id; otherwise only the
      supplied fields change on the first file with that id, `lastModified` is
      the store's own stamp whatever the caller passed, and the tree and every
      other file are untouched (ancestors are not touched either). */
  function UpdateFile(d: Data, fileId: Id, u: FileUpdate, now: Stamp): (r: Result<Data>)
    ensures r.Failure? <==> forall j :: 0 <= j < |d.files| ==> d.files[j].id != fileId
    ensures r.Failure? ==> r.error == NotFound("file", fileId)
    ensures r.Success? ==> |r.value.files| == |d.files|
    ensures r.Success? ==>
      var i := FileIndex(d, fileId).value;
      var f, f' := d.files[i], r.value.files[i];
      && |r.value.files| == |d.files|
      && (forall j :: 0 <= j < |d.files| && j != i ==> r.value.files[j] == d.files[j])
      && f'.id == u.id.GetOr(f.id)
      && f'.title == u.title.GetOr(f.title)
      && f'.content == u.content.GetOr(f.content)
      && f'.categoryId == u.categoryId.GetOr(f.categoryId)
      && f'.createdAt == u.createdAt.GetOr(f.createdAt)
      && f'.lastModified == now
      && r.value.games == d.games && r.value.settings == d.settings
  {
    match FileIndex(d, fileId)
    case None => Failure(NotFound("file", fileId))
    case Some(i) =>
      var f := d.files[i];
      var f' := File(u.id.GetOr(f.id), u.title.GetOr(f.title), u.content.GetOr(f.content),
                     u.categoryId.GetOr(f.categoryId), u.createdAt.GetOr(f.createdAt), now);
      Success(d.(files := d.files[i := f']))
  }

  /** The fields a caller may pass to `updateSettings`. */
  datatype SettingsUpdate = SettingsUpdate(
    theme: Option<string>, autoSave: Option<bool>, autoSaveInterval: Option<int>)

  /** `updateSettings(updates)`: a shallow merge into the settings object. */
  function UpdateSettings(d: Data, u: SettingsUpdate): (d': Data)
    ensures d'.settings.theme == u.theme.GetOr(d.settings.theme)
    ensures d'.settings.autoSave == u.autoSave.GetOr(d.settings.autoSave)
    ensures d'.settings.autoSaveInterval == u.autoSaveInterval.GetOr(d.settings.autoSaveInterval)
    ensures d'.games == d.games && d'.files == d.files
  {
    d.(settings := Settings(u.theme.GetOr(d.settings.theme), u.autoSave.GetOr(d.settings.autoSave),
                            u.autoSaveInterval.GetOr(d.settings.autoSaveInterval)))
  }

  // ---------------------------------------------------------------- delete

  /** Drop the first occurrence of `fileId` from one category's list, touching it if it was there. */
  function StripCategory(cat: Category, fileId: Id, now: Stamp): (r: Category)
    ensures r.files == RemoveFirst(cat.files, fileId)
    ensures r == cat.(files := r.files, lastModified := r.lastModified)
    ensures r.lastModified == if fileId in cat.files then now else cat.lastModified
  {
    if fileId in cat.files then cat.(files := RemoveFirst(cat.files, fileId), lastModified := now) else cat
  }

  predicate Lists(fileId: Id, cat: Category) {
    fileId in cat.files
  }

  function StripCharacter(ch: Character, fileId: Id, now: Stamp): (r: Character)
    ensures |r.categories| == |ch.categories|
    ensures forall k :: 0 <= k < |ch.categories| ==> r.categories[k] == StripCategory(ch.categories[k], fileId, now)
    ensures r == ch.(categories := r.categories, lastModified := r.lastModified)
    ensures r.lastModified == if CharacterHas(ch, c => Lists(fileId, c)) then now else ch.lastModified
  {
    var cats := seq(|ch.categories|, k requires 0 <= k < |ch.categories| => StripCategory(ch.categories[k], fileId, now));
    if CharacterHas(ch, c => Lists(fileId, c)) then ch.(categories := cats, lastModified := now)
    else ch.(categories := cats)
  }

  function StripGame(g: Game, fileId: Id, now: Stamp): (r: Game)
    ensures |r.characters| == |g.characters|
    ensures forall c :: 0 <= c < |g.characters| ==> r.characters[c] == StripCharacter(g.characters[c], fileId, now)
    ensures r == g.(characters := r.characters, lastModified := r.lastModified)
    ensures r.lastModified == if GameHas(g, c => Lists(fileId, c)) then now else g.lastModified
  {
    var chars := seq(|g.characters|, c requires 0 <= c < |g.characters| => StripCharacter(g.characters[c], fileId, now));
    if GameHas(g, c => Lists(fileId, c)) then g.(characters := chars, lastModified := now)
    else g.(characters := chars)
  }

  /** The walk over every game: each category anywhere in the tree is stripped
      in place, and nothing is added, removed or renamed. */
  function StripGames(games: seq<Game>, fileId: Id, now: Stamp): (r: seq<Game>)
    ensures forall l :: ValidLoc(games, l) ==> ValidLoc(r, l) && CatAt(r, l) == StripCategory(CatAt(games, l), fileId, now)
    ensures SameTree(games, r)
    ensures |r| == |games| && forall g :: 0 <= g < |games| ==> r[g] == StripGame(games[g], fileId, now)
  {
    seq(|games|, g requires 0 <= g < |games| => StripGame(games[g], fileId, now))
  }

  /** The same games, characters and categories (ids, names, parents), in the same order. */
  ghost predicate SameTree(a: seq<Game>, b: seq<Game>) {
    && |a| == |b|
    && (forall g :: 0 <= g < |a| ==> a[g].id == b[g].id && a[g].name == b[g].name && |a[g].characters| == |b[g].characters|)
    && (forall g, c :: 0 <= g < |a| && 0 <= c < |a[g].characters| ==>
          a[g].characters[c].id == b[g].characters[c].id
          && a[g].characters[c].name == b[g].characters[c].name
          && |a[g].characters[c].categories| == |b[g].characters[c].categories|)
    && (forall l :: ValidLoc(a, l) ==> ValidLoc(b, l) && CatAt(a, l).id == CatAt(b, l).id && CatAt(a, l).name == CatAt(b, l).name)
  }

  /** `deleteFile(fileId)`: throws for an unknown id. Otherwise the first file with
      that id leaves the flat collection, every category drops the first
      occurrence of the id from its list (and is touched if it had one), and
      no game, character or category is removed. */
  function DeleteFile(d: Data, fileId: Id, now: Stamp): (r: Result<Data>)
    ensures r.Failure? <==> forall j :: 0 <= j < |d.files| ==> d.files[j].id != fileId
    ensures r.Failure? ==> r.error == NotFound("file", fileId)
    ensures r.Success? ==>
      var i := FileIndex(d, fileId).value;
      && r.value.files == d.files[..i] + d.files[i + 1..]
      && SameTree(d.games, r.value.games)
      && (forall l :: ValidLoc(d.games, l) ==> CatAt(r.value.games, l).files == RemoveFirst(CatAt(d.games, l).files, fileId))
      && (forall l :: ValidLoc(d.games, l) ==> CatAt(r.value.games, l).lastModified == if fileId in CatAt(d.games, l).files then now else CatAt(d.games, l).lastModified)
      && r.value.settings == d.settings
    ensures r.Success? ==>
      && r.value.games == StripGames(d.games, fileId, now)
      && (forall g :: 0 <= g < |d.games| ==>
            r.value.games[g] == d.games[g].(characters := r.value.games[g].characters,
                                            lastModified := if GameHas(d.games[g], c => Lists(fileId, c)) then now else d.games[g].lastModified))
      && (forall g, c :: 0 <= g < |d.games| && 0 <= c < |d.games[g].characters| ==>
            var ch := d.games[g].characters[c];
            r.value.games[g].characters[c] == ch.(categories := r.value.games[g].characters[c].categories,
                                                  lastModified := if CharacterHas(ch, k => Lists(fileId, k)) then now else ch.lastModified))
  {
    match FileIndex(d, fileId)
    case None => Failure(NotFound("file", fileId))
    case Some(i) =>
      Success(d.(games := StripGames(d.games, fileId, now), files := RemoveAt(d.files, i)))
  }

  // ---------------------------------------------------------------- queries

  datatype MatchKind = TitleMatch | ContentMatch

  datatype SearchHit = SearchHit(id: Id, title: string, path: string, kind: MatchKind)

  /** `getFilePath(fileId)`: "game > character > category" for the first category
      in tree order that lists the id; `""` when the file is missing or no
      category lists it. */
  function GetFilePath(d: Data, fileId: Id): (r: string)
    ensures GetFile(d, fileId).None? ==> r == ""
    ensures (forall l :: ValidLoc(d.games, l) ==> fileId !in CatAt(d.games, l).files) ==> r == ""
    ensures GetFile(d, fileId).Some? && FindCategory(d.games, c => Lists(fileId, c)).Some? ==>
      var l := FindCategory(d.games, c => Lists(fileId, c)).value;
      r == d.games[l.g].name + " > " + d.games[l.g].characters[l.c].name + " > " + CatAt(d.games, l).name
  {
    if GetFile(d, fileId).None? then ""
    else
      match FindCategory(d.games, c => Lists(fileId, c))
      case None => ""
      case Some(l) => d.games[l.g].name + " > " + d.games[l.g].characters[l.c].name + " > " + CatAt(d.games, l).name
  }

  /** How one file answers a search: a title hit wins over a content hit, and an
      empty title or content never matches (both are falsy). */
  function HitFor(d: Data, f: File, query: string): (r: Option<SearchHit>)
    ensures r.Some? ==> r.value.id == f.id && r.value.title == f.title && r.value.path == GetFilePath(d, f.id)
    ensures r.Some? && r.value.kind == TitleMatch <==> |f.title| > 0 && Matches(f.title, query)
    ensures r.Some? && r.value.kind == ContentMatch <==> !(|f.title| > 0 && Matches(f.title, query)) && |f.content| > 0 && Matches(f.content, query)
  {
    if |f.title| > 0 && Matches(f.title, query) then Some(SearchHit(f.id, f.title, GetFilePath(d, f.id), TitleMatch))
    else if |f.content| > 0 && Matches(f.content, query) then Some(SearchHit(f.id, f.title, GetFilePath(d, f.id), ContentMatch))
    else None
  }

  /** `searchFiles(query)`: one hit per matching file, in `files` order. The store
      itself does not reject a blank query; that guard lives in its caller. */
  function SearchFiles(d: Data, query: string): (r: seq<SearchHit>)
    ensures |r| <= |d.files|
  {
    FilterMap(d.files, HitsFor(d, query))
  }

  /** `HitFor` as the per-file step of the search loop. */
  function HitsFor(d: Data, query: string): (step: File -> Option<SearchHit>)
    ensures forall f :: step(f) == HitFor(d, f, query)
  {
    (f: File) => HitFor(d, f, query)
  }

  datatype Statistics = Statistics(totalGames: nat, totalCharacters: nat, totalFiles: nat, totalCharacterCount: nat)

  function CharacterCount(g: Game): nat { |g.characters| }

  /** `file.content.length`: UTF-16 code units, with an absent content counting 0. */
  function ContentLength(f: File): nat { Utf16Length(f.content) }

  /** `getStatistics()`: the counts of games and files, the characters summed
      over the games and the content lengths summed over the files. */
  function GetStatistics(d: Data): (s: Statistics)
    ensures s.totalGames == |d.games| && s.totalFiles == |d.files|
    ensures s.totalCharacters == SumOf(d.games, CharacterCount)
    ensures s.totalCharacterCount == SumOf(d.files, ContentLength)
  {
    Statistics(|d.games|, SumOf(d.games, CharacterCount), |d.files|, SumOf(d.files, ContentLength))
  }

  // ---------------------------------------------------------------- import / reset

  /** `resetData()`: back to the constructor's shape, whatever was stored. */
  function ResetData(d: Data): (d': Data)
    ensures |d'.games| == 0 && |d'.files| == 0 && d'.settings == DefaultSettings
  {
    InitialData()
  }

  /** What `JSON.parse` may yield for the `games` key of an import. */
  datatype GamesField = GamesAbsent | GamesNotArray | GamesArray(games: seq<Game>)

  /** A parsed import payload; `None` fields are keys the payload does not carry. */
  datatype Payload = Payload(games: GamesField, files: Option<seq<File>>, settings: Option<Settings>)

  /** `exportData()`: the whole store, every key present. */
  function ExportData(d: Data): (p: Payload)
    ensures p.games.GamesArray? && p.files.Some? && p.settings.Some?
  {
    Payload(GamesArray(d.games), Some(d.files), Some(d.settings))
  }

  /** `importData(json)`: `None` is text `JSON.parse` rejects. A payload whose `games`
      is absent or not an array is refused; otherwise its keys overwrite the
      store's and keys it does not carry keep their current value. */
  function ImportData(d: Data, payload: Option<Payload>): (r: Result<Data>)
    ensures payload.None? ==> r == Failure(ParseError)
    ensures payload.Some? && !payload.value.games.GamesArray? ==> r == Failure(InvalidFormat)
    ensures payload.Some? && payload.value.games.GamesArray? ==>
      && r.Success?
      && r.value.games == payload.value.games.games
      && r.value.files == payload.value.files.GetOr(d.files)
      && r.value.settings == payload.value.settings.GetOr(d.settings)
  {
    match payload
    case None => Failure(ParseError)
    case Some(p) =>
      if !p.games.GamesArray? then Failure(InvalidFormat)
      else Success(Data(p.games.games, p.files.GetOr(d.files), p.settings.GetOr(d.settings)))
  }
}

=== FILE: store_cascade.dfy ===
/** `deleteGame`: remove a game together with every file its categories list.

    The original walks each category's `files` array with `for … of` while
    every `deleteFile` call splices the same array, so the loop index runs
    ahead of the shrinking list and every second id is skipped. The files
    so skipped stay in the flat collection with nothing listing them.
    `DeleteGameAsWritten` models that walk; `DeleteGame` walks a copy of the
    ids taken before the first deletion, which is what the cascade is for. */
module StoreCascade {
  import opened Wrappers
  import opened Seqs
  import opened Store
  import opened StoreFacts

  // ------------------------------------------------------------ snapshots

  /** The ids listed by a run of categories, in order. */
  function CategoryFileIds(cats: seq<Category>): (ids: seq<Id>)
    decreases |cats|
  {
    if |cats| == 0 then [] else cats[0].files + CategoryFileIds(cats[1..])
  }

  /** The ids listed by a run of characters' categories, in tree order. */
  function CharacterFileIds(chars: seq<Character>): (ids: seq<Id>)
    decreases |chars|
  {
    if |chars| == 0 then [] else CategoryFileIds(chars[0].categories) + CharacterFileIds(chars[1..])
  }

  /** Every id the categories of `g` list, in the order the cascade visits them. */
  function GameFileIds(g: Game): (ids: seq<Id>)
  {
    CharacterFileIds(g.characters)
  }

  lemma {:induction false} CategoryFileIdsCover(cats: seq<Category>, k: nat, x: Id)
    requires k < |cats| && x in cats[k].files
    ensures x in CategoryFileIds(cats)
    decreases |cats|
  {
    if k > 0 {
      CategoryFileIdsCover(cats[1..], k - 1, x);
    }
  }

  lemma {:induction false} CharacterFileIdsCover(chars: seq<Character>, c: nat, k: nat, x: Id)
    requires c < |chars| && k < |chars[c].categories| && x in chars[c].categories[k].files
    ensures x in CharacterFileIds(chars)
    decreases |chars|
  {
    if c == 0 {
      CategoryFileIdsCover(chars[0].categories, k, x);
    } else {
      CharacterFileIdsCover(chars[1..], c - 1, k, x);
    }
  }

  /** Whatever a category of the game lists is in the game's snapshot. */
  lemma GameFileIdsCover(games: seq<Game>, l: Loc, x: Id)
    requires ValidLoc(games, l) && x in CatAt(games, l).files
    ensures x in GameFileIds(games[l.g])
  {
    CharacterFileIdsCover(games[l.g].characters, l.c, l.k, x);
  }

  // ------------------------------------------------------------ as written

  /** The positions of every category of game `gi` from character `ci` on, in tree order. */
  function LocsFrom(games: seq<Game>, gi: nat, ci: nat): (locs: seq<Loc>)
    requires gi < |games|
    ensures forall i :: 0 <= i < |locs| ==> ValidLoc(games, locs[i]) && locs[i].g == gi
    decreases |games[gi].characters| - ci
  {
    if ci >= |games[gi].characters| then []
    else seq(|games[gi].characters[ci].categories|, k requires 0 <= k => Loc(gi, ci, k)) + LocsFrom(games, gi, ci + 1)
  }

  /** `for (const fileId of category.files) await this.deleteFile(fileId)` from
      loop position `j` on, re-reading the live list at every step. */
  function CascadeFrom(d: Data, l: Loc, j: nat, now: Stamp): (r: Result<Data>)
    requires ValidLoc(d.games, l)
    ensures r.Success? ==> SameTree(d.games, r.value.games) && |r.value.files| <= |d.files|
    ensures r.Success? ==> r.value.settings == d.settings
    decreases |d.files|
  {
    var list := CatAt(d.games, l).files;
    if j >= |list| then Success(d)
    else
      match DeleteFile(d, list[j], now)
      case Failure(e) => Failure(e)
      case Success(d') =>
        var r := CascadeFrom(d', l, j + 1, now);
        SameTreeTrans(d.games, d'.games, if r.Success? then r.value.games else d'.games);
        r
  }

  /** The outer loops of the cascade over the visited categories. */
  function CascadeLocs(d: Data, locs: seq<Loc>, now: Stamp): (r: Result<Data>)
    requires forall i :: 0 <= i < |locs| ==> ValidLoc(d.games, locs[i])
    ensures r.Success? ==> SameTree(d.games, r.value.games) && r.value.settings == d.settings
    decreases |locs|
  {
    if |locs| == 0 then Success(d)
    else
      match CascadeFrom(d, locs[0], 0, now)
      case Failure(e) => Failure(e)
      case Success(d') =>
        var r := CascadeLocs(d', locs[1..], now);
        SameTreeTrans(d.games, d'.games, if r.Success? then r.value.games else d'.games);
        r
  }

  /** `deleteGame(gameId)` as the original runs it: the game at the id's
      first position goes, and the other games keep their order. */
  function DeleteGameAsWritten(d: Data, gameId: Id, now: Stamp): (r: Result<Data>)
    ensures GameIndex(d, gameId).None? ==> r == Failure(NotFound("game", gameId))
    ensures r.Success? ==> GameIndex(d, gameId).Some? && |r.value.games| == |d.games| - 1 && r.value.settings == d.settings
    ensures r.Success? ==>
      var gi := GameIndex(d, gameId).value;
      && (forall j :: 0 <= j < gi ==> r.value.games[j].id == d.games[j].id)
      && (forall j :: gi < j < |d.games| ==> r.value.games[j - 1].id == d.games[j].id)
  {
    match GameIndex(d, gameId)
    case None => Failure(NotFound("game", gameId))
    case Some(gi) =>
      match CascadeLocs(d, LocsFrom(d.games, gi, 0), now)
      case Failure(e) => Failure(e)
      case Success(d') => Success(d'.(games := RemoveAt(d'.games, gi)))
  }

  // ------------------------------------------------------------ corrected

  /** Delete each listed file in turn, stopping at the first that is missing. */
  function DeleteFiles(d: Data, ids: seq<Id>, now: Stamp): (r: Result<Data>)
    ensures r.Success? ==> SameTree(d.games, r.value.games) && r.value.settings == d.settings
    ensures r.Success? ==> |r.value.files| == |d.files| - |ids|
    decreases |ids|
  {
    if |ids| == 0 then Success(d)
    else
      match DeleteFile(d, ids[0], now)
      case Failure(e) => Failure(e)
      case Success(d') =>
        var r := DeleteFiles(d', ids[1..], now);
        SameTreeTrans(d.games, d'.games, if r.Success? then r.value.games else d'.games);
        r
  }

  /** Only the listed ids go: files and listings of any other id survive. */
  lemma {:induction false} DeleteFilesKeeps(d: Data, ids: seq<Id>, now: Stamp)
    requires DeleteFiles(d, ids, now).Success?
    ensures var r := DeleteFiles(d, ids, now).value;
      && (forall i :: 0 <= i < |r.files| ==> r.files[i] in d.files)
      && (forall i :: 0 <= i < |d.files| && d.files[i].id !in ids ==> d.files[i] in r.files)
      && (forall l, x :: ValidLoc(d.games, l) && x in CatAt(d.games, l).files && x !in ids ==> x in CatAt(r.games, l).files)
    decreases |ids|
  {
    if |ids| > 0 {
      var d' := DeleteFile(d, ids[0], now).value;
      DeleteFileKeepsOthers(d, ids[0], now);
      DeleteFilesKeeps(d', ids[1..], now);
      var r := DeleteFiles(d, ids, now).value;
      forall i | 0 <= i < |d.files| && d.files[i].id !in ids ensures d.files[i] in r.files {
        var j :| 0 <= j < |d'.files| && d'.files[j] == d.files[i];
        assert d'.files[j].id !in ids[1..];
      }
      forall l, x | ValidLoc(d.games, l) && x in CatAt(d.games, l).files && x !in ids
        ensures x in CatAt(r.games, l).files
      {
        assert x in CatAt(d'.games, l).files;
        assert x !in ids[1..];
      }
    }
  }

  /** With distinct file ids, none of the listed ids is left in the collection. */
  lemma {:induction false} DeleteFilesRemoves(d: Data, ids: seq<Id>, now: Stamp)
    requires DeleteFiles(d, ids, now).Success?
    ensures FileIdsDistinct(d.files) ==> FileIdsDistinct(DeleteFiles(d, ids, now).value.files)
    ensures FileIdsDistinct(d.files) ==> forall i :: 0 <= i < |DeleteFiles(d, ids, now).value.files| ==> DeleteFiles(d, ids, now).value.files[i].id !in ids
    decreases |ids|
  {
    if |ids| > 0 && FileIdsDistinct(d.files) {
      var d' := DeleteFile(d, ids[0], now).value;
      DeleteFileRemovesId(d, ids[0], now);
      DeleteFilesRemoves(d', ids[1..], now);
      DeleteFilesKeeps(d', ids[1..], now);
      NoneOfIds(d'.files, DeleteFiles(d, ids, now).value.files, ids);
    }
  }

  /** Files drawn from a collection without the first id, and carrying none of
      the others, carry none of the ids. */
  lemma NoneOfIds(mid: seq<File>, rs: seq<File>, ids: seq<Id>)
    requires |ids| > 0
    requires forall j :: 0 <= j < |mid| ==> mid[j].id != ids[0]
    requires forall i :: 0 <= i < |rs| ==> rs[i] in mid
    requires forall i :: 0 <= i < |rs| ==> rs[i].id !in ids[1..]
    ensures forall i :: 0 <= i < |rs| ==> rs[i].id !in ids
  {
    forall i | 0 <= i < |rs| ensures rs[i].id !in ids {
      var j :| 0 <= j < |mid| && mid[j] == rs[i];
      assert ids == [ids[0]] + ids[1..];
    }
  }

  /** The copy-first cascade cannot fail when each listed id names one present file. */
  lemma {:induction false} DeleteFilesSucceeds(d: Data, ids: seq<Id>, now: Stamp)
    requires NoDuplicates(ids)
    requires forall x :: x in ids ==> exists i :: 0 <= i < |d.files| && d.files[i].id == x
    ensures DeleteFiles(d, ids, now).Success?
    decreases |ids|
  {
    if |ids| > 0 {
      assert ids[0] in ids;
      var d' := DeleteFile(d, ids[0], now).value;
      DeleteFileKeepsOthers(d, ids[0], now);
      assert NoDuplicates(ids[1..]);
      forall x | x in ids[1..] ensures exists i :: 0 <= i < |d'.files| && d'.files[i].id == x {
        var p :| 0 <= p < |ids[1..]| && ids[1..][p] == x;
        assert x != ids[0] by { assert ids[0] != ids[p + 1]; }
        assert x in ids by { assert ids[p + 1] == x; }
        var i :| 0 <= i < |d.files| && d.files[i].id == x;
        var j :| 0 <= j < |d'.files| && d'.files[j] == d.files[i];
      }
      DeleteFilesSucceeds(d', ids[1..], now);
    }
  }

  /** `deleteGame(gameId)` with the ids copied before the first deletion. It
      fails for an unknown game; for a known one it can fail only when the
      game lists an id twice or lists an id no file has, since `deleteFile`
      throws for a missing id. */
  function DeleteGame(d: Data, gameId: Id, now: Stamp): (r: Result<Data>)
    ensures GameIndex(d, gameId).None? ==> r == Failure(NotFound("game", gameId))
    ensures GameIndex(d, gameId).Some? ==>
      var ids := GameFileIds(d.games[GameIndex(d, gameId).value]);
      NoDuplicates(ids) && (forall x :: x in ids ==> exists i :: 0 <= i < |d.files| && d.files[i].id == x) ==> r.Success?
    ensures r.Success? ==> GameIndex(d, gameId).Some? && |r.value.games| == |d.games| - 1
    ensures r.Success? ==>
      var gi := GameIndex(d, gameId).value;
      && (forall j :: 0 <= j < gi ==> r.value.games[j].id == d.games[j].id)
      && (forall j :: gi < j < |d.games| ==> r.value.games[j - 1].id == d.games[j].id)
      && r.value.settings == d.settings
      && (forall i :: 0 <= i < |d.files| && d.files[i].id !in GameFileIds(d.games[gi]) ==> d.files[i] in r.value.files)
      && (FileIdsDistinct(d.files) ==> forall i :: 0 <= i < |r.value.files| ==> r.value.files[i].id !in GameFileIds(d.games[gi]))
  {
    match GameIndex(d, gameId)
    case None => Failure(NotFound("game", gameId))
    case Some(gi) =>
      var ids := GameFileIds(d.games[gi]);
      assert NoDuplicates(ids) && (forall x :: x in ids ==> exists i :: 0 <= i < |d.files| && d.files[i].id == x) ==>
        DeleteFiles(d, ids, now).Success? by {
        if NoDuplicates(ids) && (forall x :: x in ids ==> exists i :: 0 <= i < |d.files| && d.files[i].id == x) {
          DeleteFilesSucceeds(d, ids, now);
        }
      }
      match DeleteFiles(d, ids, now)
      case Failure(e) => Failure(e)
      case Success(d') =>
        DeleteFilesKeeps(d, ids, now);
        DeleteFilesRemoves(d, ids, now);
        Success(d'.(games := RemoveAt(d'.games, gi)))
  }

  // ------------------------------------------------------------ the skipped file

  /** One game, one character, one category listing two files. */
  function TwoFileStore(): (d: Data)
    ensures |d.games| == 1 && |d.files| == 2 && FileIdsDistinct(d.files)
  {
    var cat := Category("k", "Combos", "c", ["f1", "f2"], "t0", "t0");
    var ch := Character("c", "Ryu", "g", [cat], "t0", "t0");
    Data([Game("g", "SF6", [ch], "t0", "t0")],
         [File("f1", "BnB", "", "k", "t0", "t0"), File("f2", "Punish", "", "k", "t0", "t0")],
         DefaultSettings)
  }

  /** As written, deleting the game deletes `f1`, the list shifts to `["f2"]`, the
      loop index moves to 1 and stops: `f2` survives with its game gone. */
  lemma AsWrittenLeavesOrphan()
    ensures var r := DeleteGameAsWritten(TwoFileStore(), "g", "t1");
      r.Success? && r.value.games == [] && |r.value.files| == 1 && r.value.files[0].id == "f2"
  {
    var d := TwoFileStore();
    var l := Loc(0, 0, 0);
    assert GameIndex(d, "g") == Some(0);
    assert LocsFrom(d.games, 0, 1) == [];
    assert LocsFrom(d.games, 0, 0) == [l];
    assert FileIndex(d, "f1") == Some(0);
    var d1 := DeleteFile(d, "f1", "t1").value;
    assert CatAt(d1.games, l).files == RemoveFirst(["f1", "f2"], "f1") == ["f2"];
    assert CascadeFrom(d1, l, 1, "t1") == Success(d1);
    assert CascadeFrom(d, l, 0, "t1") == Success(d1);
    assert CascadeLocs(d1, [], "t1") == Success(d1);
    assert CascadeLocs(d, [l], "t1") == Success(d1);
  }

  /** The copy-first cascade deletes both files of the same store. */
  lemma CorrectedLeavesNone()
    ensures var r := DeleteGame(TwoFileStore(), "g", "t1");
      r.Success? && r.value.games == [] && r.value.files == []
  {
    var d := TwoFileStore();
    assert GameIndex(d, "g") == Some(0);
    var cats := d.games[0].characters[0].categories;
    assert CategoryFileIds(cats[1..]) == [];
    assert CategoryFileIds(cats) == ["f1", "f2"];
    assert CharacterFileIds(d.games[0].characters[1..]) == [];
    assert GameFileIds(d.games[0]) == ["f1", "f2"];
    forall x | x in ["f1", "f2"] ensures exists i :: 0 <= i < |d.files| && d.files[i].id == x {
      if x == "f1" { assert d.files[0].id == x; } else { assert d.files[1].id == x; }
    }
    DeleteFilesSucceeds(d, ["f1", "f2"], "t1");
    DeleteFilesRemoves(d, ["f1", "f2"], "t1");
  }

  /** The store above lists every file. */
  lemma TwoFileStoreListed()
    ensures EveryFileListed(TwoFileStore())
  {
    var d := TwoFileStore();
    var l := Loc(0, 0, 0);
    assert CatAt(d.games, l).files == ["f1", "f2"];
    forall i | 0 <= i < |d.files| ensures Listed(d.games, d.files[i].id) {
      assert d.files[i].id == CatAt(d.games, l).files[i];
    }
  }

  /** A store with no games lists none of its files. */
  lemma NoGamesNoListing(r: Data)
    requires r.games == [] && |r.files| > 0
    ensures !EveryFileListed(r)
  {
    assert !Listed(r.games, r.files[0].id);
  }

  /** The store above lists every file; what the original leaves behind does not. */
  lemma AsWrittenBreaksListing()
    ensures EveryFileListed(TwoFileStore())
    ensures DeleteGameAsWritten(TwoFileStore(), "g", "t1").Success?
    ensures !EveryFileListed(DeleteGameAsWritten(TwoFileStore(), "g", "t1").value)
  {
    TwoFileStoreListed();
    AsWrittenLeavesOrphan();
    NoGamesNoListing(DeleteGameAsWritten(TwoFileStore(), "g", "t1").value);
  }

  /** A listing outside the removed game survives `games.splice(gi, 1)`, one game earlier if it came after. */
  lemma ListingSurvivesSplice(games: seq<Game>, gi: nat, l: Loc, x: Id)
    requires gi < |games| && ValidLoc(games, l) && l.g != gi && x in CatAt(games, l).files
    ensures exists m :: ValidLoc(RemoveAt(games, gi), m) && x in CatAt(RemoveAt(games, gi), m).files
  {
    var m := Loc(if l.g < gi then l.g else l.g - 1, l.c, l.k);
    assert RemoveAt(games, gi)[m.g] == games[l.g];
    assert ValidLoc(RemoveAt(games, gi), m);
  }

  /** One file the cascade keeps is listed after the game is spliced out: it
      came from a fully listed store, and the game that goes lists none of
      the files kept. */
  lemma SurvivorListed(d: Data, d': Data, r: Data, gi: nat, i: nat)
    requires EveryFileListed(d) && gi < |d.games| && i < |r.files|
    requires |d'.games| == |d.games| && r.games == RemoveAt(d'.games, gi) && r.files == d'.files
    requires forall l :: ValidLoc(d.games, l) ==> ValidLoc(d'.games, l)
    requires forall k :: 0 <= k < |d'.files| ==> d'.files[k] in d.files
    requires forall k :: 0 <= k < |d'.files| ==> d'.files[k].id !in GameFileIds(d.games[gi])
    requires forall l, x :: ValidLoc(d.games, l) && x in CatAt(d.games, l).files && x !in GameFileIds(d.games[gi]) ==>
      x in CatAt(d'.games, l).files
    ensures Listed(r.games, r.files[i].id)
  {
    var f := r.files[i];
    var j :| 0 <= j < |d.files| && d.files[j] == f;
    var l :| ValidLoc(d.games, l) && f.id in CatAt(d.games, l).files;
    assert l.g != gi by {
      if l.g == gi { GameFileIdsCover(d.games, l, f.id); }
    }
    assert ValidLoc(d'.games, l) && f.id in CatAt(d'.games, l).files;
    ListingSurvivesSplice(d'.games, gi, l, f.id);
  }

  /** Every file the cascade keeps is listed after the game is spliced out. */
  lemma SurvivorsListed(d: Data, d': Data, r: Data, gi: nat)
    requires EveryFileListed(d) && gi < |d.games|
    requires |d'.games| == |d.games| && r.games == RemoveAt(d'.games, gi) && r.files == d'.files
    requires forall l :: ValidLoc(d.games, l) ==> ValidLoc(d'.games, l)
    requires forall k :: 0 <= k < |d'.files| ==> d'.files[k] in d.files
    requires forall k :: 0 <= k < |d'.files| ==> d'.files[k].id !in GameFileIds(d.games[gi])
    requires forall l, x :: ValidLoc(d.games, l) && x in CatAt(d.games, l).files && x !in GameFileIds(d.games[gi]) ==>
      x in CatAt(d'.games, l).files
    ensures EveryFileListed(r)
  {
    forall i | 0 <= i < |r.files| ensures Listed(r.games, r.files[i].id) {
      SurvivorListed(d, d', r, gi, i);
    }
  }

  /** The copy-first cascade keeps every remaining file listed: the files it
      keeps are exactly those some other game lists. */
  lemma DeleteGameKeepsListed(d: Data, gameId: Id, now: Stamp)
    requires FileIdsDistinct(d.files) && EveryFileListed(d) && DeleteGame(d, gameId, now).Success?
    ensures EveryFileListed(DeleteGame(d, gameId, now).value)
  {
    var gi := GameIndex(d, gameId).value;
    var ids := GameFileIds(d.games[gi]);
    var d' := DeleteFiles(d, ids, now).value;
    DeleteFilesKeeps(d, ids, now);
    DeleteFilesRemoves(d, ids, now);
    var r := DeleteGame(d, gameId, now).value;
    assert r.games == RemoveAt(d'.games, gi) && r.files == d'.files;
    SurvivorsListed(d, d', r, gi);
  }
}

=== FILE: store_facts.dfy ===
/** What the operations of `Store` promise one another: a file created can be
    read back, a file deleted is gone from the collection and from every
    list, the statistics move by exactly what an operation added or removed,
    the search reports precisely the matching files, and an export imports
    back to the same store. */
module StoreFacts {
  import opened Wrappers
  import opened Strings
  import opened Seqs
  import opened Store

  // ------------------------------------------------------------ tree shape

  /** Keeping the tree's shape composes: a run of deletions keeps it too. */
  lemma SameTreeTrans(a: seq<Game>, b: seq<Game>, c: seq<Game>)
    requires SameTree(a, b) && SameTree(b, c)
    ensures SameTree(a, c)
  {
    forall l | ValidLoc(a, l) ensures ValidLoc(c, l) && CatAt(a, l).id == CatAt(c, l).id && CatAt(a, l).name == CatAt(c, l).name {
      assert ValidLoc(b, l);
    }
  }

  // ------------------------------------------------------------ delete

  /** `deleteFile` removes one file and one listing of its id; everything else stays. */
  lemma DeleteFileKeepsOthers(d: Data, x: Id, now: Stamp)
    requires DeleteFile(d, x, now).Success?
    ensures var r := DeleteFile(d, x, now).value;
      && (forall i :: 0 <= i < |r.files| ==> r.files[i] in d.files)
      && (forall i :: 0 <= i < |d.files| && d.files[i].id != x ==> d.files[i] in r.files)
      && (forall l, y :: ValidLoc(d.games, l) && y in CatAt(d.games, l).files && y != x ==> ValidLoc(r.games, l) && y in CatAt(r.games, l).files)
  {
    var r := DeleteFile(d, x, now).value;
    var k := FileIndex(d, x).value;
    forall i | 0 <= i < |d.files| && d.files[i].id != x ensures d.files[i] in r.files {
      if i < k { assert r.files[i] == d.files[i]; } else { assert r.files[i - 1] == d.files[i]; }
    }
    forall l, y | ValidLoc(d.games, l) && y in CatAt(d.games, l).files && y != x
      ensures ValidLoc(r.games, l) && y in CatAt(r.games, l).files
    {
      var s := CatAt(d.games, l).files;
      var i :| 0 <= i < |s| && s[i] == y;
      assert s[i] in RemoveFirst(s, x);
    }
  }

  /** With distinct ids, a deleted file leaves no copy behind and ids stay distinct. */
  lemma DeleteFileRemovesId(d: Data, x: Id, now: Stamp)
    requires FileIdsDistinct(d.files) && DeleteFile(d, x, now).Success?
    ensures FileIdsDistinct(DeleteFile(d, x, now).value.files)
    ensures forall i :: 0 <= i < |DeleteFile(d, x, now).value.files| ==> DeleteFile(d, x, now).value.files[i].id != x
    ensures GetFile(DeleteFile(d, x, now).value, x).None?
  {
    var r := DeleteFile(d, x, now).value;
    var k := FileIndex(d, x).value;
    forall i | 0 <= i < |r.files| ensures r.files[i].id != x {
      if i < k { assert r.files[i] == d.files[i]; } else { assert r.files[i] == d.files[i + 1]; }
    }
  }

  /** One listing of another id survives `deleteFile`, at the same position in the tree. */
  lemma DeleteFileKeepsListing(d: Data, x: Id, now: Stamp, l: Loc, y: Id)
    requires DeleteFile(d, x, now).Success?
    requires ValidLoc(d.games, l) && y in CatAt(d.games, l).files && y != x
    ensures ValidLoc(DeleteFile(d, x, now).value.games, l) && y in CatAt(DeleteFile(d, x, now).value.games, l).files
  {
    DeleteFileKeepsOthers(d, x, now);
  }

  /** One file of `b` drawn from a fully listed store `a`, other than `x`, is
      listed in `b` when `b`'s tree keeps every listing but `x`'s. */
  lemma KeptListed(a: Data, b: Data, x: Id, i: nat)
    requires EveryFileListed(a) && i < |b.files| && b.files[i] in a.files && b.files[i].id != x
    requires forall l, y :: ValidLoc(a.games, l) && y in CatAt(a.games, l).files && y != x ==>
      ValidLoc(b.games, l) && y in CatAt(b.games, l).files
    ensures Listed(b.games, b.files[i].id)
  {
    var j :| 0 <= j < |a.files| && a.files[j] == b.files[i];
    var l :| ValidLoc(a.games, l) && a.files[j].id in CatAt(a.games, l).files;
    assert ValidLoc(b.games, l) && b.files[i].id in CatAt(b.games, l).files;
  }

  /** A store whose files all come from a fully listed store, none of them `x`,
      and whose tree keeps every listing but `x`'s, is fully listed too. */
  lemma ListedKept(a: Data, b: Data, x: Id)
    requires EveryFileListed(a)
    requires forall i :: 0 <= i < |b.files| ==> b.files[i] in a.files
    requires forall i :: 0 <= i < |b.files| ==> b.files[i].id != x
    requires forall l, y :: ValidLoc(a.games, l) && y in CatAt(a.games, l).files && y != x ==>
      ValidLoc(b.games, l) && y in CatAt(b.games, l).files
    ensures EveryFileListed(b)
  {
    forall i | 0 <= i < |b.files|
      ensures Listed(b.games, b.files[i].id)
    {
      KeptListed(a, b, x, i);
    }
  }

  /** Deleting a file keeps every remaining file listed. */
  lemma DeleteFileKeepsListed(d: Data, x: Id, now: Stamp)
    requires FileIdsDistinct(d.files) && EveryFileListed(d) && DeleteFile(d, x, now).Success?
    ensures EveryFileListed(DeleteFile(d, x, now).value)
  {
    DeleteFileKeepsOthers(d, x, now);
    DeleteFileRemovesId(d, x, now);
    ListedKept(d, DeleteFile(d, x, now).value, x);
  }

  // ------------------------------------------------------------ create

  /** Outside the replaced category, `WithCategory` changes no list. */
  lemma WithCategoryElsewhere(games: seq<Game>, l: Loc, cat: Category, now: Stamp, m: Loc)
    requires ValidLoc(games, l) && ValidLoc(games, m) && m != l
    ensures ValidLoc(WithCategory(games, l, cat, now), m)
    ensures CatAt(WithCategory(games, l, cat, now), m) == CatAt(games, m)
  {
  }

  /** A file created under a fresh id reads back exactly as given. */
  lemma CreateFileThenGet(d: Data, categoryId: Id, title: string, content: string, id: Id, now: Stamp)
    requires GetFile(d, id).None?
    requires CreateFile(d, categoryId, title, content, id, now).Success?
    ensures GetFile(CreateFile(d, categoryId, title, content, id, now).value, id) == Some(File(id, title, content, categoryId, now, now))
    ensures FileIdsDistinct(d.files) ==> FileIdsDistinct(CreateFile(d, categoryId, title, content, id, now).value.files)
  {
    AppendedFileReads(d, CreateFile(d, categoryId, title, content, id, now).value, File(id, title, content, categoryId, now, now));
  }

  /** A file appended under an id no earlier file has is the one found by that id. */
  lemma AppendedFileReads(a: Data, b: Data, f: File)
    requires b.files == a.files + [f] && GetFile(a, f.id).None?
    ensures GetFile(b, f.id) == Some(f) && FileIndex(b, f.id) == Some(|a.files|)
    ensures FileIdsDistinct(a.files) ==> FileIdsDistinct(b.files)
  {
    assert b.files[|a.files|] == f;
    assert FileIndex(b, f.id) == Some(|a.files|);
  }

  /** Creating a file keeps every file listed, the new one included. */
  lemma CreateFileKeepsListed(d: Data, categoryId: Id, title: string, content: string, id: Id, now: Stamp)
    requires EveryFileListed(d) && CreateFile(d, categoryId, title, content, id, now).Success?
    ensures EveryFileListed(CreateFile(d, categoryId, title, content, id, now).value)
  {
    CreateFileShape(d, categoryId, title, content, id, now);
    AppendedListed(d, CreateFile(d, categoryId, title, content, id, now).value,
                   File(id, title, content, categoryId, now, now),
                   FindCategory(d.games, (k: Category) => k.id == categoryId).value);
  }

  /** One file of a store grown by `f`, whose id went to the end of category
      `l`, is listed. */
  lemma AppendedListedAt(a: Data, b: Data, f: File, l: Loc, i: nat)
    requires EveryFileListed(a) && b.files == a.files + [f] && i < |b.files|
    requires SameTree(a.games, b.games) && ValidLoc(a.games, l)
    requires CatAt(b.games, l).files == CatAt(a.games, l).files + [f.id]
    requires forall m :: ValidLoc(a.games, m) && m != l ==> CatAt(b.games, m) == CatAt(a.games, m)
    ensures Listed(b.games, b.files[i].id)
  {
    if i == |a.files| {
      assert CatAt(b.games, l).files[|CatAt(a.games, l).files|] == f.id;
      assert ValidLoc(b.games, l) && b.files[i].id in CatAt(b.games, l).files;
    } else {
      assert b.files[i] == a.files[i];
      var m :| ValidLoc(a.games, m) && a.files[i].id in CatAt(a.games, m).files;
      if m == l {
        var k :| 0 <= k < |CatAt(a.games, l).files| && CatAt(a.games, l).files[k] == a.files[i].id;
        assert CatAt(b.games, l).files[k] == a.files[i].id;
      }
      assert ValidLoc(b.games, m) && b.files[i].id in CatAt(b.games, m).files;
    }
  }

  /** A store grown by `f`, whose id went to the end of category `l` and whose
      tree is otherwise unchanged, keeps every file listed. */
  lemma AppendedListed(a: Data, b: Data, f: File, l: Loc)
    requires EveryFileListed(a) && b.files == a.files + [f]
    requires SameTree(a.games, b.games) && ValidLoc(a.games, l)
    requires CatAt(b.games, l).files == CatAt(a.games, l).files + [f.id]
    requires forall m :: ValidLoc(a.games, m) && m != l ==> CatAt(b.games, m) == CatAt(a.games, m)
    ensures EveryFileListed(b)
  {
    forall i | 0 <= i < |b.files|
      ensures Listed(b.games, b.files[i].id)
    {
      AppendedListedAt(a, b, f, l, i);
    }
  }

  /** Replacing a category by one with the same id and name keeps the tree's shape. */
  lemma WithCategoryShape(games: seq<Game>, l: Loc, cat: Category, now: Stamp)
    requires ValidLoc(games, l) && cat.id == CatAt(games, l).id && cat.name == CatAt(games, l).name
    ensures SameTree(games, WithCategory(games, l, cat, now))
  {
    var r := WithCategory(games, l, cat, now);
    forall m | ValidLoc(games, m) ensures ValidLoc(r, m) && CatAt(games, m).id == CatAt(r, m).id && CatAt(games, m).name == CatAt(r, m).name {
      if m != l { WithCategoryElsewhere(games, l, cat, now, m); }
    }
  }

  /** What `createFile` did, in the terms the round trip needs. */
  lemma CreateFileShape(d: Data, categoryId: Id, title: string, content: string, id: Id, now: Stamp)
    requires CreateFile(d, categoryId, title, content, id, now).Success?
    ensures var c := CreateFile(d, categoryId, title, content, id, now).value;
      var l := FindCategory(d.games, (k: Category) => k.id == categoryId).value;
      && c.files == d.files + [File(id, title, content, categoryId, now, now)]
      && SameTree(d.games, c.games)
      && ValidLoc(d.games, l)
      && CatAt(c.games, l).files == CatAt(d.games, l).files + [id]
      && forall m :: ValidLoc(d.games, m) && m != l ==> CatAt(c.games, m) == CatAt(d.games, m)
  {
    var c := CreateFile(d, categoryId, title, content, id, now).value;
    var l := FindCategory(d.games, (k: Category) => k.id == categoryId).value;
    WithCategoryShape(d.games, l, CatAt(c.games, l), now);
    forall m | ValidLoc(d.games, m) && m != l ensures CatAt(c.games, m) == CatAt(d.games, m) {
      WithCategoryElsewhere(d.games, l, CatAt(c.games, l), now, m);
    }
  }

  /** Deleting a file just created under an id nothing listed restores every
      list and the collection. */
  lemma CreateThenDeleteFile(d: Data, categoryId: Id, title: string, content: string, id: Id, now: Stamp, later: Stamp)
    requires GetFile(d, id).None?
    requires forall l :: ValidLoc(d.games, l) ==> id !in CatAt(d.games, l).files
    requires CreateFile(d, categoryId, title, content, id, now).Success?
    ensures var c := CreateFile(d, categoryId, title, content, id, now).value;
      && DeleteFile(c, id, later).Success?
      && DeleteFile(c, id, later).value.files == d.files
      && SameTree(d.games, DeleteFile(c, id, later).value.games)
      && forall l :: ValidLoc(d.games, l) ==> CatAt(DeleteFile(c, id, later).value.games, l).files == CatAt(d.games, l).files
  {
    var c := CreateFile(d, categoryId, title, content, id, now).value;
    var l := FindCategory(d.games, (k: Category) => k.id == categoryId).value;
    CreateFileShape(d, categoryId, title, content, id, now);
    var f := File(id, title, content, categoryId, now, now);
    AppendedFileReads(d, c, f);
    UndoAppendedFile(d, c, DeleteFile(c, id, later).value, f, l);
  }

  /** Removing, from a store that had `f` appended and its id listed at the end
      of category `l`, the first copy of that id everywhere gives back the
      original files and lists. */
  lemma UndoAppendedFile(d: Data, c: Data, r: Data, f: File, l: Loc)
    requires c.files == d.files + [f] && r.files == c.files[..|d.files|] + c.files[|d.files| + 1..]
    requires SameTree(d.games, c.games) && SameTree(c.games, r.games)
    requires forall m :: ValidLoc(d.games, m) ==> f.id !in CatAt(d.games, m).files
    requires ValidLoc(d.games, l) && CatAt(c.games, l).files == CatAt(d.games, l).files + [f.id]
    requires forall m :: ValidLoc(d.games, m) && m != l ==> CatAt(c.games, m) == CatAt(d.games, m)
    requires forall m :: ValidLoc(c.games, m) ==> CatAt(r.games, m).files == RemoveFirst(CatAt(c.games, m).files, f.id)
    ensures r.files == d.files && SameTree(d.games, r.games)
    ensures forall m :: ValidLoc(d.games, m) ==> CatAt(r.games, m).files == CatAt(d.games, m).files
  {
    DropLast(d.files, c.files, r.files);
    SameTreeTrans(d.games, c.games, r.games);
    forall m | ValidLoc(d.games, m) ensures CatAt(r.games, m).files == CatAt(d.games, m).files {
      assert ValidLoc(c.games, m);
      ListRestored(CatAt(d.games, m).files, CatAt(c.games, m).files, CatAt(r.games, m).files, f.id);
    }
  }

  /** Removing the last element of a list grown by one gives the list back. */
  lemma DropLast<T>(s: seq<T>, grown: seq<T>, r: seq<T>)
    requires |grown| == |s| + 1 && grown[..|s|] == s && r == grown[..|s|] + grown[|s| + 1..]
    ensures r == s
  {
  }

  /** A list that gained `x` at its end, or nothing, loses it again to `RemoveFirst`. */
  lemma ListRestored(before: seq<Id>, mid: seq<Id>, after: seq<Id>, x: Id)
    requires x !in before && (mid == before + [x] || mid == before) && after == RemoveFirst(mid, x)
    ensures after == before
  {
    if mid == before + [x] {
      RemoveFirstAppended(before, x);
    }
  }

  lemma {:induction false} RemoveFirstAppended(s: seq<Id>, x: Id)
    requires x !in s
    ensures RemoveFirst(s + [x], x) == s
    decreases |s|
  {
    if |s| == 0 {
    } else {
      assert (s + [x])[1..] == s[1..] + [x];
      RemoveFirstAppended(s[1..], x);
    }
  }

  // ------------------------------------------------------------ reading back

  /** `getCharacter` finds a freshly created character in its game, provided
      the game had no character with that id before. */
  lemma CreateCharacterThenGet(d: Data, gameId: Id, name: string, id: Id, now: Stamp)
    requires CreateCharacter(d, gameId, name, id, now).Success?
    requires GetCharacter(d, gameId, id).None?
    ensures GetCharacter(CreateCharacter(d, gameId, name, id, now).value, gameId, id)
      == Some(Character(id, name, gameId, [], now, now))
  {
    var r := CreateCharacter(d, gameId, name, id, now).value;
    var i := GameIndex(d, gameId).value;
    assert GameIndex(r, gameId) == Some(i);
    var cs := d.games[i].characters;
    assert r.games[i].characters == cs + [Character(id, name, gameId, [], now, now)];
    assert GetGame(d, gameId) == Some(d.games[i]);
    assert forall j :: 0 <= j < |cs| ==> cs[j].id != id;
    var cs' := r.games[i].characters;
    assert GetGame(r, gameId) == Some(r.games[i]);
    assert forall j :: 0 <= j < |cs| ==> cs'[j] == cs[j] && cs'[j].id != id;
    assert cs'[|cs|].id == id;
    assert GetCharacter(r, gameId, id) == Some(cs'[|cs|]);
  }

  /** `getGame` after `updateGame` shows every supplied field and the new
      stamp, as long as the update keeps the game's id. */
  lemma UpdateGameThenGet(d: Data, gameId: Id, u: GameUpdate, now: Stamp)
    requires UpdateGame(d, gameId, u, now).Success?
    requires u.id.None? || u.id == Some(gameId)
    ensures var g := GetGame(d, gameId).value;
      GetGame(UpdateGame(d, gameId, u, now).value, gameId)
        == Some(Game(gameId, u.name.GetOr(g.name), u.characters.GetOr(g.characters), u.createdAt.GetOr(g.createdAt), now))
  {
    var r := UpdateGame(d, gameId, u, now).value;
    var i := GameIndex(d, gameId).value;
    assert GameIndex(r, gameId) == Some(i);
  }

  /** Writing back the stored settings, or nothing, changes nothing; and a
      settings update applied twice is the same as applied once. */
  lemma UpdateSettingsLaws(d: Data, u: SettingsUpdate)
    ensures UpdateSettings(d, SettingsUpdate(Some(d.settings.theme), Some(d.settings.autoSave), Some(d.settings.autoSaveInterval))) == d
    ensures UpdateSettings(d, SettingsUpdate(None, None, None)) == d
    ensures UpdateSettings(UpdateSettings(d, u), u) == UpdateSettings(d, u)
  {
  }

  /** The tree `createCategory` leaves: every old position still holds its
      category, the new one sits last under its parent, and no other
      position is new. */
  lemma CreateCategoryShape(d: Data, characterId: Id, name: string, id: Id, now: Stamp)
    requires CreateCategory(d, characterId, name, id, now).Success?
    ensures var r := CreateCategory(d, characterId, name, id, now).value;
      var (gi, ci) := FindCharacter(d.games, characterId).value;
      var n := Loc(gi, ci, |d.games[gi].characters[ci].categories|);
      && (forall l :: ValidLoc(d.games, l) ==> ValidLoc(r.games, l) && CatAt(r.games, l) == CatAt(d.games, l))
      && ValidLoc(r.games, n) && CatAt(r.games, n) == Category(id, name, characterId, [], now, now)
      && (forall m :: ValidLoc(r.games, m) && m != n ==> ValidLoc(d.games, m))
  {
    var r := CreateCategory(d, characterId, name, id, now).value;
    var (gi, ci) := FindCharacter(d.games, characterId).value;
    var cats := d.games[gi].characters[ci].categories;
    forall l | ValidLoc(d.games, l)
      ensures ValidLoc(r.games, l) && CatAt(r.games, l) == CatAt(d.games, l)
    {
      if l.g == gi && l.c == ci {
        assert r.games[gi].characters[ci].categories == cats + [Category(id, name, characterId, [], now, now)];
      }
    }
  }

  /** `createCategory` keeps every file listed: it touches no file and every
      old listing stays where it was. */
  lemma CreateCategoryKeepsListed(d: Data, characterId: Id, name: string, id: Id, now: Stamp)
    requires EveryFileListed(d)
    requires CreateCategory(d, characterId, name, id, now).Success?
    ensures EveryFileListed(CreateCategory(d, characterId, name, id, now).value)
  {
    var r := CreateCategory(d, characterId, name, id, now).value;
    CreateCategoryShape(d, characterId, name, id, now);
    forall i | 0 <= i < |r.files| ensures Listed(r.games, r.files[i].id) {
      var l :| ValidLoc(d.games, l) && d.files[i].id in CatAt(d.games, l).files;
      assert ValidLoc(r.games, l) && r.files[i].id in CatAt(r.games, l).files;
    }
  }

  /** A category created under an id no category had is the one the tree scan
      of `createFile` finds for that id: the last one under its parent. */
  lemma CreateCategoryThenFind(d: Data, characterId: Id, name: string, id: Id, now: Stamp)
    requires CreateCategory(d, characterId, name, id, now).Success?
    requires forall l :: ValidLoc(d.games, l) ==> CatAt(d.games, l).id != id
    ensures var r := CreateCategory(d, characterId, name, id, now).value;
      var (gi, ci) := FindCharacter(d.games, characterId).value;
      var n := Loc(gi, ci, |d.games[gi].characters[ci].categories|);
      && FindCategory(r.games, (c: Category) => c.id == id) == Some(n)
      && CatAt(r.games, n) == Category(id, name, characterId, [], now, now)
  {
    var r := CreateCategory(d, characterId, name, id, now).value;
    var (gi, ci) := FindCharacter(d.games, characterId).value;
    var n := Loc(gi, ci, |d.games[gi].characters[ci].categories|);
    CreateCategoryShape(d, characterId, name, id, now);
    assert CatAt(r.games, n).id == id;
    assert forall m :: ValidLoc(r.games, m) && m != n ==> CatAt(r.games, m).id != id;
  }

  // ------------------------------------------------------------ statistics

  /** A new game adds one game and nothing else to the statistics. */
  lemma CreateGameStatistics(d: Data, id: Id, name: string, now: Stamp)
    ensures var s, s' := GetStatistics(d), GetStatistics(CreateGame(d, id, name, now));
      s' == s.(totalGames := s.totalGames + 1)
  {
    SumOfAppend(d.games, Game(id, name, [], now, now), CharacterCount);
  }

  /** A new character adds exactly one to the character total. */
  lemma CreateCharacterStatistics(d: Data, gameId: Id, name: string, id: Id, now: Stamp)
    requires CreateCharacter(d, gameId, name, id, now).Success?
    ensures var s, s' := GetStatistics(d), GetStatistics(CreateCharacter(d, gameId, name, id, now).value);
      s' == s.(totalCharacters := s.totalCharacters + 1)
  {
    var i := GameIndex(d, gameId).value;
    var r := CreateCharacter(d, gameId, name, id, now).value;
    assert r.games == d.games[i := r.games[i]];
    SumOfUpdate(d.games, i, r.games[i], CharacterCount);
  }

  /** A new file adds one file and its content length. */
  lemma CreateFileStatistics(d: Data, categoryId: Id, title: string, content: string, id: Id, now: Stamp)
    requires CreateFile(d, categoryId, title, content, id, now).Success?
    ensures var s, s' := GetStatistics(d), GetStatistics(CreateFile(d, categoryId, title, content, id, now).value);
      s' == s.(totalFiles := s.totalFiles + 1, totalCharacterCount := s.totalCharacterCount + Utf16Length(content))
  {
    var r := CreateFile(d, categoryId, title, content, id, now).value;
    SumOfAppend(d.files, File(id, title, content, categoryId, now, now), ContentLength);
    var l := FindCategory(d.games, (c: Category) => c.id == categoryId).value;
    CharacterTotalsKept(d.games, l, CatAt(r.games, l), now);
  }

  /** Replacing a category leaves every game's character count as it was. */
  lemma CharacterTotalsKept(games: seq<Game>, l: Loc, cat: Category, now: Stamp)
    requires ValidLoc(games, l)
    ensures SumOf(WithCategory(games, l, cat, now), CharacterCount) == SumOf(games, CharacterCount)
  {
    var r := WithCategory(games, l, cat, now);
    assert r == games[l.g := r[l.g]];
    SumOfUpdate(games, l.g, r[l.g], CharacterCount);
  }

  /** Editing content moves the character total by the change in length. */
  lemma UpdateFileStatistics(d: Data, fileId: Id, u: FileUpdate, now: Stamp)
    requires UpdateFile(d, fileId, u, now).Success?
    ensures var i := FileIndex(d, fileId).value;
      var s, s' := GetStatistics(d), GetStatistics(UpdateFile(d, fileId, u, now).value);
      && s'.totalGames == s.totalGames && s'.totalCharacters == s.totalCharacters && s'.totalFiles == s.totalFiles
      && s'.totalCharacterCount + Utf16Length(d.files[i].content) == s.totalCharacterCount + Utf16Length(u.content.GetOr(d.files[i].content))
  {
    var i := FileIndex(d, fileId).value;
    var r := UpdateFile(d, fileId, u, now).value;
    assert r.files == d.files[i := r.files[i]];
    SumOfUpdate(d.files, i, r.files[i], ContentLength);
  }

  /** Deleting a file removes one file and its content length; no game or character goes. */
  lemma DeleteFileStatistics(d: Data, fileId: Id, now: Stamp)
    requires DeleteFile(d, fileId, now).Success?
    ensures var i := FileIndex(d, fileId).value;
      var s, s' := GetStatistics(d), GetStatistics(DeleteFile(d, fileId, now).value);
      && s'.totalGames == s.totalGames && s'.totalCharacters == s.totalCharacters
      && s'.totalFiles + 1 == s.totalFiles
      && s'.totalCharacterCount + Utf16Length(d.files[i].content) == s.totalCharacterCount
  {
    var i := FileIndex(d, fileId).value;
    var r := DeleteFile(d, fileId, now).value;
    assert r.files == RemoveAt(d.files, i);
    SumOfRemoveAt(d.files, i, ContentLength);
    SumOfSameShape(d.games, r.games);
  }

  /** Two trees of the same shape have the same character total. */
  lemma {:induction false} SumOfSameShape(a: seq<Game>, b: seq<Game>)
    requires SameTree(a, b)
    ensures SumOf(a, CharacterCount) == SumOf(b, CharacterCount)
    decreases |a|
  {
    if |a| > 0 {
      assert SameTree(a[1..], b[1..]) by {
        forall l | ValidLoc(a[1..], l) ensures ValidLoc(b[1..], l) && CatAt(a[1..], l).id == CatAt(b[1..], l).id && CatAt(a[1..], l).name == CatAt(b[1..], l).name {
          assert ValidLoc(a, l.(g := l.g + 1));
        }
      }
      SumOfSameShape(a[1..], b[1..]);
    }
  }

  // ------------------------------------------------------------ search

  /** `searchFiles` reports one hit per matching file and nothing else, in
      `files` order: `idx` lists, strictly increasing, the positions of
      exactly the files that match, and hit `k` is `HitFor` of file `idx[k]`. */
  lemma SearchFilesExact(d: Data, query: string) returns (idx: seq<nat>)
    ensures |idx| == |SearchFiles(d, query)|
    ensures forall k :: 0 <= k < |idx| ==>
      idx[k] < |d.files| && HitFor(d, d.files[idx[k]], query) == Some(SearchFiles(d, query)[k])
    ensures forall k, m :: 0 <= k < m < |idx| ==> idx[k] < idx[m]
    ensures forall j :: 0 <= j < |d.files| && HitFor(d, d.files[j], query).Some? ==> j in idx
  {
    idx := FilterMapOrigins(d.files, HitsFor(d, query));
  }

  /** The store does not guard against a blank query: every file with a title
      is then a title hit. */
  lemma SearchEmptyQueryHitsAll(d: Data)
    requires forall j :: 0 <= j < |d.files| ==> |d.files[j].title| > 0
    ensures |SearchFiles(d, "")| == |d.files|
  {
    var f := HitsFor(d, "");
    forall j | 0 <= j < |d.files| ensures f(d.files[j]).Some? {
      ContainsEmpty(Lower(d.files[j].title));
    }
    FilterMapTotal(d.files, f);
  }

  // ------------------------------------------------------------ import

  /** Importing what was exported restores the store, whatever was there before. */
  lemma ExportImportRoundTrip(d: Data, before: Data)
    ensures ImportData(before, Some(ExportData(d))) == Success(d)
  {
  }

  /** An import that carries only `games` keeps the current files and settings. */
  lemma ImportGamesOnly(d: Data, games: seq<Game>)
    ensures ImportData(d, Some(Payload(GamesArray(games), None, None))) == Success(d.(games := games))
  {
  }

  // ------------------------------------------------------------ a session

  /** A game, a character, a category and one note, created in that order. */
  function ComboSession(): (r: Result<Data>)
  {
    var d1 := CreateGame(InitialData(), "g1", "SF6", "t0");
    var d2 :- CreateCharacter(d1, "g1", "Ryu", "c1", "t0");
    var d3 :- CreateCategory(d2, "c1", "Combos", "k1", "t0");
    CreateFile(d3, "k1", "BnB", "5 hits", "f1", "t0")
  }

  function SessionTree(chars: seq<Character>): Data {
    Data([Game("g1", "SF6", chars, "t0", "t0")], [], DefaultSettings)
  }

  function Ryu(cats: seq<Category>): Character {
    Character("c1", "Ryu", "g1", cats, "t0", "t0")
  }

  function Combos(files: seq<Id>): Category {
    Category("k1", "Combos", "c1", files, "t0", "t0")
  }

  const BnB := File("f1", "BnB", "5 hits", "k1", "t0", "t0")

  /** The store the session ends with. */
  function SessionEnd(): Data {
    SessionTree([Ryu([Combos(["f1"])])]).(files := [BnB])
  }

  lemma SessionCharacterStep()
    ensures CreateCharacter(SessionTree([]), "g1", "Ryu", "c1", "t0") == Success(SessionTree([Ryu([])]))
  {
    assert GameIndex(SessionTree([]), "g1") == Some(0);
    var c2 := [] + [Character("c1", "Ryu", "g1", [], "t0", "t0")];
    assert c2 == [Ryu([])];
    var g1 := SessionTree([]).games[0];
    assert SessionTree([]).games[0 := g1.(characters := c2, lastModified := "t0")] == SessionTree([Ryu([])]).games;
  }

  lemma SessionCategoryStep()
    ensures CreateCategory(SessionTree([Ryu([])]), "c1", "Combos", "k1", "t0") == Success(SessionTree([Ryu([Combos([])])]))
  {
    var d2 := SessionTree([Ryu([])]);
    assert d2.games[0].characters[0].id == "c1";
    assert FindCharacter(d2.games, "c1") == Some((0, 0));
    var k3 := [] + [Category("k1", "Combos", "c1", [], "t0", "t0")];
    assert k3 == [Combos([])];
    var ch := d2.games[0].characters[0].(categories := k3, lastModified := "t0");
    assert ch == Ryu([Combos([])]);
    assert d2.games[0].characters[0 := ch] == [Ryu([Combos([])])];
    assert d2.games[0 := d2.games[0].(characters := d2.games[0].characters[0 := ch], lastModified := "t0")]
      == SessionTree([Ryu([Combos([])])]).games;
  }

  lemma SessionFileStep()
    ensures CreateFile(SessionTree([Ryu([Combos([])])]), "k1", "BnB", "5 hits", "f1", "t0") == Success(SessionEnd())
  {
    var d3 := SessionTree([Ryu([Combos([])])]);
    assert CatAt(d3.games, Loc(0, 0, 0)).id == "k1";
    assert FindCategory(d3.games, (c: Category) => c.id == "k1") == Some(Loc(0, 0, 0));
    var cat := Combos([]).(files := [] + ["f1"], lastModified := "t0");
    assert cat == Combos(["f1"]);
    var ch := d3.games[0].characters[0];
    assert ch.categories[0 := cat] == [cat];
    var ch' := ch.(categories := [cat], lastModified := "t0");
    assert ch' == Ryu([Combos(["f1"])]);
    assert d3.games[0].characters[0 := ch'] == [ch'];
    assert WithCategory(d3.games, Loc(0, 0, 0), cat, "t0") == SessionEnd().games;
    assert d3.files + [BnB] == [BnB];
  }

  lemma SessionEndFinds()
    ensures GetFile(SessionEnd(), "f1") == Some(BnB)
  {
    assert FileIndex(SessionEnd(), "f1") == Some(0);
  }

  lemma SessionEndLists()
    ensures FindCategory(SessionEnd().games, c => Lists("f1", c)) == Some(Loc(0, 0, 0))
  {
    assert CatAt(SessionEnd().games, Loc(0, 0, 0)).files == ["f1"];
  }

  lemma SessionEndPath()
    ensures GetFilePath(SessionEnd(), "f1") == "SF6 > Ryu > Combos"
  {
    SessionEndFinds();
    SessionEndLists();
  }

  lemma SessionTitleMatches()
    ensures Matches("BnB", "bnb")
  {
    assert Lower("BnB") == "bnb";
    assert OccursAt(Lower("BnB"), Lower("bnb"), 0);
  }

  lemma SessionEndHit()
    ensures HitFor(SessionEnd(), BnB, "bnb") == Some(SearchHit("f1", "BnB", "SF6 > Ryu > Combos", TitleMatch))
  {
    SessionEndPath();
    SessionTitleMatches();
  }

  lemma SessionEndSearch()
    ensures SearchFiles(SessionEnd(), "bnb") == [SearchHit("f1", "BnB", "SF6 > Ryu > Combos", TitleMatch)]
  {
    SessionEndHit();
    assert SessionEnd().files == [BnB];
  }

  /** The session succeeds and is counted as one of everything, with six
      characters of content. */
  lemma ComboSessionFacts()
    ensures ComboSession() == Success(SessionEnd())
    ensures GetStatistics(SessionEnd()) == Statistics(1, 1, 1, 6)
  {
    assert CreateGame(InitialData(), "g1", "SF6", "t0") == SessionTree([]);
    SessionCharacterStep();
    SessionCategoryStep();
    SessionFileStep();
    SessionStatistics();
  }

  lemma SessionStatistics()
    ensures GetStatistics(SessionEnd()) == Statistics(1, 1, 1, 6)
  {
    var d := SessionEnd();
    assert SumOf(d.games, CharacterCount) == 1;
    assert SumOf(d.files, ContentLength) == 6;
  }
}

=== FILE: strings.dfy ===
/** The JavaScript string primitives the application code relies on
    (`split`, `join`, `trim`, `startsWith`, `endsWith`, `includes`,
    `toLowerCase`, a literal global `replace`, and number-to-string),
    each defined once over `seq<char>` and each paired with the property
    that the callers depend on. */
module Strings {

  /** The characters `String.prototype.trim` removes: the ECMAScript
      WhiteSpace and LineTerminator code points. */
  predicate IsWhitespace(c: char) {
    || c == '\t' || c == '\n' || c == '\U{000B}' || c == '\U{000C}' || c == '\r'
    || c == ' ' || c == '\U{00A0}' || c == '\U{1680}'
    || ('\U{2000}' <= c <= '\U{200A}')
    || c == '\U{2028}' || c == '\U{2029}' || c == '\U{202F}' || c == '\U{205F}'
    || c == '\U{3000}' || c == '\U{FEFF}'
  }

  /** No whitespace at either end: what `trim` leaves untouched. */
  predicate Trimmed(s: string) {
    |s| == 0 || (!IsWhitespace(s[0]) && !IsWhitespace(s[|s| - 1]))
  }

  predicate AllWhitespace(s: string) {
    forall i :: 0 <= i < |s| ==> IsWhitespace(s[i])
  }

  /** Leading whitespace removed. */
  function TrimStart(s: string): (r: string)
    ensures |r| <= |s| && r == s[|s| - |r|..]
    ensures |r| == 0 || !IsWhitespace(r[0])
    ensures AllWhitespace(s[..|s| - |r|])
    decreases |s|
  {
    if |s| > 0 && IsWhitespace(s[0]) then TrimStart(s[1..]) else s
  }

  /** Trailing whitespace removed. */
  function TrimEnd(s: string): (r: string)
    ensures |r| <= |s| && r == s[..|r|]
    ensures |r| == 0 || !IsWhitespace(r[|r| - 1])
    ensures AllWhitespace(s[|r|..])
    decreases |s|
  {
    if |s| > 0 && IsWhitespace(s[|s| - 1]) then TrimEnd(s[..|s| - 1]) else s
  }

  /** `s.trim()`. */
  function Trim(s: string): (r: string)
    ensures Trimmed(r)
  {
    TrimEnd(TrimStart(s))
  }

  /** `trim` is the identity exactly on strings without surrounding whitespace. */
  lemma TrimIdentity(s: string)
    ensures Trim(s) == s <==> Trimmed(s)
  {
    if Trimmed(s) && |s| > 0 {
      assert TrimStart(s) == s;
      assert TrimEnd(s) == s;
    }
  }

  /** A string that is blank after trimming consists of whitespace only. */
  lemma TrimEmpty(s: string)
    ensures Trim(s) == [] <==> AllWhitespace(s)
  {
  }

  /** A single space on each side of a trimmed string is exactly what `trim` strips. */
  lemma {:induction false} TrimPadded(x: string)
    requires Trimmed(x)
    ensures Trim([' '] + x + [' ']) == x
  {
    var s := [' '] + x + [' '];
    assert TrimStart(s) == TrimStart(x + [' ']) by { assert s[1..] == x + [' ']; }
    if |x| == 0 {
      assert TrimStart([' ']) == [] by { assert [' '][1..] == []; }
    } else {
      assert TrimStart(x + [' ']) == x + [' '];
      assert TrimEnd(x + [' ']) == TrimEnd(x) by { assert (x + [' '])[..|x|] == x; }
      assert TrimEnd(x) == x;
    }
  }

  predicate StartsWith(s: string, prefix: string) {
    |prefix| <= |s| && s[..|prefix|] == prefix
  }

  predicate EndsWith(s: string, suffix: string) {
    |suffix| <= |s| && s[|s| - |suffix|..] == suffix
  }

  lemma EndsWithAppend(s: string, suffix: string)
    ensures EndsWith(s + suffix, suffix)
  {
    assert (s + suffix)[|s|..] == suffix;
  }

  /** Appending the same text to both sides keeps whether one ends the other. */
  lemma EndsWithBoth(s: string, a: string, b: string)
    ensures EndsWith(s + b, a + b) <==> EndsWith(s, a)
  {
    if |a| <= |s| {
      var t := s[|s| - |a|..];
      assert (s + b)[|s + b| - |a + b|..] == t + b;
      if t + b == a + b {
        assert t == (t + b)[..|a|] == (a + b)[..|a|] == a;
      }
    }
  }

  /** `s.includes(p)`: `p` occurs somewhere in `s`. */
  predicate Contains(s: string, p: string) {
    exists i :: 0 <= i <= |s| - |p| && OccursAt(s, p, i)
  }

  predicate OccursAt(s: string, p: string, i: int) {
    0 <= i <= |s| - |p| && s[i..i + |p|] == p
  }

  lemma ContainsEmpty(s: string)
    ensures Contains(s, "")
  {
    assert OccursAt(s, "", 0);
  }

  /** An occurrence of `p` in `a` remains one in `a + b` and in `b + a`. */
  lemma ContainsAppend(a: string, b: string, p: string)
    requires Contains(a, p)
    ensures Contains(a + b, p) && Contains(b + a, p)
  {
    var i :| 0 <= i <= |a| - |p| && OccursAt(a, p, i);
    assert (a + b)[i..i + |p|] == p;
    assert OccursAt(a + b, p, i);
    assert (b + a)[|b| + i..|b| + i + |p|] == p;
    assert OccursAt(b + a, p, |b| + i);
  }

  /** `toLowerCase` on one character (ASCII letters only). */
  function LowerChar(c: char): char {
    if 'A' <= c <= 'Z' then (c as int + 32) as char else c
  }

  /** `s.toLowerCase()`. */
  function Lower(s: string): (r: string)
    ensures |r| == |s|
    ensures forall i :: 0 <= i < |s| ==> r[i] == LowerChar(s[i])
  {
    seq(|s|, i requires 0 <= i < |s| => LowerChar(s[i]))
  }

  /** Lower-casing is idempotent. */
  lemma LowerIdempotent(s: string)
    ensures Lower(Lower(s)) == Lower(s)
  {
  }

  /** The case-insensitive substring test shared by every search in the application:
      `text.toLowerCase().includes(query.toLowerCase())`. */
  predicate Matches(text: string, query: string) {
    Contains(Lower(text), Lower(query))
  }

  /** `s.split(sep)` with a one-character separator. */
  function Split(s: string, sep: char): (parts: seq<string>)
    ensures |parts| >= 1
    ensures forall i :: 0 <= i < |parts| ==> sep !in parts[i]
    decreases |s|
  {
    if |s| == 0 then [""]
    else
      var rest := Split(s[1..], sep);
      if s[0] == sep then [""] + rest
      else [[s[0]] + rest[0]] + rest[1..]
  }

  /** `parts.join(sep)`. */
  function Join(parts: seq<string>, sep: string): (r: string)
    decreases |parts|
  {
    if |parts| == 0 then ""
    else if |parts| == 1 then parts[0]
    else parts[0] + sep + Join(parts[1..], sep)
  }

  /** A string without the separator splits into itself. */
  lemma {:induction false} SplitNoSeparator(a: string, sep: char)
    requires sep !in a
    ensures Split(a, sep) == [a]
    decreases |a|
  {
    if |a| > 0 {
      assert sep !in a[1..];
      SplitNoSeparator(a[1..], sep);
      assert [a[0]] + a[1..] == a;
    }
  }

  /** Splitting peels off the text before the first separator. */
  lemma {:induction false} SplitAppend(a: string, sep: char, b: string)
    requires sep !in a
    ensures Split(a + [sep] + b, sep) == [a] + Split(b, sep)
    decreases |a|
  {
    var s := a + [sep] + b;
    if |a| == 0 {
      assert s[1..] == b;
    } else {
      assert s[1..] == a[1..] + [sep] + b;
      assert sep !in a[1..];
      SplitAppend(a[1..], sep, b);
      assert [a[0]] + a[1..] == a;
    }
  }

  /** `split` and `join` with the same separator are inverse: nothing is lost. */
  lemma {:induction false} JoinSplit(s: string, sep: char)
    ensures Join(Split(s, sep), [sep]) == s
    decreases |s|
  {
    if |s| > 0 {
      var rest := Split(s[1..], sep);
      JoinSplit(s[1..], sep);
      if s[0] == sep {
        assert Split(s, sep) == [""] + rest;
        assert ([""] + rest)[1..] == rest;
        assert Join([""] + rest, [sep]) == "" + [sep] + Join(rest, [sep]);
        assert s == [s[0]] + s[1..];
      } else {
        var parts := Split(s, sep);
        assert parts == [[s[0]] + rest[0]] + rest[1..];
        if |rest| == 1 {
          assert Join(parts, [sep]) == [s[0]] + rest[0];
        } else {
          assert parts[1..] == rest[1..];
          assert Join(rest, [sep]) == rest[0] + [sep] + Join(rest[1..], [sep]);
        }
        assert s == [s[0]] + s[1..];
      }
    }
  }

  /** Replace every occurrence of the literal `pat`, scanning left to right
      without overlaps: `s.replace(/pat/g, rep)` for a pattern without
      metacharacters. */
  function ReplaceAll(s: string, pat: string, rep: string): (r: string)
    requires |pat| > 0
    decreases |s|
  {
    if |s| < |pat| then s
    else if s[..|pat|] == pat then rep + ReplaceAll(s[|pat|..], pat, rep)
    else [s[0]] + ReplaceAll(s[1..], pat, rep)
  }

  /** Replacing every occurrence of a single character by text without that
      character leaves none of it behind. */
  lemma {:induction false} ReplaceCharRemovesIt(s: string, c: char, rep: string)
    requires c !in rep
    ensures c !in ReplaceAll(s, [c], rep)
    decreases |s|
  {
    if |s| >= 1 {
      if s[..1] == [c] {
        ReplaceCharRemovesIt(s[1..], c, rep);
      } else {
        assert s[0] != c by { assert s[..1] == [s[0]]; }
        ReplaceCharRemovesIt(s[1..], c, rep);
      }
    }
  }

  /** The decimal digit for 0..9. */
  function DigitChar(d: nat): char
    requires d < 10
  {
    ('0' as int + d) as char
  }

  /** `String(n)` for a non-negative integer. */
  function NatToString(n: nat): (r: string)
    ensures |r| >= 1
    ensures n >= 10 <==> |r| >= 2
    ensures forall i :: 0 <= i < |r| ==> '0' <= r[i] <= '9'
    decreases n
  {
    if n < 10 then [DigitChar(n)] else NatToString(n / 10) + [DigitChar(n % 10)]
  }

  /** Distinct numbers print differently. */
  lemma {:induction false} NatToStringInjective(a: nat, b: nat)
    requires NatToString(a) == NatToString(b)
    ensures a == b
    decreases a
  {
    var sa, sb := NatToString(a), NatToString(b);
    if a >= 10 && b >= 10 {
      assert sa[|sa| - 1] == DigitChar(a % 10) && sb[|sb| - 1] == DigitChar(b % 10);
      assert a % 10 == b % 10;
      assert sa[..|sa| - 1] == NatToString(a / 10);
      assert sb[..|sb| - 1] == NatToString(b / 10);
      NatToStringInjective(a / 10, b / 10);
    }
  }

  // ---------------------------------------------------------------- length

  /** `s.length` in JavaScript: the number of UTF-16 code units, where a
      character outside the Basic Multilingual Plane takes two. */
  function Utf16Length(s: string): (n: nat)
    ensures |s| <= n <= 2 * |s|
    ensures n == |s| <==> forall i :: 0 <= i < |s| ==> (s[i] as int) < 0x1_0000
    decreases |s|
  {
    if |s| == 0 then 0
    else
      var rest := Utf16Length(s[1..]);
      assert rest == |s[1..]| <==> forall i :: 1 <= i < |s| ==> (s[i] as int) < 0x1_0000 by {
        forall i | 1 <= i < |s| ensures s[1..][i - 1] == s[i] { }
      }
      (if (s[0] as int) < 0x1_0000 then 1 else 2) + rest
  }

  /** Lengths add up over concatenation, as `(a + b).length` does. */
  lemma {:induction false} Utf16LengthAppend(a: string, b: string)
    ensures Utf16Length(a + b) == Utf16Length(a) + Utf16Length(b)
    decreases |a|
  {
    if |a| > 0 {
      assert (a + b)[1..] == a[1..] + b;
      Utf16LengthAppend(a[1..], b);
    } else {
      assert a + b == b;
    }
  }

  /** One emoji is two code units. */
  lemma Utf16LengthOfEmoji()
    ensures Utf16Length("\U{1F525}") == 2
  {
  }
}

=== FILE: table.dfy ===
/** The table editor of the single-file build: a grid of cell strings kept
    in a note as a Markdown table, one `| a | b |` line per row, with a
    `| --- | --- |` line after the header. Files whose name ends in
    `.table.md` open in this editor. */
module Table {
  import opened Wrappers
  import opened Strings
  import opened Seqs

  /** Rows of cells. A JavaScript hole in a row is modelled as `""`: `join`
      and the editor's `|| ''` read it that way, but the separator line's
      `map` skips it, so a header with holes is written with fewer `---`
      cells than the model writes. */
  type Table = seq<seq<string>>

  /** The grid the editor falls back on when the content holds no table line. */
  function DefaultTable(): (t: Table)
    ensures |t| == 3 && forall i :: 0 <= i < 3 ==> |t[i]| == 3
  {
    [["列1", "列2", "列3"], ["", "", ""], ["", "", ""]]
  }

  // ---------------------------------------------------------------- writing

  /** `'| ' + row.join(' | ') + ' |'`. */
  function RowLine(row: seq<string>): string {
    "| " + Join(row, " | ") + " |"
  }

  /** One `---` per header cell. */
  function Dashes(n: nat): (r: seq<string>)
    ensures |r| == n && forall i :: 0 <= i < n ==> r[i] == "---"
  {
    seq(n, _ => "---")
  }

  /** The data rows from `i` on, each followed by a line break. */
  function BodyFrom(t: Table, i: nat): string
    requires i <= |t|
    decreases |t| - i
  {
    if i == |t| then "" else RowLine(t[i]) + "\n" + BodyFrom(t, i + 1)
  }

  /** `getContent()`: empty for an empty grid, else header, separator, data rows. */
  function GetContent(t: Table): (s: string)
    ensures |t| == 0 <==> s == ""
  {
    if |t| == 0 then ""
    else RowLine(t[0]) + "\n" + RowLine(Dashes(|t[0]|)) + "\n" + BodyFrom(t, 1)
  }

  // ---------------------------------------------------------------- reading

  /** `parts.slice(1, -1)`. */
  function Inner(parts: seq<string>): (r: seq<string>)
    ensures |parts| >= 2 ==> r == parts[1..|parts| - 1]
    ensures |parts| < 2 ==> r == []
  {
    if |parts| < 2 then [] else parts[1..|parts| - 1]
  }

  /** `line.split('|').slice(1, -1).map(cell => cell.trim())`. */
  function CellsOf(line: string): (cells: seq<string>)
    ensures |cells| == |Inner(Split(line, '|'))|
    ensures forall i :: 0 <= i < |cells| ==> cells[i] == Trim(Inner(Split(line, '|'))[i])
  {
    var parts := Inner(Split(line, '|'));
    seq(|parts|, i requires 0 <= i < |parts| => Trim(parts[i]))
  }

  /** What one line of content contributes: a row for a table line (after
      trimming, it starts with `|`) unless it is a separator (it contains `---`). */
  function RowOf(line: string): (r: Option<seq<string>>)
    ensures r.Some? <==> StartsWith(Trim(line), "|") && !Contains(Trim(line), "---")
    ensures r.Some? ==> r.value == CellsOf(Trim(line))
  {
    var l := Trim(line);
    if StartsWith(l, "|") && !Contains(l, "---") then Some(CellsOf(l)) else None
  }

  /** `parseTableContent(content)`: the rows of every table line, or the
      default grid when there are none. */
  function ParseTableContent(content: string): (t: Table)
    ensures |t| >= 1
    ensures FilterMap(Split(content, '\n'), RowOf) == [] ==> t == DefaultTable()
  {
    var rows := FilterMap(Split(content, '\n'), RowOf);
    if |rows| == 0 then DefaultTable() else rows
  }

  // ---------------------------------------------------------------- editing

  /** `updateCell(row, col, value)`: only rows that exist change; a column past
      the end leaves holes before it, modelled as empty cells; a negative column sets a property
      `join` never reads, so the grid is unchanged. */
  function UpdateCell(t: Table, row: int, col: int, value: string): (r: Table)
    ensures |r| == |t|
    ensures !(0 <= row < |t|) || col < 0 ==> r == t
    ensures 0 <= row < |t| && col >= 0 ==>
      && (forall i :: 0 <= i < |t| && i != row ==> r[i] == t[i])
      && |r[row]| == (if col < |t[row]| then |t[row]| else col + 1)
      && r[row][col] == value
      && (forall j :: 0 <= j < |r[row]| && j != col ==> r[row][j] == (if j < |t[row]| then t[row][j] else ""))
  {
    if !(0 <= row < |t|) || col < 0 then t
    else
      var old_ := t[row];
      var padded := if col < |old_| then old_ else old_ + seq(col + 1 - |old_|, _ => "");
      t[row := padded[col := value]]
  }

  /** `addRow()`: a row of empty cells as wide as the header, or three wide. */
  function AddRow(t: Table): (r: Table)
    ensures |r| == |t| + 1 && r[..|t|] == t
    ensures |r[|t|]| == (if |t| > 0 then |t[0]| else 3)
    ensures forall j :: 0 <= j < |r[|t|]| ==> r[|t|][j] == ""
  {
    var cols := if |t| > 0 then |t[0]| else 3;
    t + [seq(cols, _ => "")]
  }

  /** `addColumn()`: an empty cell at the end of every row. */
  function AddColumn(t: Table): (r: Table)
    ensures |r| == |t|
    ensures forall i :: 0 <= i < |t| ==> r[i] == t[i] + [""]
  {
    seq(|t|, i requires 0 <= i < |t| => t[i] + [""])
  }

  /** `removeRow()`: the last row goes, unless it is the only one. */
  function RemoveRow(t: Table): (r: Table)
    ensures |t| > 1 ==> r == t[..|t| - 1]
    ensures |t| <= 1 ==> r == t
  {
    if |t| > 1 then t[..|t| - 1] else t
  }

  /** `row.pop()`: an empty row stays empty. */
  function Pop(row: seq<string>): (r: seq<string>)
    ensures |row| > 0 ==> r == row[..|row| - 1]
    ensures |row| == 0 ==> r == row
  {
    if |row| > 0 then row[..|row| - 1] else row
  }

  /** `removeColumn()`: every row loses its last cell, but only when the header has more than one. */
  function RemoveColumn(t: Table): (r: Table)
    ensures |r| == |t|
    ensures |t| > 0 && |t[0]| > 1 ==> forall i :: 0 <= i < |t| ==> r[i] == Pop(t[i])
    ensures !(|t| > 0 && |t[0]| > 1) ==> r == t
  {
    if |t| > 0 && |t[0]| > 1 then seq(|t|, i requires 0 <= i < |t| => Pop(t[i])) else t
  }

  // ---------------------------------------------------------------- new tables

  /** `` `列${i + 1}` `` for each of `cols` columns. */
  function HeaderCells(cols: nat): (r: seq<string>)
    ensures |r| == cols && forall i :: 0 <= i < cols ==> r[i] == "列" + NatToString(i + 1)
  {
    seq(cols, i requires 0 <= i < cols => "列" + NatToString(i + 1))
  }

  /** The grid `createInitialTableContent(rows, cols)` writes: a numbered header
      and `rows - 1` empty rows (none when `rows` is below 2). */
  function InitialTable(rows: int, cols: nat): (t: Table)
    ensures |t| == if rows < 1 then 1 else rows
    ensures t[0] == HeaderCells(cols)
    ensures forall i :: 1 <= i < |t| ==> t[i] == seq(cols, _ => "")
  {
    var n := if rows < 1 then 1 else rows;
    seq(n, i requires 0 <= i < n => if i == 0 then HeaderCells(cols) else seq(cols, _ => ""))
  }

  /** The largest length `Array(n)` accepts. */
  const MaxArrayLength: int := 0xFFFF_FFFF

  /** `count` lines of `cols` empty cells, as the loop `for (i = 1; i < rows; i++)` writes them. */
  function BlankLines(count: nat, cols: nat): (s: string)
    ensures count == 0 <==> s == ""
  {
    if count == 0 then "" else RowLine(seq(cols, _ => "")) + "\n" + BlankLines(count - 1, cols)
  }

  /** `createInitialTableContent(rows, cols)`: a numbered header line, a
      separator line and `rows - 1` blank lines. `Array(cols)` throws a
      `RangeError` for a length that is negative or too large. */
  function CreateInitialTableContent(rows: int, cols: int): (r: Result<string>)
    ensures r.Failure? <==> cols < 0 || cols > MaxArrayLength
    ensures r.Failure? ==> r.error == RangeError
  {
    if cols < 0 || cols > MaxArrayLength then Failure(RangeError)
    else
      Success(RowLine(HeaderCells(cols)) + "\n"
        + RowLine(Dashes(cols)) + "\n"
        + BlankLines(if rows > 1 then rows - 1 else 0, cols))
  }

  /** `parseInt(field.value) || 3`: `None` is `NaN`; zero is falsy too. */
  function DialogSize(parsed: Option<int>): (n: int)
    ensures n != 0
    ensures parsed.Some? && parsed.value != 0 ==> n == parsed.value
    ensures parsed.None? || parsed.value == 0 ==> n == 3
  {
    match parsed
    case Some(v) => if v == 0 then 3 else v
    case None => 3
  }

  /** The choice made in the new-file dialog's template list. */
  datatype TemplateChoice =
    | NoTemplate                                    // the empty option
    | Custom(rows: Option<int>, cols: Option<int>)  // the parsed size fields
    | Predefined(content: string)                   // a stored template's text
    | TemplatesUnavailable                          // loading the list threw

  /** The 3 by 3 grid every fallback path writes. */
  function DefaultContent(): string {
    CreateInitialTableContent(3, 3).Extract()
  }

  /** `createTableContentFromTemplate()`: never fails, because a size that makes
      `Array` throw is caught and replaced by the default 3 by 3 grid. A
      stored template's text is used as it is. */
  function TableContentFromTemplate(choice: TemplateChoice): (s: string)
    ensures choice.Predefined? && choice.content != "" ==> s == choice.content
  {
    match choice
    case NoTemplate => DefaultContent()
    case TemplatesUnavailable => DefaultContent()
    case Predefined(c) => if c != "" then c else DefaultContent()
    case Custom(r, c) =>
      match CreateInitialTableContent(DialogSize(r), DialogSize(c))
      case Success(s) => s
      case Failure(_) => DefaultContent()
  }

  // ---------------------------------------------------------------- file names

  const TableSuffix := ".table.md"
  const NoteSuffix := ".md"

  datatype FileKind = TableFile | NoteFile

  /** The name-completion rule of the new-file dialog: add the kind's suffix unless present. */
  function FinalFileName(name: string, kind: FileKind): (r: string)
    ensures kind == TableFile ==> EndsWith(r, TableSuffix)
    ensures EndsWith(r, NoteSuffix)
    ensures kind == TableFile ==> r == if EndsWith(name, TableSuffix) then name else name + TableSuffix
    ensures kind == NoteFile ==> r == if EndsWith(name, NoteSuffix) then name else name + NoteSuffix
  {
    EndsWithAppend(name, TableSuffix);
    EndsWithAppend(name, NoteSuffix);
    match kind
    case TableFile =>
      var r := if EndsWith(name, TableSuffix) then name else name + TableSuffix;
      assert EndsWith(r, NoteSuffix) by { TableSuffixIsNote(r); }
      r
    case NoteFile => if EndsWith(name, NoteSuffix) then name else name + NoteSuffix
  }

  /** A `.table.md` name is also a `.md` name. */
  lemma TableSuffixIsNote(s: string)
    requires EndsWith(s, TableSuffix)
    ensures EndsWith(s, NoteSuffix)
  {
    assert s[|s| - 3..] == s[|s| - 9..][6..];
  }

  /** `openFile` routes on the name alone. */
  predicate OpensInTableEditor(name: string) {
    EndsWith(name, TableSuffix)
  }
}

=== FILE: table_facts.dfy ===
/** What the table editor's reader and writer promise each other: a grid
    whose cells are plain text (no `|`, no line break, no `---`, no
    surrounding whitespace) and whose rows are not empty is read back from
    its own Markdown exactly; the grid operations undo one another; and a
    new table's content reads back as the grid it describes. */
module TableFacts {
  import opened Wrappers
  import opened Strings
  import opened Seqs
  import opened Table

  // ---------------------------------------------------------------- cells

  /** No three dashes in a row: the text never looks like a separator. */
  predicate NoDashRun(s: string) {
    forall i :: 0 <= i && i + 2 < |s| ==> !(s[i] == '-' && s[i + 1] == '-' && s[i + 2] == '-')
  }

  /** Text the Markdown form carries through unchanged. */
  predicate CellOk(c: string) {
    '|' !in c && '\n' !in c && NoDashRun(c) && Trimmed(c)
  }

  /** A grid `getContent` and `parseTableContent` agree on. */
  predicate WellFormed(t: Table) {
    && |t| >= 1
    && (forall i :: 0 <= i < |t| ==> |t[i]| >= 1)
    && (forall i, j :: 0 <= i < |t| && 0 <= j < |t[i]| ==> CellOk(t[i][j]))
  }

  lemma NoDashRunNotContains(s: string)
    requires NoDashRun(s)
    ensures !Contains(s, "---")
  {
    forall i | 0 <= i <= |s| - 3 ensures !OccursAt(s, "---", i) {
      var w := s[i..i + 3];
      assert w[0] == s[i] && w[1] == s[i + 1] && w[2] == s[i + 2];
    }
  }

  /** A separator without dashes between two dash-free-run texts creates no run. */
  lemma NoDashRunConcat(a: string, sep: string, b: string)
    requires NoDashRun(a) && NoDashRun(b) && |sep| >= 1 && '-' !in sep
    ensures NoDashRun(a + sep + b)
  {
    var s := a + sep + b;
    forall i | 0 <= i && i + 2 < |s| ensures !(s[i] == '-' && s[i + 1] == '-' && s[i + 2] == '-') {
      if i + 2 < |a| {
        assert s[i] == a[i] && s[i + 1] == a[i + 1] && s[i + 2] == a[i + 2];
      } else if i >= |a| + |sep| {
        var j := i - |a| - |sep|;
        assert s[i] == b[j] && s[i + 1] == b[j + 1] && s[i + 2] == b[j + 2];
      } else {
        var k :| i <= k <= i + 2 && |a| <= k < |a| + |sep|;
        assert s[k] == sep[k - |a|];
      }
    }
  }

  lemma {:induction false} JoinNoDashRun(row: seq<string>, sep: string)
    requires |sep| >= 1 && '-' !in sep
    requires forall j :: 0 <= j < |row| ==> NoDashRun(row[j])
    ensures NoDashRun(Join(row, sep))
    decreases |row|
  {
    if |row| > 1 {
      JoinNoDashRun(row[1..], sep);
      NoDashRunConcat(row[0], sep, Join(row[1..], sep));
    }
  }

  lemma {:induction false} JoinExcludes(row: seq<string>, sep: string, c: char)
    requires c !in sep
    requires forall j :: 0 <= j < |row| ==> c !in row[j]
    ensures c !in Join(row, sep)
    decreases |row|
  {
    if |row| > 1 {
      JoinExcludes(row[1..], sep, c);
    }
  }

  // ---------------------------------------------------------------- one line

  /** Each cell between bars with one space either side, as the writer lays it out. */
  function PadCells(row: seq<string>): string
    decreases |row|
  {
    if |row| == 0 then "" else " " + row[0] + " " + "|" + PadCells(row[1..])
  }

  lemma {:induction false} PadCellsJoin(row: seq<string>)
    requires |row| >= 1
    ensures " " + Join(row, " | ") + " |" == PadCells(row)
    decreases |row|
  {
    if |row| > 1 {
      PadCellsJoin(row[1..]);
      assert Join(row, " | ") == row[0] + " | " + Join(row[1..], " | ");
    } else {
      assert PadCells(row[1..]) == "";
    }
  }

  lemma {:induction false} SplitPadCells(row: seq<string>)
    requires forall j :: 0 <= j < |row| ==> '|' !in row[j]
    ensures Split(PadCells(row), '|') == seq(|row|, j requires 0 <= j < |row| => " " + row[j] + " ") + [""]
    decreases |row|
  {
    if |row| > 0 {
      var cell := " " + row[0] + " ";
      assert '|' !in cell;
      assert PadCells(row) == cell + ['|'] + PadCells(row[1..]);
      SplitAppend(cell, '|', PadCells(row[1..]));
      SplitPadCells(row[1..]);
    }
  }

  /** A row line splits at its bars into the padded cells and two empty ends. */
  lemma RowLineSplit(row: seq<string>)
    requires |row| >= 1 && forall j :: 0 <= j < |row| ==> '|' !in row[j]
    ensures Split(RowLine(row), '|') == [""] + seq(|row|, j requires 0 <= j < |row| => " " + row[j] + " ") + [""]
  {
    PadCellsJoin(row);
    assert RowLine(row) == "" + ['|'] + PadCells(row);
    SplitAppend("", '|', PadCells(row));
    SplitPadCells(row);
  }

  /** A line that begins and ends with a bar is kept unless it holds `---`. */
  lemma RowOfBarLine(line: string)
    requires |line| >= 1 && line[0] == '|' && line[|line| - 1] == '|'
    ensures RowOf(line) == if Contains(line, "---") then None else Some(CellsOf(line))
  {
    TrimIdentity(line);
    assert StartsWith(line, "|");
  }

  lemma RowLineBars(row: seq<string>)
    ensures |RowLine(row)| >= 1 && RowLine(row)[0] == '|' && RowLine(row)[|RowLine(row)| - 1] == '|'
  {
  }

  lemma RowLineNoDashRun(row: seq<string>)
    requires forall j :: 0 <= j < |row| ==> NoDashRun(row[j])
    ensures !Contains(RowLine(row), "---")
  {
    var inner := Join(row, " | ");
    JoinNoDashRun(row, " | ");
    NoDashRunConcat("", "| ", inner);
    assert "" + "| " + inner == "| " + inner;
    NoDashRunConcat("| " + inner, " |", "");
    assert "| " + inner + " |" + "" == RowLine(row);
    NoDashRunNotContains(RowLine(row));
  }

  lemma RowLineCells(row: seq<string>)
    requires |row| >= 1 && forall j :: 0 <= j < |row| ==> CellOk(row[j])
    ensures CellsOf(RowLine(row)) == row
  {
    var line := RowLine(row);
    RowLineSplit(row);
    var pads := seq(|row|, j requires 0 <= j < |row| => " " + row[j] + " ");
    assert Inner(Split(line, '|')) == pads by {
      assert Split(line, '|') == [""] + pads + [""];
      assert ([""] + pads + [""])[1..|pads| + 1] == pads;
    }
    forall j | 0 <= j < |row| ensures CellsOf(line)[j] == row[j] {
      TrimPadded(row[j]);
      assert pads[j] == [' '] + row[j] + [' '];
    }
  }

  /** A row line of plain cells reads back as that row. */
  lemma RowLineRead(row: seq<string>)
    requires |row| >= 1 && forall j :: 0 <= j < |row| ==> CellOk(row[j])
    ensures RowOf(RowLine(row)) == Some(row)
  {
    RowLineBars(row);
    RowOfBarLine(RowLine(row));
    RowLineNoDashRun(row);
    RowLineCells(row);
  }

  lemma RowLineOneLine(row: seq<string>)
    requires forall j :: 0 <= j < |row| ==> '\n' !in row[j]
    ensures '\n' !in RowLine(row)
  {
    JoinExcludes(row, " | ", '\n');
  }

  /** The separator line holds `---` right after its opening bar and space. */
  lemma SeparatorDashes(n: nat)
    requires n >= 1
    ensures Contains(RowLine(Dashes(n)), "---")
  {
    var d := Dashes(n);
    var line := RowLine(d);
    if n == 1 {
      assert Join(d, " | ") == "---";
    } else {
      assert Join(d, " | ") == d[0] + " | " + Join(d[1..], " | ");
    }
    assert line[2..5] == "---";
    assert OccursAt(line, "---", 2);
  }

  /** The separator line is dropped. */
  lemma SeparatorSkipped(n: nat)
    requires n >= 1
    ensures RowOf(RowLine(Dashes(n))) == None
  {
    RowLineBars(Dashes(n));
    RowOfBarLine(RowLine(Dashes(n)));
    SeparatorDashes(n);
  }

  // ---------------------------------------------------------------- whole content

  lemma EmptyLineSkipped()
    ensures FilterMap(Split("", '\n'), RowOf) == []
  {
    assert Trim("") == "";
    assert RowOf("") == None;
    assert Split("", '\n') == [""];
    assert [""][1..] == [];
  }

  lemma FilterMapKeep<T, U>(x: T, s: seq<T>, f: T -> Option<U>, v: U)
    requires f(x) == Some(v)
    ensures FilterMap([x] + s, f) == [v] + FilterMap(s, f)
  {
    assert ([x] + s)[1..] == s;
  }

  lemma FilterMapSkip<T, U>(x: T, s: seq<T>, f: T -> Option<U>)
    requires f(x) == None
    ensures FilterMap([x] + s, f) == FilterMap(s, f)
  {
    assert ([x] + s)[1..] == s;
  }

  lemma FilterMapKeepSkip<T, U>(x: T, y: T, s: seq<T>, f: T -> Option<U>, v: U)
    requires f(x) == Some(v) && f(y) == None
    ensures FilterMap([x, y] + s, f) == [v] + FilterMap(s, f)
  {
    assert [x, y] + s == [x] + ([y] + s);
    FilterMapKeep(x, [y] + s, f, v);
    FilterMapSkip(y, s, f);
  }

  /** One line, a line break, then the rest: the line's value comes first. */
  lemma ReadStep<U>(whole: string, line: string, rest: string, f: string -> Option<U>, v: U, tail: seq<U>, all: seq<U>)
    requires whole == line + ['\n'] + rest && all == [v] + tail
    requires '\n' !in line && f(line) == Some(v)
    requires FilterMap(Split(rest, '\n'), f) == tail
    ensures FilterMap(Split(whole, '\n'), f) == all
  {
    SplitAppend(line, '\n', rest);
    FilterMapKeep(line, Split(rest, '\n'), f, v);
  }

  /** Lines each followed by a line break. */
  function JoinLines(lines: seq<string>): (s: string)
    ensures |lines| == 0 ==> s == ""
    decreases |lines|
  {
    if |lines| == 0 then "" else lines[0] + "\n" + JoinLines(lines[1..])
  }

  /** Lines that each read as a value, written one per line, read back as those values. */
  lemma {:induction false} ReadLines<U>(lines: seq<string>, f: string -> Option<U>, vals: seq<U>)
    requires |lines| == |vals| && f("") == None
    requires forall k :: 0 <= k < |lines| ==> '\n' !in lines[k] && f(lines[k]) == Some(vals[k])
    ensures FilterMap(Split(JoinLines(lines), '\n'), f) == vals
    decreases |lines|
  {
    if |lines| == 0 {
      assert Split("", '\n') == [""];
      assert [""][1..] == [];
    } else {
      forall k | 0 <= k < |lines| - 1 ensures '\n' !in lines[1..][k] && f(lines[1..][k]) == Some(vals[1..][k]) {
        assert lines[1..][k] == lines[k + 1];
      }
      ReadLines(lines[1..], f, vals[1..]);
      assert vals == [vals[0]] + vals[1..];
      ReadStep(JoinLines(lines), lines[0], JoinLines(lines[1..]), f, vals[0], vals[1..], vals);
    }
  }

  /** The lines of the data rows from `i` on. */
  function RowLines(t: Table, i: nat): (lines: seq<string>)
    requires i <= |t|
    ensures |lines| == |t| - i
    ensures forall k :: 0 <= k < |lines| ==> lines[k] == RowLine(t[i + k])
  {
    seq(|t| - i, k requires 0 <= k < |t| - i => RowLine(t[i + k]))
  }

  /** The body is those lines, each followed by a line break. */
  lemma {:induction false} BodyLines(t: Table, i: nat)
    requires i <= |t|
    ensures BodyFrom(t, i) == JoinLines(RowLines(t, i))
    decreases |t| - i
  {
    if i < |t| {
      BodyLines(t, i + 1);
      assert RowLines(t, i)[1..] == RowLines(t, i + 1);
    }
  }

  /** The data rows read back as themselves. */
  lemma BodyRead(t: Table, i: nat)
    requires WellFormed(t) && i <= |t|
    ensures FilterMap(Split(BodyFrom(t, i), '\n'), RowOf) == t[i..]
  {
    BodyLines(t, i);
    var lines := RowLines(t, i);
    forall k | 0 <= k < |lines| ensures '\n' !in lines[k] && RowOf(lines[k]) == Some(t[i..][k]) {
      RowLineRead(t[i + k]);
      RowLineOneLine(t[i + k]);
    }
    assert Trim("") == "";
    assert RowOf("") == None;
    ReadLines(lines, RowOf, t[i..]);
  }

  /** Two lines, each followed by a line break, in front of the rest. */
  lemma SplitTwo(whole: string, a: string, b: string, rest: string)
    requires whole == a + ['\n'] + (b + ['\n'] + rest)
    requires '\n' !in a && '\n' !in b
    ensures Split(whole, '\n') == [a, b] + Split(rest, '\n')
  {
    SplitAppend(a, '\n', b + ['\n'] + rest);
    SplitAppend(b, '\n', rest);
  }

  /** The content's lines: header, separator, then the data rows' lines. */
  lemma ContentLines(t: Table)
    requires WellFormed(t)
    ensures Split(GetContent(t), '\n')
         == [RowLine(t[0]), RowLine(Dashes(|t[0]|))] + Split(BodyFrom(t, 1), '\n')
  {
    RowLineOneLine(t[0]);
    RowLineOneLine(Dashes(|t[0]|));
    assert GetContent(t) == RowLine(t[0]) + ['\n'] + (RowLine(Dashes(|t[0]|)) + ['\n'] + BodyFrom(t, 1));
    SplitTwo(GetContent(t), RowLine(t[0]), RowLine(Dashes(|t[0]|)), BodyFrom(t, 1));
  }

  /** Of those lines, the header and the data rows are kept. */
  lemma LinesRead<T, U>(header: T, sep: T, rest: seq<T>, f: T -> Option<U>, t: seq<U>)
    requires |t| >= 1
    requires f(header) == Some(t[0]) && f(sep) == None
    requires FilterMap(rest, f) == t[1..]
    ensures FilterMap([header, sep] + rest, f) == t
  {
    FilterMapKeepSkip(header, sep, rest, f, t[0]);
    assert [t[0]] + t[1..] == t;
  }

  /** Reading what the writer wrote gives back the grid. */
  lemma ParseGetContent(t: Table)
    requires WellFormed(t)
    ensures ParseTableContent(GetContent(t)) == t
  {
    ContentLines(t);
    RowLineRead(t[0]);
    SeparatorSkipped(|t[0]|);
    BodyRead(t, 1);
    LinesRead(RowLine(t[0]), RowLine(Dashes(|t[0]|)), Split(BodyFrom(t, 1), '\n'), RowOf, t);
  }

  /** Content with no table line at all opens as the default grid. */
  lemma ParseEmpty()
    ensures ParseTableContent("") == DefaultTable()
  {
    EmptyLineSkipped();
  }

  // ---------------------------------------------------------------- editing

  lemma EmptyCellOk()
    ensures CellOk("")
  {
  }

  lemma DashFree(s: string)
    requires '-' !in s
    ensures NoDashRun(s)
  {
    forall i | 0 <= i && i + 2 < |s| ensures s[i] != '-' {
      assert s[i] in s;
    }
  }

  /** Adding a row and removing it again gives back the grid once it has a
      header; on an empty grid the added row stays, because the last row is never removed. */
  lemma RemoveRowUndoesAddRow(t: Table)
    ensures |t| >= 1 ==> RemoveRow(AddRow(t)) == t
    ensures |t| == 0 ==> RemoveRow(AddRow(t)) == [["", "", ""]]
  {
    if |t| == 0 {
      assert AddRow(t)[0] == ["", "", ""];
    }
  }

  /** Adding a column and removing it again gives back the grid, unless the
      header was empty: then the new one-cell header is the last column and stays. */
  lemma RemoveColumnUndoesAddColumn(t: Table)
    ensures |t| == 0 || |t[0]| >= 1 ==> RemoveColumn(AddColumn(t)) == t
    ensures |t| >= 1 && |t[0]| == 0 ==> RemoveColumn(AddColumn(t)) == AddColumn(t)
  {
    if |t| >= 1 && |t[0]| >= 1 {
      var r := RemoveColumn(AddColumn(t));
      forall i | 0 <= i < |t| ensures r[i] == t[i] {
        assert (t[i] + [""])[..|t[i]|] == t[i];
      }
    }
  }

  /** Each grid operation keeps a well-formed grid well-formed, so its content still reads back. */
  lemma AddRowKeepsWellFormed(t: Table)
    requires WellFormed(t)
    ensures WellFormed(AddRow(t))
  {
    EmptyCellOk();
  }

  lemma AddColumnKeepsWellFormed(t: Table)
    requires WellFormed(t)
    ensures WellFormed(AddColumn(t))
  {
    EmptyCellOk();
    var r := AddColumn(t);
    forall i, j | 0 <= i < |r| && 0 <= j < |r[i]| ensures CellOk(r[i][j]) {
      if j < |t[i]| {
        assert r[i][j] == t[i][j];
      }
    }
  }

  lemma RemoveRowKeepsWellFormed(t: Table)
    requires WellFormed(t)
    ensures WellFormed(RemoveRow(t))
  {
  }

  /** Removing a column keeps every row non-empty only while every row has two cells or more. */
  lemma RemoveColumnKeepsWellFormed(t: Table)
    requires WellFormed(t)
    requires forall i :: 0 <= i < |t| ==> |t[i]| >= 2
    ensures WellFormed(RemoveColumn(t))
  {
    var r := RemoveColumn(t);
    forall i, j | 0 <= i < |r| && 0 <= j < |r[i]| ensures CellOk(r[i][j]) {
      assert r[i][j] == t[i][j];
    }
  }

  /** Removing never empties the grid: the last row stays, and so does the
      header's last cell. A shorter row below the header can still lose its last cell. */
  lemma RemovalsKeepMinimum(t: Table)
    ensures |t| >= 1 ==> |RemoveRow(t)| >= 1
    ensures |t| >= 1 && |t[0]| >= 1 ==> |RemoveColumn(t)| == |t| && |RemoveColumn(t)[0]| >= 1
  {
  }

  lemma UpdateCellKeepsWellFormed(t: Table, row: int, col: int, value: string)
    requires WellFormed(t) && CellOk(value)
    ensures WellFormed(UpdateCell(t, row, col, value))
  {
    EmptyCellOk();
    var r := UpdateCell(t, row, col, value);
    forall i, j | 0 <= i < |r| && 0 <= j < |r[i]| ensures CellOk(r[i][j]) {
      if i == row && j != col && j >= |t[i]| {
        assert r[i][j] == "";
      }
    }
  }

  /** An edited cell survives a save and a reopen. */
  lemma UpdateCellReadsBack(t: Table, row: int, col: int, value: string)
    requires WellFormed(t) && CellOk(value)
    ensures ParseTableContent(GetContent(UpdateCell(t, row, col, value))) == UpdateCell(t, row, col, value)
    ensures 0 <= row < |t| && col >= 0 ==> ParseTableContent(GetContent(UpdateCell(t, row, col, value)))[row][col] == value
  {
    UpdateCellKeepsWellFormed(t, row, col, value);
    ParseGetContent(UpdateCell(t, row, col, value));
  }

  // ---------------------------------------------------------------- new tables

  lemma HeaderCellOk(i: nat)
    ensures CellOk("列" + NatToString(i))
  {
    var c := "列" + NatToString(i);
    forall k | 0 <= k < |c| ensures c[k] != '|' && c[k] != '\n' && c[k] != '-' {
      if k > 0 {
        assert c[k] == NatToString(i)[k - 1];
      }
    }
    DashFree(c);
  }

  /** A new table's grid is well-formed once it has a column. */
  lemma InitialTableWellFormed(rows: int, cols: nat)
    requires cols >= 1
    ensures WellFormed(InitialTable(rows, cols))
  {
    var t := InitialTable(rows, cols);
    EmptyCellOk();
    forall i, j | 0 <= i < |t| && 0 <= j < |t[i]| ensures CellOk(t[i][j]) {
      if i == 0 {
        HeaderCellOk(j + 1);
      } else {
        assert t[i][j] == "";
      }
    }
  }

  /** The blank lines are the written form of the blank rows. */
  lemma {:induction false} BlankRowsWritten(rows: int, cols: nat, i: nat)
    requires 1 <= i <= |InitialTable(rows, cols)|
    ensures BodyFrom(InitialTable(rows, cols), i) == BlankLines(|InitialTable(rows, cols)| - i, cols)
    decreases |InitialTable(rows, cols)| - i
  {
    var t := InitialTable(rows, cols);
    if i < |t| {
      BlankRowsWritten(rows, cols, i + 1);
      assert t[i] == seq(cols, _ => "");
    }
  }

  /** `createInitialTableContent` writes exactly what the editor's own writer
      would write for the grid it describes. */
  lemma InitialContentIsWritten(rows: int, cols: int)
    requires 0 <= cols <= MaxArrayLength
    ensures CreateInitialTableContent(rows, cols) == Success(GetContent(InitialTable(rows, cols)))
  {
    var t := InitialTable(rows, cols);
    BlankRowsWritten(rows, cols, 1);
    assert |t[0]| == cols;
  }

  /** A new table file opens as the grid it was created with: a numbered
      header and `rows - 1` blank rows. */
  lemma InitialContentReadsBack(rows: int, cols: int)
    requires 1 <= cols <= MaxArrayLength
    ensures CreateInitialTableContent(rows, cols).Success?
    ensures ParseTableContent(CreateInitialTableContent(rows, cols).value) == InitialTable(rows, cols)
  {
    InitialContentIsWritten(rows, cols);
    InitialTableWellFormed(rows, cols);
    ParseGetContent(InitialTable(rows, cols));
  }

  /** Whatever the dialog's template choice, a new table opens as the grid
      asked for, or as the 3 by 3 default when the size cannot be built. */
  lemma TemplateContentReadsBack(choice: TemplateChoice)
    ensures !choice.Predefined? ==>
      ParseTableContent(TableContentFromTemplate(choice))
        == if choice.Custom? && 1 <= DialogSize(choice.cols) <= MaxArrayLength
           then InitialTable(DialogSize(choice.rows), DialogSize(choice.cols))
           else InitialTable(3, 3)
    ensures choice == Predefined("") ==> ParseTableContent(TableContentFromTemplate(choice)) == InitialTable(3, 3)
  {
    InitialContentReadsBack(3, 3);
    if choice.Custom? && 1 <= DialogSize(choice.cols) <= MaxArrayLength {
      InitialContentReadsBack(DialogSize(choice.rows), DialogSize(choice.cols));
    }
  }

  // ---------------------------------------------------------------- file names

  /** Completing a completed name changes nothing. */
  lemma FinalFileNameIdempotent(name: string, kind: FileKind)
    ensures FinalFileName(FinalFileName(name, kind), kind) == FinalFileName(name, kind)
  {
  }

  /** A table file always opens in the table editor. A note opens there too
      when its name already ends in `.table.md`, or when it ends in `.table`
      and the added `.md` completes the table suffix. */
  lemma OpensInTableEditorExactly(name: string)
    ensures OpensInTableEditor(FinalFileName(name, TableFile))
    ensures OpensInTableEditor(FinalFileName(name, NoteFile))
        <==> EndsWith(name, TableSuffix) || (!EndsWith(name, NoteSuffix) && EndsWith(name, ".table"))
  {
    var r := FinalFileName(name, NoteFile);
    if EndsWith(name, TableSuffix) {
      TableSuffixIsNote(name);
    } else if !EndsWith(name, NoteSuffix) {
      assert r == name + NoteSuffix;
      assert TableSuffix == ".table" + NoteSuffix;
      EndsWithBoth(name, ".table", NoteSuffix);
    }
  }
}

=== FILE: table_files.dfy ===
/** Table files in the single-file build's store: the new-file dialog that
    names and fills them, and the table editor's save, which writes the grid
    back through `updateFile`. */
module TableFiles {
  import opened Wrappers
  import opened Strings
  import opened Seqs
  import opened Table
  import opened TableFacts
  import opened LegacyStore

  // ---------------------------------------------------------------- new-file dialog

  /** What `createFileFromDialog` ends in. */
  datatype DialogOutcome =
    | EmptyName                         // an alert asks for a name; nothing is created
    | MissingSelection                  // a log line; nothing is created
    | Created(data: LData, file: LFile) // the new record, opened right away
    | CreateFailed(error: Error)        // the rejected promise goes unhandled; nothing is created

  /** `createFileFromDialog(gameId, characterId, categoryId)`: the typed name is
      trimmed, an absent id is the empty string, a table file gets its content
      from the template list and a note starts empty. */
  function CreateFileFromDialog(d: LData, gameId: Id, characterId: Id, categoryId: Id,
                                typed: string, kind: FileKind, choice: TemplateChoice,
                                id: Id, now: Stamp): (o: DialogOutcome)
    ensures o.EmptyName? <==> Trim(typed) == ""
    ensures o.MissingSelection? <==> Trim(typed) != "" && (gameId == "" || characterId == "" || categoryId == "")
    ensures o.CreateFailed? <==>
      && Trim(typed) != "" && gameId != "" && characterId != "" && categoryId != ""
      && Locate(d.games, gameId, characterId, categoryId).Failure?
    ensures o.Created? ==>
      && o.data.files == d.files + [o.file]
      && o.file.id == id
      && o.file.name == FinalFileName(Trim(typed), kind)
      && (kind == NoteFile ==> o.file.content == "")
      && (kind == TableFile ==> o.file.content == TableContentFromTemplate(choice))
      && (o.file.gameId, o.file.characterId, o.file.categoryId) == (gameId, characterId, categoryId)
  {
    var name := Trim(typed);
    if name == "" then EmptyName
    else if gameId == "" || characterId == "" || categoryId == "" then MissingSelection
    else
      var content := if kind == TableFile then TableContentFromTemplate(choice) else "";
      CreateAndOpen(d, gameId, characterId, categoryId, FinalFileName(name, kind), content, id, now)
  }

  /** `createFile(...).then(file => openFile(file))`: the record the store
      appended is the one opened; a rejection creates nothing. */
  function CreateAndOpen(d: LData, gameId: Id, characterId: Id, categoryId: Id,
                         name: string, content: string, id: Id, now: Stamp): (o: DialogOutcome)
    ensures o.Created? || o.CreateFailed?
    ensures o.CreateFailed? <==> Locate(d.games, gameId, characterId, categoryId).Failure?
    ensures o.Created? ==>
      && o.data.files == d.files + [o.file]
      && o.file == LFile(id, name, content, gameId, characterId, categoryId, now, now)
  {
    match CreateFile(d, gameId, characterId, categoryId, name, content, id, now)
    case Success(r) => Created(r, r.files[|r.files| - 1])
    case Failure(e) => CreateFailed(e)
  }

  /** A table made from the dialog opens in the table editor, and as the grid
      the dialog asked for. */
  lemma DialogTableOpensAsAsked(d: LData, gameId: Id, characterId: Id, categoryId: Id,
                                typed: string, choice: TemplateChoice, id: Id, now: Stamp)
    requires !choice.Predefined?
    requires CreateFileFromDialog(d, gameId, characterId, categoryId, typed, TableFile, choice, id, now).Created?
    ensures var f := CreateFileFromDialog(d, gameId, characterId, categoryId, typed, TableFile, choice, id, now).file;
      && OpensInTableEditor(f.name)
      && ParseTableContent(f.content)
         == if choice.Custom? && 1 <= DialogSize(choice.cols) <= MaxArrayLength
            then InitialTable(DialogSize(choice.rows), DialogSize(choice.cols))
            else InitialTable(3, 3)
  {
    OpensInTableEditorExactly(Trim(typed));
    TemplateContentReadsBack(choice);
  }

  // ---------------------------------------------------------------- saving

  /** The file the table editor has open: the `{id, name, content}` object the tree builds. */
  datatype Editing = Editing(id: Id, name: string)

  /** `TableEditor.save()` as written: `updateFile(id, name, content)` meets a
      two-parameter `updateFile(fileId, content)`, so the name is stored as the
      content and the grid is dropped. A missing file is caught and alerted. */
  function SaveAsWritten(d: LData, current: Option<Editing>, t: Table, now: Stamp): (d': LData)
    ensures current.None? ==> d' == d
    ensures current.Some? && UpdateFileAsWritten(d, current.value.id, current.value.name, now).Failure? ==> d' == d
  {
    match current
    case None => d
    case Some(e) =>
      match UpdateFileAsWritten(d, e.id, e.name, now)
      case Success(r) => r
      case Failure(_) => d
  }

  /** `save()` as intended: the grid's Markdown reaches every copy of the record. */
  function Save(d: LData, current: Option<Editing>, t: Table, now: Stamp): (d': LData)
    ensures current.None? ==> d' == d
    ensures current.Some? && UpdateFile(d, current.value.id, GetContent(t), now).Failure? ==> d' == d
  {
    match current
    case None => d
    case Some(e) =>
      match UpdateFile(d, e.id, GetContent(t), now)
      case Success(r) => r
      case Failure(_) => d
  }

  /** A slice of a text lacking `c` lacks it too. */
  lemma SliceKeepsOut(s: string, t: string, i: nat, c: char)
    requires i + |t| <= |s| && t == s[i..i + |t|] && c !in s
    ensures c !in t
  {
    forall k | 0 <= k < |t| ensures t[k] != c {
      assert t[k] == s[i + k];
    }
  }

  lemma TrimKeepsOut(s: string, c: char)
    requires c !in s
    ensures c !in Trim(s)
  {
    var a := TrimStart(s);
    SliceKeepsOut(s, a, |s| - |a|, c);
    SliceKeepsOut(a, TrimEnd(a), 0, c);
  }

  lemma RowOfNoBar(line: string)
    requires '|' !in line
    ensures RowOf(line) == None
  {
    var l := Trim(line);
    TrimKeepsOut(line, '|');
    assert !StartsWith(l, "|") by {
      if 1 <= |l| {
        assert l[..1][0] == l[0] && l[0] in l;
      }
    }
  }

  /** One line of text without a bar opens as the default grid. */
  lemma NameReadsAsDefault(name: string)
    requires '|' !in name && '\n' !in name
    ensures ParseTableContent(name) == DefaultTable()
  {
    SplitNoSeparator(name, '\n');
    RowOfNoBar(name);
    FilterMapSkip(name, [], RowOf);
    assert [name] == [name] + [];
  }

  /** As written, saving replaces the stored record's content with the file's
      name, which opens as the default grid whatever table was being edited. */
  lemma AsWrittenSaveLosesTable(d: LData, e: Editing, t: Table, now: Stamp, i: nat)
    requires i < |d.files| && d.files[i].id == e.id && IdsDistinct(d.files)
    requires '|' !in e.name && '\n' !in e.name
    ensures |SaveAsWritten(d, Some(e), t, now).files| == |d.files|
    ensures SaveAsWritten(d, Some(e), t, now).files[i].content == e.name
    ensures ParseTableContent(SaveAsWritten(d, Some(e), t, now).files[i].content) == DefaultTable()
  {
    var k := FindFirst(d.files, (f: LFile) => f.id == e.id).value;
    assert k == i;
    NameReadsAsDefault(e.name);
  }

  /** A concrete instance: a one-cell table saved in `OneNote` comes back as the default grid. */
  lemma AsWrittenSaveExample()
    ensures ParseTableContent(SaveAsWritten(OneNote("old"), Some(Editing("f1", "BnB")), [["x"]], "t1").files[0].content) != [["x"]]
  {
    AsWrittenSaveLosesTable(OneNote("old"), Editing("f1", "BnB"), [["x"]], "t1", 0);
  }

  /** Saving as intended stores the grid's Markdown in the record and in every
      embedded copy, and reopening the record gives back the grid. */
  lemma SaveReadsBack(d: LData, e: Editing, t: Table, now: Stamp, i: nat)
    requires i < |d.files| && d.files[i].id == e.id && IdsDistinct(d.files)
    requires WellFormed(t)
    ensures |Save(d, Some(e), t, now).files| == |d.files|
    ensures Save(d, Some(e), t, now).files[i].content == GetContent(t)
    ensures ParseTableContent(Save(d, Some(e), t, now).files[i].content) == t
    ensures forall l, j ::
      (ValidLoc(d.games, l) && 0 <= j < |CatAt(d.games, l).files| && CatAt(d.games, l).files[j].id == e.id) ==>
        (ValidLoc(Save(d, Some(e), t, now).games, l) && CatAt(Save(d, Some(e), t, now).games, l).files[j].content == GetContent(t))
  {
    var k := FindFirst(d.files, (f: LFile) => f.id == e.id).value;
    assert k == i;
    ParseGetContent(t);
  }
}

=== FILE: tabs.dfy ===
/** The tab registry of the modular build: tab records in a `Map` keyed by a
    caller-chosen id, in insertion order, and the id of the active tab. The
    dashboard is a fixed tab that is never registered.

    `switchTab` only records a tab as active when the page has an element for
    it; the model takes the page to have one exactly for every registered tab
    and for the dashboard. */
module Tabs {
  import opened Wrappers
  import opened Strings
  import opened OrderedMap

  const Dashboard: string := "dashboard"

  /** A registered tab. `createdAt` is the caller's stamp. */
  datatype TabRec = TabRec(id: string, title: string, icon: string, content: string, closable: bool, createdAt: string)

  datatype Registry = Registry(tabs: OMap<TabRec>, active: Option<string>)

  /** The active id, when there is one, has an element on the page. */
  predicate Inv(s: Registry) {
    && Valid(s.tabs)
    && (s.active.Some? ==> s.active.value in s.tabs.vals || s.active.value == Dashboard)
  }

  function Initial(): (s: Registry)
    ensures Inv(s) && |s.tabs.keys| == 0 && s.active.None?
  {
    Registry(Empty(), None)
  }

  /** `switchTab(tabId)`, state part: the tab becomes active when it has an element. */
  function SwitchTab(s: Registry, tabId: string): (r: Registry)
    requires Inv(s)
    ensures Inv(r) && r.tabs == s.tabs
    ensures tabId in s.tabs.vals || tabId == Dashboard ==> r.active == Some(tabId)
    ensures !(tabId in s.tabs.vals || tabId == Dashboard) ==> r == s
  {
    if tabId in s.tabs.vals || tabId == Dashboard then s.(active := Some(tabId)) else s
  }

  /** `createTab(id, title, icon, content, closable)`: an id already registered
      is only switched to; a new one is added at the end and switched to. */
  function CreateTab(s: Registry, id: string, title: string, icon: string, content: string, closable: bool, now: string): (r: Registry)
    requires Inv(s)
    ensures Inv(r) && r.active == Some(id)
    ensures id in s.tabs.vals ==> r.tabs == s.tabs
    ensures id !in s.tabs.vals ==>
      && r.tabs.keys == s.tabs.keys + [id]
      && r.tabs.vals == s.tabs.vals[id := TabRec(id, title, icon, content, closable, now)]
  {
    if id in s.tabs.vals then SwitchTab(s, id)
    else SwitchTab(s.(tabs := Put(s.tabs, id, TabRec(id, title, icon, content, closable, now))), id)
  }

  /** `closeTab(tabId)`: refuses (false, no change) an unknown or unclosable
      tab. Closing the active tab activates the last remaining tab in
      insertion order, or the dashboard when none remain. */
  function CloseTab(s: Registry, tabId: string): (r: (bool, Registry))
    requires Inv(s)
    ensures Inv(r.1)
    ensures !r.0 <==> tabId !in s.tabs.vals || !s.tabs.vals[tabId].closable
    ensures !r.0 ==> r.1 == s
    ensures r.0 ==> r.1.tabs == Remove(s.tabs, tabId)
    ensures r.0 && s.active != Some(tabId) ==> r.1.active == s.active
    ensures r.0 && s.active == Some(tabId) ==>
      r.1.active == Some(if |r.1.tabs.keys| > 0 then r.1.tabs.keys[|r.1.tabs.keys| - 1] else Dashboard)
  {
    if tabId !in s.tabs.vals || !s.tabs.vals[tabId].closable then (false, s)
    else
      var s1 := Registry(Remove(s.tabs, tabId), if s.active == Some(tabId) then None else s.active);
      if s.active == Some(tabId) then
        var rest := s1.tabs.keys;
        (true, SwitchTab(s1, if |rest| > 0 then rest[|rest| - 1] else Dashboard))
      else
        (true, s1)
  }

  // ---------------------------------------------------------------- close all

  /** The key order with the keys of `gone` dropped. */
  function Keep(keys: seq<Key>, gone: set<Key>): (r: seq<Key>)
    ensures forall k :: k in r <==> k in keys && k !in gone
  {
    if |keys| == 0 then []
    else if keys[0] in gone then Keep(keys[1..], gone)
    else [keys[0]] + Keep(keys[1..], gone)
  }

  lemma {:induction false} WithoutKeep(keys: seq<Key>, gone: set<Key>, k: Key)
    ensures Without(Keep(keys, gone), k) == Keep(keys, gone + {k})
    decreases |keys|
  {
    if |keys| > 0 {
      WithoutKeep(keys[1..], gone, k);
    }
  }

  lemma KeepNone(keys: seq<Key>)
    ensures Keep(keys, {}) == keys
  {
    if |keys| > 0 {
      KeepNone(keys[1..]);
      assert [keys[0]] + keys[1..] == keys;
    }
  }

  /** The closable tabs, in insertion order: the list `closeAllTabs` walks. */
  function ClosableIds(s: Registry): (ids: seq<Key>)
    requires Valid(s.tabs)
    ensures forall k :: k in ids <==> k in s.tabs.vals && s.tabs.vals[k].closable
  {
    Keep(s.tabs.keys, set k | k in s.tabs.vals && !s.tabs.vals[k].closable)
  }

  /** `closableTabs.forEach(tabId => this.closeTab(tabId))`. */
  function CloseEach(s: Registry, ids: seq<Key>): (r: Registry)
    requires Inv(s)
    ensures Inv(r)
    decreases |ids|
  {
    if |ids| == 0 then s else CloseEach(CloseTab(s, ids[0]).1, ids[1..])
  }

  /** `closeAllTabs()`. */
  function CloseAllTabs(s: Registry): (r: Registry)
    requires Inv(s)
    ensures Inv(r)
  {
    CloseEach(s, ClosableIds(s))
  }

  /** Closing one closable tab drops it from the order and from the map. */
  lemma CloseOne(s: Registry, k: Key, keys: seq<Key>, gone: set<Key>)
    requires Inv(s) && k in s.tabs.vals && s.tabs.vals[k].closable
    requires s.tabs.keys == Keep(keys, gone)
    ensures CloseTab(s, k).1.tabs.keys == Keep(keys, gone + {k})
    ensures CloseTab(s, k).1.tabs.vals == s.tabs.vals - {k}
  {
    WithoutKeep(keys, gone, k);
  }

  /** The keys of a list, as a set. */
  function SetOf(ids: seq<Key>): (r: set<Key>)
    ensures forall x :: x in r <==> x in ids
  {
    if |ids| == 0 then {} else {ids[0]} + SetOf(ids[1..])
  }

  /** What closing the first listed tab leaves for the rest of the list. */
  lemma RestClosable(s: Registry, ids: seq<Key>)
    requires Inv(s) && Distinct(ids) && |ids| > 0
    requires forall i :: 0 <= i < |ids| ==> ids[i] in s.tabs.vals && s.tabs.vals[ids[i]].closable
    ensures Distinct(ids[1..])
    ensures forall i :: 0 <= i < |ids| - 1 ==>
      ids[1..][i] in CloseTab(s, ids[0]).1.tabs.vals && CloseTab(s, ids[0]).1.tabs.vals[ids[1..][i]].closable
  {
    var rest := ids[1..];
    forall a, b | 0 <= a < b < |rest| ensures rest[a] != rest[b] {
      assert rest[a] == ids[a + 1] && rest[b] == ids[b + 1];
    }
    forall i | 0 <= i < |rest| ensures rest[i] != ids[0] {
      assert rest[i] == ids[i + 1];
    }
  }

  /** Closing a list of distinct closable tabs one by one removes exactly those from the map. */
  lemma {:induction false} CloseEachRemoves(s: Registry, ids: seq<Key>)
    requires Inv(s) && Distinct(ids)
    requires forall i :: 0 <= i < |ids| ==> ids[i] in s.tabs.vals && s.tabs.vals[ids[i]].closable
    ensures CloseEach(s, ids).tabs.vals == s.tabs.vals - SetOf(ids)
    decreases |ids|
  {
    if |ids| == 0 {
      assert s.tabs.vals - {} == s.tabs.vals;
    } else {
      var k := ids[0];
      var s1 := CloseTab(s, k).1;
      RestClosable(s, ids);
      CloseEachRemoves(s1, ids[1..]);
      RemoveSetOfStep(s.tabs.vals, ids);
    }
  }

  /** Removing a list's head, then its tail, removes the list. */
  lemma RemoveSetOfStep(m: map<Key, TabRec>, ids: seq<Key>)
    requires |ids| > 0
    ensures m - {ids[0]} - SetOf(ids[1..]) == m - SetOf(ids)
  {
    assert SetOf(ids) == {ids[0]} + SetOf(ids[1..]);
  }

  /** ... and from the key order, which otherwise keeps its order. */
  lemma {:induction false} CloseEachOrder(s: Registry, ids: seq<Key>, keys: seq<Key>, gone: set<Key>)
    requires Inv(s) && Distinct(ids)
    requires forall i :: 0 <= i < |ids| ==> ids[i] in s.tabs.vals && s.tabs.vals[ids[i]].closable
    requires s.tabs.keys == Keep(keys, gone)
    ensures CloseEach(s, ids).tabs.keys == Keep(keys, gone + SetOf(ids))
    decreases |ids|
  {
    if |ids| == 0 {
      assert gone + {} == gone;
    } else {
      var k := ids[0];
      var s1 := CloseTab(s, k).1;
      CloseOne(s, k, keys, gone);
      RestClosable(s, ids);
      CloseEachOrder(s1, ids[1..], keys, gone + {k});
      SetOfStep(ids, gone);
    }
  }

  /** Adding a list's head, then its tail, adds the list. */
  lemma SetOfStep(ids: seq<Key>, gone: set<Key>)
    requires |ids| > 0
    ensures gone + {ids[0]} + SetOf(ids[1..]) == gone + SetOf(ids)
  {
    assert SetOf(ids) == {ids[0]} + SetOf(ids[1..]);
  }

  lemma KeepDistinct(keys: seq<Key>, gone: set<Key>)
    requires Distinct(keys)
    ensures Distinct(Keep(keys, gone))
  {
    if |keys| > 0 {
      KeepDistinct(keys[1..], gone);
      assert keys[0] !in keys[1..];
    }
  }

  /** The list `closeAllTabs` walks has no repeats and names closable tabs only. */
  lemma ClosableIdsFit(s: Registry)
    requires Inv(s)
    ensures Distinct(ClosableIds(s))
    ensures forall i :: 0 <= i < |ClosableIds(s)| ==> ClosableIds(s)[i] in s.tabs.vals && s.tabs.vals[ClosableIds(s)[i]].closable
    ensures SetOf(ClosableIds(s)) == set k | k in s.tabs.vals && s.tabs.vals[k].closable
  {
    KeepDistinct(s.tabs.keys, set k | k in s.tabs.vals && !s.tabs.vals[k].closable);
    var ids := ClosableIds(s);
    forall i | 0 <= i < |ids| ensures ids[i] in s.tabs.vals && s.tabs.vals[ids[i]].closable {
      assert ids[i] in ids;
    }
  }

  /** After `closeAllTabs` exactly the tabs that cannot be closed remain, unchanged. */
  lemma CloseAllKeepsUnclosable(s: Registry)
    requires Inv(s)
    ensures forall k :: k in CloseAllTabs(s).tabs.vals <==> k in s.tabs.vals && !s.tabs.vals[k].closable
    ensures forall k :: k in CloseAllTabs(s).tabs.vals ==> CloseAllTabs(s).tabs.vals[k] == s.tabs.vals[k]
  {
    ClosableIdsFit(s);
    CloseEachRemoves(s, ClosableIds(s));
  }

  /** ... and they keep their order. */
  lemma CloseAllKeepsOrder(s: Registry)
    requires Inv(s)
    ensures CloseAllTabs(s).tabs.keys == Keep(s.tabs.keys, set k | k in s.tabs.vals && s.tabs.vals[k].closable)
  {
    ClosableIdsFit(s);
    KeepNone(s.tabs.keys);
    CloseEachOrder(s, ClosableIds(s), s.tabs.keys, {});
    assert {} + SetOf(ClosableIds(s)) == SetOf(ClosableIds(s));
  }

  // ---------------------------------------------------------------- update

  /** The fields an `updateTab` call supplies; `None` is an absent key. */
  datatype TabUpdate = TabUpdate(title: Option<string>, icon: Option<string>, content: Option<string>, closable: Option<bool>)

  /** `Object.assign(tabData, updates)`. */
  function Merge(t: TabRec, u: TabUpdate): (r: TabRec)
    ensures r.id == t.id && r.createdAt == t.createdAt
    ensures r.title == u.title.GetOr(t.title) && r.icon == u.icon.GetOr(t.icon)
    ensures r.content == u.content.GetOr(t.content) && r.closable == u.closable.GetOr(t.closable)
  {
    TabRec(t.id, u.title.GetOr(t.title), u.icon.GetOr(t.icon), u.content.GetOr(t.content), u.closable.GetOr(t.closable), t.createdAt)
  }

  /** `updateTab(tabId, updates)`: false for an unknown id; otherwise the
      record absorbs the supplied fields and nothing else changes. */
  function UpdateTab(s: Registry, tabId: string, u: TabUpdate): (r: (bool, Registry))
    requires Inv(s)
    ensures Inv(r.1)
    ensures r.0 <==> tabId in s.tabs.vals
    ensures !r.0 ==> r.1 == s
    ensures r.0 ==> r.1.tabs.keys == s.tabs.keys && r.1.active == s.active
    ensures r.0 ==> r.1.tabs.vals == s.tabs.vals[tabId := Merge(s.tabs.vals[tabId], u)]
  {
    if tabId !in s.tabs.vals then (false, s)
    else (true, s.(tabs := Put(s.tabs, tabId, Merge(s.tabs.vals[tabId], u))))
  }

  /** An empty update changes nothing; a second identical update changes nothing more. */
  lemma UpdateTabIdempotent(s: Registry, tabId: string, u: TabUpdate)
    requires Inv(s)
    ensures UpdateTab(s, tabId, TabUpdate(None, None, None, None)).1 == s
    ensures UpdateTab(UpdateTab(s, tabId, u).1, tabId, u).1 == UpdateTab(s, tabId, u).1
  {
    if tabId in s.tabs.vals {
      assert Merge(s.tabs.vals[tabId], TabUpdate(None, None, None, None)) == s.tabs.vals[tabId];
      assert s.tabs.vals[tabId := s.tabs.vals[tabId]] == s.tabs.vals;
    }
  }

  // ---------------------------------------------------------------- dirty marker

  const Marker: string := "● "

  /** `setTabDirty(tabId, dirty)` on the shown title: marking adds `● ` unless
      it is there; clearing removes one leading `● `. */
  function DirtyTitle(title: string, dirty: bool): (r: string)
    ensures dirty ==> StartsWith(r, Marker)
    ensures dirty && StartsWith(title, Marker) ==> r == title
    ensures dirty && !StartsWith(title, Marker) ==> r == Marker + title
    ensures !dirty && StartsWith(title, Marker) ==> Marker + r == title
    ensures !dirty && !StartsWith(title, Marker) ==> r == title
  {
    if dirty then (if StartsWith(title, Marker) then title else Marker + title)
    else if StartsWith(title, Marker) then title[|Marker|..] else title
  }

  /** Marking twice is marking once; clearing a freshly marked title gives it
      back exactly when it was not marked already. */
  lemma DirtyTitleLaws(title: string)
    ensures DirtyTitle(DirtyTitle(title, true), true) == DirtyTitle(title, true)
    ensures DirtyTitle(DirtyTitle(title, true), false) == title <==> !StartsWith(title, Marker)
  {
    var m := DirtyTitle(title, true);
    if !StartsWith(title, Marker) {
      assert (Marker + title)[|Marker|..] == title;
    } else {
      assert |DirtyTitle(m, false)| < |title|;
    }
  }

  // ---------------------------------------------------------------- next / previous

  /** `switchToNextTab()`: the tab after the active one, wrapping to the first;
      an active id that is not a registered tab counts as before the first. */
  function NextTab(s: Registry): (r: Registry)
    requires Inv(s)
    ensures Inv(r) && r.tabs == s.tabs
    ensures |s.tabs.keys| == 0 ==> r == s
  {
    var ids := s.tabs.keys;
    var i := if s.active.Some? then IndexOf(ids, s.active.value) else -1;
    if i < |ids| - 1 then SwitchTab(s, ids[i + 1])
    else if |ids| > 0 then SwitchTab(s, ids[0])
    else s
  }

  /** `switchToPreviousTab()`: the tab before the active one, wrapping to the
      last; an unregistered active id counts as the first. */
  function PreviousTab(s: Registry): (r: Registry)
    requires Inv(s)
    ensures Inv(r) && r.tabs == s.tabs
    ensures |s.tabs.keys| == 0 ==> r == s
  {
    var ids := s.tabs.keys;
    var i := if s.active.Some? then IndexOf(ids, s.active.value) else -1;
    if i > 0 then SwitchTab(s, ids[i - 1])
    else if |ids| > 0 then SwitchTab(s, ids[|ids| - 1])
    else s
  }

  predicate ActiveIsRegistered(s: Registry) {
    s.active.Some? && s.active.value in s.tabs.vals
  }

  /** Where the wrap-around goes: from the last tab, or from no registered tab, to the first. */
  lemma NextTabTarget(s: Registry)
    requires Inv(s) && |s.tabs.keys| > 0
    ensures ActiveIsRegistered(NextTab(s))
    ensures !ActiveIsRegistered(s) ==> NextTab(s).active == Some(s.tabs.keys[0])
    ensures ActiveIsRegistered(s) && s.active.value == s.tabs.keys[|s.tabs.keys| - 1] ==> NextTab(s).active == Some(s.tabs.keys[0])
  {
    var ids := s.tabs.keys;
    if s.active.Some? && s.active.value in ids {
      var i := IndexOf(ids, s.active.value);
      if i < |ids| - 1 {
        assert ids[i + 1] in s.tabs.vals;
      }
      if s.active.value == ids[|ids| - 1] {
        assert ids[i] == ids[|ids| - 1];
      }
    }
    assert ids[0] in s.tabs.vals;
  }

  /** From the first tab, or from no registered tab, to the last. */
  lemma PreviousTabTarget(s: Registry)
    requires Inv(s) && |s.tabs.keys| > 0
    ensures ActiveIsRegistered(PreviousTab(s))
    ensures !ActiveIsRegistered(s) ==> PreviousTab(s).active == Some(s.tabs.keys[|s.tabs.keys| - 1])
    ensures ActiveIsRegistered(s) && s.active.value == s.tabs.keys[0] ==> PreviousTab(s).active == Some(s.tabs.keys[|s.tabs.keys| - 1])
  {
    var ids := s.tabs.keys;
    if s.active.Some? && s.active.value in ids {
      var i := IndexOf(ids, s.active.value);
      if i > 0 {
        assert ids[i - 1] in s.tabs.vals;
      }
    }
    assert ids[|ids| - 1] in s.tabs.vals;
  }

  /** Where next goes from a registered tab: the following one, or the first after the last. */
  lemma NextActive(s: Registry)
    requires Inv(s) && ActiveIsRegistered(s)
    ensures var ids := s.tabs.keys; var i := IndexOf(ids, s.active.value);
      i < |ids| && NextTab(s).active == Some(if i < |ids| - 1 then ids[i + 1] else ids[0])
  {
    var ids := s.tabs.keys;
    var i := IndexOf(ids, s.active.value);
    if i < |ids| - 1 {
      assert ids[i + 1] in s.tabs.vals;
    } else {
      assert ids[0] in s.tabs.vals;
    }
  }

  /** Where previous goes from a registered tab: the one before, or the last from the first. */
  lemma PreviousActive(s: Registry)
    requires Inv(s) && ActiveIsRegistered(s)
    ensures var ids := s.tabs.keys; var i := IndexOf(ids, s.active.value);
      i < |ids| && PreviousTab(s).active == Some(if i > 0 then ids[i - 1] else ids[|ids| - 1])
  {
    var ids := s.tabs.keys;
    var i := IndexOf(ids, s.active.value);
    if i > 0 {
      assert ids[i - 1] in s.tabs.vals;
    } else {
      assert ids[|ids| - 1] in s.tabs.vals;
    }
  }

  /** Previous undoes next while a registered tab is active. */
  lemma NextThenPrevious(s: Registry)
    requires Inv(s) && ActiveIsRegistered(s)
    ensures PreviousTab(NextTab(s)).active == s.active
  {
    var ids := s.tabs.keys;
    var i := IndexOf(ids, s.active.value);
    NextActive(s);
    var t := NextTab(s);
    var j := if i < |ids| - 1 then i + 1 else 0;
    assert ids[j] in t.tabs.vals;
    IndexOfDistinct(ids, j);
    PreviousActive(t);
    IndexOfDistinct(ids, i);
  }

  /** Next undoes previous while a registered tab is active. */
  lemma PreviousThenNext(s: Registry)
    requires Inv(s) && ActiveIsRegistered(s)
    ensures NextTab(PreviousTab(s)).active == s.active
  {
    var ids := s.tabs.keys;
    var i := IndexOf(ids, s.active.value);
    PreviousActive(s);
    var t := PreviousTab(s);
    var j := if i > 0 then i - 1 else |ids| - 1;
    assert ids[j] in t.tabs.vals;
    IndexOfDistinct(ids, j);
    NextActive(t);
    IndexOfDistinct(ids, i);
  }

  /** Next and previous undo each other while a registered tab is active. */
  lemma NextPreviousInverse(s: Registry)
    requires Inv(s) && ActiveIsRegistered(s)
    ensures PreviousTab(NextTab(s)).active == s.active
    ensures NextTab(PreviousTab(s)).active == s.active
  {
    NextThenPrevious(s);
    PreviousThenNext(s);
  }

  /** In a list without repeats, a key's first position is its position. */
  lemma IndexOfDistinct(ids: seq<Key>, i: nat)
    requires Distinct(ids) && i < |ids|
    ensures IndexOf(ids, ids[i]) == i
  {
    var j := IndexOf(ids, ids[i]);
    assert ids[j] == ids[i];
  }
}

=== FILE: wrappers.dfy ===
/** Failure-compatible wrappers shared by every module of the model.
    `Option` stands for JavaScript's `undefined`/`null`-or-value results,
    `Result` for an operation that either returns or throws an `Error`. */
module Wrappers {

  datatype Option<+T> = None | Some(value: T) {

    predicate IsFailure() {
      None?
    }

    function PropagateFailure<U>(): Option<U>
      requires None?
    {
      None
    }

    function Extract(): T
      requires Some?
    {
      value
    }

    /** `None` becomes the given error. */
    function ToResult(e: Error): (r: Result<T>)
      ensures r.Success? <==> Some?
      ensures r.Success? ==> r.value == value
      ensures r.Failure? ==> r.error == e
    {
      match this
      case Some(v) => Success(v)
      case None => Failure(e)
    }

    function GetOr(default: T): T {
      match this
      case Some(v) => v
      case None => default
    }
  }

  /** The kinds of exception the modelled code throws. */
  datatype Error =
    | NotFound(kind: string, id: string)   // "…が見つかりません"
    | InvalidFormat                        // "無効なデータ形式です"
    | ParseError                           // JSON.parse rejected the text
    | RangeError                           // `new Array(n)` with a negative length

  datatype Result<+R> = Success(value: R) | Failure(error: Error) {

    predicate IsFailure() {
      Failure?
    }

    function PropagateFailure<U>(): Result<U>
      requires Failure?
    {
      Failure(error)
    }

    function Extract(): R
      requires Success?
    {
      value
    }
  }
}
